=== FILE: README.md ===
# Scripts, script classes, the STM rewrite and the `Any`-method check

A Dafny model of four rewriting pieces of the Kotlin compiler and of one of
its plugins. Each works on an IR arena: declarations refer to each other
through integer symbols (`Handle`), and fresh symbols come from a counter
`next` that every operation threads through and returns.

- **Script generation** (`ScriptGenerator`). This builds the IR script record from a resolved
  script descriptor. It produces:
  - the `this` receiver;
  - the statements (one per initializer) and members (one per other source declaration), in source order;
  - the optional result property;
  - the call parameters, the implicit receivers and the provided properties.

  A descriptor whose supertype list is not a single type fails. So does a
  declaration that cannot be generated.
- **Script-to-class lowering** (`ScriptLowering`, `SymbolRemapper`,
  `DeepCopy`, `DeepCopyLemmas`). This replaces every script of a file, at its
  own index, with a final public class. The class contains:
  - a primary constructor with one parameter per call parameter;
  - one property per call parameter, each with a protected backing field and a getter;
  - a constructor body that calls `Any`'s constructor, then the instance initializer, then copies of the script's statements;
  - copies of the script's members.

  Copies are made by a symbol remapper. It first registers a fresh symbol for every declared symbol. It then sends the script's own classifier to the new class. The parent re-pointing visitor is modelled too.
- **STM rewrite** (`StmRuntime`, `StmContext`, `StmCalls`,
  `StmSharedClass`). This covers:
  - the search for the STM context in the enclosing functions;
  - the runtime class and method lookups and their errors;
  - `createParameterDeclarations` and `callFunction`;
  - the rewrites of atomic function calls, property accessor calls and function signatures;
  - `patchSharedClass`. It adds the STM field and wraps every method into a `runAtomically` transaction. It then replaces every eligible field or property with a delegate field plus a synthetic getter and setter.
- **`Any` methods in interfaces** (`AnyMethodChecker`). This is the front-end check that reports an
  interface member overriding a method of `Any`, with the cache of `Any`'s
  method names made an explicit state.

Errors are values: `Result`/`Option` in the functions. The STM rewrite
returns the class as far as it got, with the error that stopped it, because
the source mutates the class in place before it can fail.

The code has two points where the plugin's documented intent differs from
it, and the model follows the code. `patchSharedClass` is not
all-or-nothing: the STM field is added before later runtime lookups that
can still fail (`StmSharedClass.PatchSharedClassPartial`). Methods are
wrapped into transactions before the accessors are generated, so the
generated accessors are never wrapped (`StmSharedClass.RewriteMembers`).

## Model

| member | source | states |
|---|---|---|
| ScriptGenerator.GenerateScriptFails | compiler/ir/ir.psi2ir/src/org/jetbrains/kotlin/psi2ir/generators/ScriptGenerator.kt:44-53 | generation fails exactly when the descriptor does not have a single supertype or some source declaration cannot be generated; none or several supertypes are reported first, otherwise the error is that of the first failing declaration |
| ScriptGenerator.GenerateDeclarationsFails | compiler/ir/ir.psi2ir/src/org/jetbrains/kotlin/psi2ir/generators/ScriptGenerator.kt:47-53 | the declaration loop fails if and only if some declaration from the start index on is an initializer without body or a member the generator yields null for |
| ScriptGenerator.GenerateDeclarationsFirstError | compiler/ir/ir.psi2ir/src/org/jetbrains/kotlin/psi2ir/generators/ScriptGenerator.kt:47-53 | a failing loop reports the first declaration that cannot be generated, all earlier ones being fine |
| ScriptGenerator.GenerateDeclarationsStep | compiler/ir/ir.psi2ir/src/org/jetbrains/kotlin/psi2ir/generators/ScriptGenerator.kt:47-53 | an initializer adds exactly one statement (its body) and no member; any other declaration adds exactly one member and no statement |
| ScriptGenerator.GenerateStatementsOrder | compiler/ir/ir.psi2ir/src/org/jetbrains/kotlin/psi2ir/generators/ScriptGenerator.kt:47-51 | the statements are the bodies of the initializers, one per initializer, in source order |
| ScriptGenerator.GenerateMembersCount | compiler/ir/ir.psi2ir/src/org/jetbrains/kotlin/psi2ir/generators/ScriptGenerator.kt:47-53 | there is one member per source declaration that is not an initializer |
| ScriptGenerator.GenerateMembersOrder | compiler/ir/ir.psi2ir/src/org/jetbrains/kotlin/psi2ir/generators/ScriptGenerator.kt:47-53 | the members are the generated declarations of the non-initializers, in source order |
| ScriptGenerator.GenerateScript | compiler/ir/ir.psi2ir/src/org/jetbrains/kotlin/psi2ir/generators/ScriptGenerator.kt:18-23 | a generated script is the one declared for the symbol, carries the descriptor's name and consumes fresh symbols |
| ScriptGenerator.ExistingReceiversInScope | compiler/ir/ir.psi2ir/src/org/jetbrains/kotlin/psi2ir/generators/ScriptGenerator.kt:21-45 | the scope members and statements are generated in holds the receivers of the earlier scripts first and in order, then the script's own receiver exactly as it ends up in the script, then one INSTANCE_RECEIVER per implicit receiver of the descriptor, parented by the script and of that receiver's type, in order |
| ScriptGenerator.GenerateScriptReceiver | compiler/ir/ir.psi2ir/src/org/jetbrains/kotlin/psi2ir/generators/ScriptGenerator.kt:32-44 | the `this` receiver is an INSTANCE_RECEIVER of the descriptor's type whose parent is the script; the base class is the single supertype |
| ScriptGenerator.GenerateScriptBody | compiler/ir/ir.psi2ir/src/org/jetbrains/kotlin/psi2ir/generators/ScriptGenerator.kt:47-53 | the script's statements are the initializer bodies in order, and its declarations open with the generated members in order |
| ScriptGenerator.AssembleKeepsBody | compiler/ir/ir.psi2ir/src/org/jetbrains/kotlin/psi2ir/generators/ScriptGenerator.kt:48-57 | the properties appended later keep the statements and leave the members as the prefix of the declarations |
| ScriptGenerator.GenerateScriptProperties | compiler/ir/ir.psi2ir/src/org/jetbrains/kotlin/psi2ir/generators/ScriptGenerator.kt:55-75 | after the members come the result property (exactly when there is a result value, recorded as `resultProperty`) and then the provided properties in order, recorded in `providedProperties`; call parameters are not declarations |
| ScriptGenerator.AssembleProperties | compiler/ir/ir.psi2ir/src/org/jetbrains/kotlin/psi2ir/generators/ScriptGenerator.kt:55-75 | the same layout of properties for any statements and members |
| ScriptGenerator.GenerateScriptParameters | compiler/ir/ir.psi2ir/src/org/jetbrains/kotlin/psi2ir/generators/ScriptGenerator.kt:61-69 | one SCRIPT_CALL_PARAMETER per constructor parameter with its name, type and vararg type, in order; the final implicit receivers are one SCRIPT_IMPLICIT_RECEIVER of each descriptor receiver type, in order |
| ScriptGenerator.AssembleLayout | compiler/ir/ir.psi2ir/src/org/jetbrains/kotlin/psi2ir/generators/ScriptGenerator.kt:42-72 | symbols are declared in source order: receiver, first implicit receivers, result property, call parameters, final implicit receivers, provided properties |
| ScriptGenerator.GenerateScriptFresh | compiler/ir/ir.psi2ir/src/org/jetbrains/kotlin/psi2ir/generators/ScriptGenerator.kt:42-75 | every symbol the generator itself declares for the script (the receiver, the result property, the call parameters, the final implicit receivers and the provided properties) is new, between the first free symbol before and after, and no two coincide; member symbols are not covered |
| ScriptLowering.EntryError | compiler/ir/backend.jvm/src/org/jetbrains/kotlin/backend/jvm/lower/ScriptLowering.kt:60-62 | a file entry that is not a PSI entry fails the cast; a PSI entry without a parsed file is unexpected; both name the entry |
| ScriptLowering.MakeScriptClass | compiler/ir/backend.jvm/src/org/jetbrains/kotlin/backend/jvm/lower/ScriptLowering.kt:59-63 | the class is built exactly when the file entry leads to a parsed file, with the remapper starting after the class symbol |
| ScriptLowering.ScriptClassHeader | compiler/ir/backend.jvm/src/org/jetbrains/kotlin/backend/jvm/lower/ScriptLowering.kt:64-83 | the class spans the file, has origin SCRIPT_CLASS, the script's name, kind CLASS, PUBLIC, FINAL, the file as parent, exactly `Any` as supertype, the file's annotations and metadata, and a copy of the script's receiver |
| ScriptLowering.ScriptClassLayout | compiler/ir/backend.jvm/src/org/jetbrains/kotlin/backend/jvm/lower/ScriptLowering.kt:90-159 | the declarations are the primary constructor, one property per call parameter, then copies of the script's members in their original order |
| ScriptLowering.ScriptClassConstructor | compiler/ir/backend.jvm/src/org/jetbrains/kotlin/backend/jvm/lower/ScriptLowering.kt:90-97 | the primary constructor is public, belongs to the class, returns the class type and has one parameter per call parameter with the same name, type and origin, in order |
| ScriptLowering.ConstructorBodyOrder | compiler/ir/backend.jvm/src/org/jetbrains/kotlin/backend/jvm/lower/ScriptLowering.kt:144-153 | the constructor body is the `Any` constructor call, the instance initializer of the class, then copies of all script statements in order, re-parented to the class |
| ScriptLowering.CallParameters | compiler/ir/backend.jvm/src/org/jetbrains/kotlin/backend/jvm/lower/ScriptLowering.kt:93-142 | one constructor parameter and one property per call parameter, five new symbols each |
| ScriptLowering.CallParametersKeep | compiler/ir/backend.jvm/src/org/jetbrains/kotlin/backend/jvm/lower/ScriptLowering.kt:93-97 | each constructor parameter takes name, type, origin and vararg type of its call parameter and belongs to the constructor |
| ScriptLowering.CallParametersFresh | compiler/ir/backend.jvm/src/org/jetbrains/kotlin/backend/jvm/lower/ScriptLowering.kt:93-97 | each constructor parameter has a new symbol |
| ScriptLowering.CallParameterPropertyStores | compiler/ir/backend.jvm/src/org/jetbrains/kotlin/backend/jvm/lower/ScriptLowering.kt:98-139 | the property of a parameter has its name, a PROTECTED field of its type initialised from the parameter, and a getter returning that field read through the getter's own receiver |
| ScriptLowering.CallParametersStore | compiler/ir/backend.jvm/src/org/jetbrains/kotlin/backend/jvm/lower/ScriptLowering.kt:98-139 | the property at each position stores the constructor parameter at that position |
| ScriptLowering.ScriptClassProperties | compiler/ir/backend.jvm/src/org/jetbrains/kotlin/backend/jvm/lower/ScriptLowering.kt:98-139 | in the class, the properties after the constructor store its parameters position by position |
| ScriptLowering.RegisterInOrder | compiler/ir/backend.jvm/src/org/jetbrains/kotlin/backend/jvm/lower/ScriptLowering.kt:80-89 | visiting the receiver, the declarations and the statements records a copy for exactly the symbols they declare, all copies being new symbols |
| ScriptLowering.ScriptRemapperValid | compiler/ir/backend.jvm/src/org/jetbrains/kotlin/backend/jvm/lower/ScriptLowering.kt:77-89 | the remapper of a script never gives two symbols the same copy |
| ScriptLowering.ScriptClassReferencesRemapped | compiler/ir/backend.jvm/src/org/jetbrains/kotlin/backend/jvm/lower/ScriptLowering.kt:77-159 | the copied receiver, members and statements keep no reference to a symbol the script declares: each reference is a copy above the class symbol or an outside reference, outside references all stay as they are, and the script as a classifier becomes the class |
| ScriptLowering.CopyRefsRemapped | compiler/ir/backend.jvm/src/org/jetbrains/kotlin/backend/jvm/lower/ScriptLowering.kt:77-89 | the same relation for any tree copied through the script's remapper |
| ScriptLowering.ScriptClassCopiesFresh | compiler/ir/backend.jvm/src/org/jetbrains/kotlin/backend/jvm/lower/ScriptLowering.kt:77-89 | every symbol declared by the copied receiver, members and statements is above the class symbol, so distinct from the original's |
| ScriptLowering.LowerDecls | compiler/ir/backend.jvm/src/org/jetbrains/kotlin/backend/jvm/lower/ScriptLowering.kt:53-56 | lowering keeps the number of file declarations |
| ScriptLowering.LowerDeclsFails | compiler/ir/backend.jvm/src/org/jetbrains/kotlin/backend/jvm/lower/ScriptLowering.kt:53-62 | the pass fails exactly when the file has a script and the class cannot be built, with that error |
| ScriptLowering.LowerDeclsInPlace | compiler/ir/backend.jvm/src/org/jetbrains/kotlin/backend/jvm/lower/ScriptLowering.kt:53-56 | each script is replaced at its own index by the class built for it; every other declaration stays unchanged at its index |
| ScriptLowering.LowerDeclsIncreasing | compiler/ir/backend.jvm/src/org/jetbrains/kotlin/backend/jvm/lower/ScriptLowering.kt:53-67 | each class gets its own symbol, increasing with the index |
| ScriptLowering.Lower | compiler/ir/backend.jvm/src/org/jetbrains/kotlin/backend/jvm/lower/ScriptLowering.kt:52-57 | only the file's declarations change, and their number stays |
| ScriptLowering.ScriptStepFails | compiler/ir/backend.jvm/src/org/jetbrains/kotlin/backend/jvm/lower/ScriptLowering.kt:60-62 | building a class fails, for every script of a file alike, exactly when the file entry leads to no parsed file, with the error naming the entry |
| ScriptLowering.ScriptStepAllocates | compiler/ir/backend.jvm/src/org/jetbrains/kotlin/backend/jvm/lower/ScriptLowering.kt:64-67 | the class takes the symbol it is given and hands out only symbols above it |
| ScriptLowering.LowerReplacesScripts | compiler/ir/backend.jvm/src/org/jetbrains/kotlin/backend/jvm/lower/ScriptLowering.kt:43-75 | after a successful pass no file-level script remains; each became a SCRIPT_CLASS class named after it with the file as parent; other declarations are untouched; failure happens exactly for a file with a script and no parsed file |
| ScriptLowering.LowerBuildsClasses | compiler/ir/backend.jvm/src/org/jetbrains/kotlin/backend/jvm/lower/ScriptLowering.kt:52-59 | each class of the lowered file is exactly the class built for the script at its index, with new, distinct symbols |
| ScriptLowering.RePointOnlyScriptParents | compiler/ir/backend.jvm/src/org/jetbrains/kotlin/backend/jvm/lower/ScriptLowering.kt:189-207 | re-pointing changes only parent links equal to the script, to the class; every other handle stays in place |
| SymbolRemapper.RegisterRef | compiler/ir/backend.jvm/src/org/jetbrains/kotlin/backend/jvm/lower/ScriptLowering.kt:179-186 | a declared symbol (or script symbol) seen for the first time gets the next new symbol; one seen before keeps its copy |
| SymbolRemapper.Register | compiler/ir/backend.jvm/src/org/jetbrains/kotlin/backend/jvm/lower/ScriptLowering.kt:84-89 | a visit records exactly the declared symbols of the tree, keeps earlier entries and gives new ones new symbols |
| SymbolRemapper.RegisterValid | compiler/ir/backend.jvm/src/org/jetbrains/kotlin/backend/jvm/lower/ScriptLowering.kt:179-186 | registration keeps copies distinct and below the counter |
| SymbolRemapper.RegisterIdempotent | compiler/ir/backend.jvm/src/org/jetbrains/kotlin/backend/jvm/lower/ScriptLowering.kt:181-186 | visiting a tree a second time hands out nothing new |
| SymbolRemapper.RegisterAppend | compiler/ir/backend.jvm/src/org/jetbrains/kotlin/backend/jvm/lower/ScriptLowering.kt:84-89 | visiting two trees one after the other is visiting their concatenation |
| SymbolRemapper.CopyReferencesStay | compiler/ir/backend.jvm/src/org/jetbrains/kotlin/backend/jvm/lower/ScriptLowering.kt:173-186 | in a copy, a referenced symbol is either a registered copy or an original reference that the remapper has no copy for; a classifier reference may also be the class, and never stays the script |
| SymbolRemapper.CopyReferencesFollow | compiler/ir/backend.jvm/src/org/jetbrains/kotlin/backend/jvm/lower/ScriptLowering.kt:173-186 | each reference of the tree reappears in the copy, as its copy when registered and unchanged otherwise; a classifier reference to the script becomes the class |
| SymbolRemapper.CopyDeclaresFresh | compiler/ir/backend.jvm/src/org/jetbrains/kotlin/backend/jvm/lower/ScriptLowering.kt:77-89 | a copy through a remapper that registered the tree declares only registered copies |
| DeepCopyLemmas.ParamCopyRefs | compiler/ir/backend.jvm/src/org/jetbrains/kotlin/backend/jvm/lower/ScriptLowering.kt:80-83 | the copied receiver's handles are the remapper's images of the original's, in order |
| DeepCopyLemmas.ExprsCopyRefs | compiler/ir/backend.jvm/src/org/jetbrains/kotlin/backend/jvm/lower/ScriptLowering.kt:151-153 | copied statements are an order-preserving map of the originals' handles through the remapper |
| DeepCopyLemmas.DeclsCopyRefs | compiler/ir/backend.jvm/src/org/jetbrains/kotlin/backend/jvm/lower/ScriptLowering.kt:156-159 | copied declarations are an order-preserving map of the originals' handles through the remapper |
| StmRuntime.FindMethod | plugins/kotlin-stm/kotlin-stm-compiler/src/org/jetbrains/kotlinx/stm/compiler/backend/ir/StmIrGenerator.kt:492 | the first member function with the name, none exactly when no member has it |
| StmRuntime.FindStmClass | plugins/kotlin-stm/kotlin-stm-compiler/src/org/jetbrains/kotlinx/stm/compiler/backend/ir/StmIrGenerator.kt:478-485 | a runtime class is found exactly when it exists; otherwise the error names it |
| StmRuntime.FindMethodOrThrow | plugins/kotlin-stm/kotlin-stm-compiler/src/org/jetbrains/kotlinx/stm/compiler/backend/ir/StmIrGenerator.kt:487-495 | a method is found exactly when the class has one so named; otherwise the error names class and method |
| StmRuntime.FindStmMethodNamesMissing | plugins/kotlin-stm/kotlin-stm-compiler/src/org/jetbrains/kotlinx/stm/compiler/backend/ir/StmIrGenerator.kt:497-506 | the class lookup comes first; each failure names what is missing |
| StmContext.ContextParameter | plugins/kotlin-stm/kotlin-stm-compiler/src/org/jetbrains/kotlinx/stm/compiler/backend/ir/StmIrGenerator.kt:172-185 | a function offers the context through its dispatch receiver, else its extension receiver, else its last value parameter, whichever first has the context type; none when none has |
| StmContext.FetchStmContextOrNull | plugins/kotlin-stm/kotlin-stm-compiler/src/org/jetbrains/kotlinx/stm/compiler/backend/ir/StmIrGenerator.kt:171-189 | no context exactly when no function of the stack offers one, the empty stack included |
| StmContext.FetchFindsInnermost | plugins/kotlin-stm/kotlin-stm-compiler/src/org/jetbrains/kotlinx/stm/compiler/backend/ir/StmIrGenerator.kt:171-189 | the context read is the parameter of the first function of the stack that offers one |
| StmContext.FetchSkipsInnermost | plugins/kotlin-stm/kotlin-stm-compiler/src/org/jetbrains/kotlinx/stm/compiler/backend/ir/StmIrGenerator.kt:171-189 | pushing a function without context changes nothing; pushing one with a context makes it the answer |
| StmContext.FetchStmContext | plugins/kotlin-stm/kotlin-stm-compiler/src/org/jetbrains/kotlinx/stm/compiler/backend/ir/StmIrGenerator.kt:719-721 | fails, naming the function, exactly when the search finds no context; otherwise the same context |
| StmCalls.CreateParameterDeclarations | plugins/kotlin-stm/kotlin-stm-compiler/src/org/jetbrains/kotlinx/stm/compiler/backend/ir/StmIrGenerator.kt:68-91 | a dispatch or extension receiver exactly when the descriptor has one; one STM_PLUGIN value parameter per descriptor parameter with its name and type, owned by the function and placed at its offsets, new increasing symbols; fails when not overwriting and parameters exist |
| StmCalls.DeclareFunction | plugins/kotlin-stm/kotlin-stm-compiler/src/org/jetbrains/kotlinx/stm/compiler/backend/ir/StmIrGenerator.kt:93-119 | a new STM_PLUGIN function without body, with the descriptor's name, visibility, return type and parameter names and types, under the given parent, its parameters at the parent's offsets; it fails exactly when the descriptor has no return type |
| StmCalls.Invoke | plugins/kotlin-stm/kotlin-stm-compiler/src/org/jetbrains/kotlinx/stm/compiler/backend/ir/StmIrGenerator.kt:130-141 | a call with one slot per callee parameter, the given arguments first and the rest empty; more arguments than slots fail |
| StmCalls.CallFunction | plugins/kotlin-stm/kotlin-stm-compiler/src/org/jetbrains/kotlinx/stm/compiler/backend/ir/StmIrGenerator.kt:659-681 | the new call keeps the old call's offsets, type, origin and super qualifier, takes the given receivers, and puts the arguments at positions 0..n-1 |
| StmCalls.PatchAtomicFunctionCallShape | plugins/kotlin-stm/kotlin-stm-compiler/src/org/jetbrains/kotlinx/stm/compiler/backend/ir/StmIrGenerator.kt:781-809 | no context fails first, then a callee without transformed version; otherwise the call of the transformed function has the old arguments in order, the context last, and both receivers |
| StmCalls.PatchedCallFits | plugins/kotlin-stm/kotlin-stm-compiler/src/org/jetbrains/kotlinx/stm/compiler/backend/ir/StmIrGenerator.kt:700-808 | a call with all arguments of a function fits its patched version whenever a context is in scope |
| StmCalls.PatchPropertyAccessShape | plugins/kotlin-stm/kotlin-stm-compiler/src/org/jetbrains/kotlinx/stm/compiler/backend/ir/StmIrGenerator.kt:733-776 | accessors of the STM field are untouched; a receiver without class fails; a getter becomes the synthetic getter with `[ctx-or-null]`, a setter the synthetic setter with `[ctx-or-null, value]`, receivers kept |
| StmCalls.PatchPropertyAccessOutcome | plugins/kotlin-stm/kotlin-stm-compiler/src/org/jetbrains/kotlinx/stm/compiler/backend/ir/StmIrGenerator.kt:753-776 | for an accessor outside the STM field with a class receiver: a missing synthetic getter or setter fails with MissingRuntimeMethod naming the class and the accessor; a found getter succeeds exactly when it has a slot for the context, a found setter exactly when it has slots for the context and the value and the call passes a value |
| StmCalls.MapParametersKeeps | plugins/kotlin-stm/kotlin-stm-compiler/src/org/jetbrains/kotlinx/stm/compiler/backend/ir/StmIrGenerator.kt:712-714 | entries of other symbols stay in the argument map |
| StmCalls.MapParametersAt | plugins/kotlin-stm/kotlin-stm-compiler/src/org/jetbrains/kotlinx/stm/compiler/backend/ir/StmIrGenerator.kt:712-714 | each old parameter's symbol maps to the new parameter at its index (the last write wins) |
| StmCalls.PatchFunctionShape | plugins/kotlin-stm/kotlin-stm-compiler/src/org/jetbrains/kotlinx/stm/compiler/backend/ir/StmIrGenerator.kt:683-717 | fails exactly without return type; otherwise keeps name, visibility, parent, return type and body, the old parameters in order and one context parameter at index = old count, each old symbol mapped to the new parameter i |
| StmSharedClass.LambdaStatementsKeepOrder | plugins/kotlin-stm/kotlin-stm-compiler/src/org/jetbrains/kotlinx/stm/compiler/backend/ir/StmIrGenerator.kt:260-265 | the lambda keeps the statements in order: the same values are returned in the same order, now from the lambda, and other statements are kept |
| StmSharedClass.WrapFunctionIntoTransaction | plugins/kotlin-stm/kotlin-stm-compiler/src/org/jetbrains/kotlinx/stm/compiler/backend/ir/StmIrGenerator.kt:222-328 | missing return type, a `runAtomically` with fewer than two parameters, and a missing dispatch receiver fail in that order; otherwise the method's body is a single return of `runAtomically(ctx-or-null, lambda)` on the STM field, the lambda running the original statements |
| StmSharedClass.WrapFunctionsShape | plugins/kotlin-stm/kotlin-stm-compiler/src/org/jetbrains/kotlinx/stm/compiler/backend/ir/StmIrGenerator.kt:581-583 | wrapping touches only simple functions and keeps every declaration at its index |
| StmSharedClass.WrapFunctionsWraps | plugins/kotlin-stm/kotlin-stm-compiler/src/org/jetbrains/kotlinx/stm/compiler/backend/ir/StmIrGenerator.kt:581-583 | on success every method of the class is its transaction |
| StmSharedClass.AddDelegateField | plugins/kotlin-stm/kotlin-stm-compiler/src/org/jetbrains/kotlinx/stm/compiler/backend/ir/StmIrGenerator.kt:330-376 | one PRIVATE, final, non-static DELEGATED_MEMBER field `<property><suffix>` of the universal delegate type is appended, initialised by a call of the wrap method on the STM field with the backing field's initializer, or a null, as first argument; it fails exactly when the class has no `this` receiver (reported as such) or the wrap method has no parameter |
| StmSharedClass.AddGetFunction | plugins/kotlin-stm/kotlin-stm-compiler/src/org/jetbrains/kotlinx/stm/compiler/backend/ir/StmIrGenerator.kt:378-388 | a getter exactly when the class declares the synthetic getter, with its name and a new symbol |
| StmSharedClass.AddGetFunctionBody | plugins/kotlin-stm/kotlin-stm-compiler/src/org/jetbrains/kotlinx/stm/compiler/backend/ir/StmIrGenerator.kt:389-406 | the getter's body is one return of `getVar(ctx, delegate)` called on the STM field |
| StmSharedClass.AddSetFunction | plugins/kotlin-stm/kotlin-stm-compiler/src/org/jetbrains/kotlinx/stm/compiler/backend/ir/StmIrGenerator.kt:409-419 | a setter exactly when the class declares the synthetic setter, with its name and a new symbol |
| StmSharedClass.AddSetFunctionBody | plugins/kotlin-stm/kotlin-stm-compiler/src/org/jetbrains/kotlinx/stm/compiler/backend/ir/StmIrGenerator.kt:420-436 | the setter's body is one Unit call of `setVar(ctx, delegate, value)` on the STM field |
| StmSharedClass.AddDelegateAndAccessorFunctionsShape | plugins/kotlin-stm/kotlin-stm-compiler/src/org/jetbrains/kotlinx/stm/compiler/backend/ir/StmIrGenerator.kt:449-450 | exactly one declaration is added: the private, final, non-static delegate field named after the property |
| StmSharedClass.AddDelegateAndAccessorFunctionsAccessors | plugins/kotlin-stm/kotlin-stm-compiler/src/org/jetbrains/kotlinx/stm/compiler/backend/ir/StmIrGenerator.kt:452-462 | the accessors come getter first, each exactly when the class declares it, with new symbols |
| StmSharedClass.TransformFromFrame | plugins/kotlin-stm/kotlin-stm-compiler/src/org/jetbrains/kotlinx/stm/compiler/backend/ir/StmIrGenerator.kt:586-625 | the accessor pass changes only the class's declarations, none before the position it starts from |
| StmSharedClass.TransformFromClears | plugins/kotlin-stm/kotlin-stm-compiler/src/org/jetbrains/kotlinx/stm/compiler/backend/ir/StmIrGenerator.kt:586-625 | a successful pass leaves no property with backing field, or field, whose name is neither an STM field name nor sharable |
| StmSharedClass.TransformFromKeeps | plugins/kotlin-stm/kotlin-stm-compiler/src/org/jetbrains/kotlinx/stm/compiler/backend/ir/StmIrGenerator.kt:586-625 | a successful pass keeps every other original declaration, in order, and removes the candidates; all it adds is new |
| StmSharedClass.RewriteMembersClears | plugins/kotlin-stm/kotlin-stm-compiler/src/org/jetbrains/kotlinx/stm/compiler/backend/ir/StmIrGenerator.kt:581-625 | wrapping then the accessor pass changes only declarations, and on success no candidate is left |
| StmSharedClass.PatchSharedClassPartial | plugins/kotlin-stm/kotlin-stm-compiler/src/org/jetbrains/kotlinx/stm/compiler/backend/ir/StmIrGenerator.kt:560-579 | a missing STM interface leaves the class untouched; a lookup failing after it leaves the class with the STM field added |
| StmSharedClass.PatchSharedClassClears | plugins/kotlin-stm/kotlin-stm-compiler/src/org/jetbrains/kotlinx/stm/compiler/backend/ir/StmIrGenerator.kt:560-626 | a successful patch leaves no candidate field or property |
| AnyMethodChecker.MethodNames | compiler/fir/checkers/src/org/jetbrains/kotlin/fir/analysis/checkers/declaration/FirMethodOfAnyImplementedInInterfaceChecker.kt:30-33 | a name is among `Any`'s methods exactly when some simple function of `Any` that is not a constructor has it |
| AnyMethodChecker.ResolveAnyMethods | compiler/fir/checkers/src/org/jetbrains/kotlin/fir/analysis/checkers/declaration/FirMethodOfAnyImplementedInInterfaceChecker.kt:27-34 | the names are empty when `Any` does not resolve to a regular class |
| AnyMethodChecker.GetAnyMethods | compiler/fir/checkers/src/org/jetbrains/kotlin/fir/analysis/checkers/declaration/FirMethodOfAnyImplementedInInterfaceChecker.kt:21-37 | the cached names when set; otherwise the resolved names, now cached |
| AnyMethodChecker.GetAnyMethodsCached | compiler/fir/checkers/src/org/jetbrains/kotlin/fir/analysis/checkers/declaration/FirMethodOfAnyImplementedInInterfaceChecker.kt:21-37 | once computed, the names come from the cache whatever `Any` resolves to later |
| AnyMethodChecker.CheckReports | compiler/fir/checkers/src/org/jetbrains/kotlin/fir/analysis/checkers/declaration/FirMethodOfAnyImplementedInInterfaceChecker.kt:40-52 | nothing but an interface class is reported on, and the cache is left alone; an interface gets exactly the offending members' reports in declaration order |
| AnyMethodChecker.CheckMembersReports | compiler/fir/checkers/src/org/jetbrains/kotlin/fir/analysis/checkers/declaration/FirMethodOfAnyImplementedInInterfaceChecker.kt:45-51 | the loop reports exactly the offending members, in order, against one set of names, and sets the cache unless the interface has no member |
| AnyMethodChecker.OffendingExactly | compiler/fir/checkers/src/org/jetbrains/kotlin/fir/analysis/checkers/declaration/FirMethodOfAnyImplementedInInterfaceChecker.kt:48-56 | a source is reported iff some member with it is a simple function named like a method of `Any`, with body, not an operator, and an override; members without source are never reported |
| AnyMethodChecker.OffendingCount | compiler/fir/checkers/src/org/jetbrains/kotlin/fir/analysis/checkers/declaration/FirMethodOfAnyImplementedInInterfaceChecker.kt:45-56 | the number of reports equals the number of positions whose member is a non-operator override of a method of Any with a body and has a source |

## Left out

- The deep-copy engine (`DeepCopyIrTreeWithSymbols`, the type remapper, `deepCopyWithSymbols`, `patchDeclarationParents`) is library code. It is not part of this model. It is modelled abstractly in `DeepCopy`. A copy rebuilds the tree and sends every handle occurrence through one remapping function. Parents are set either structurally or through the remapper.
- The symbol table, descriptors and type translation are compiler infrastructure. Symbols are plain numbers from a threaded counter, so the numbering is the model's own. Types are given, not translated.
- PSI lookups are reduced to a file entry that may carry a parsed file. Source offsets are a `Span` value.
- In the script generator, the scope handling of the symbol table becomes the list of parameters in scope. The body generator and the member generator become parameters of the model (`Generators`).
- ScriptGenerator.GenerateScriptFresh: the member generator is a parameter that is not given the symbol counter. So the symbols of the generated members are not shown to be new, nor distinct from the generator's own.
- ScriptLowering.BuildScriptClass: the source copies the receiver after the remapper has visited only the receiver, before the declarations and statements. The model copies it with the remapper after all three visits. The two differ only for a symbol the receiver refers to and a later declaration declares.
- The STM plugin's constants and name predicates are defined outside StmIrGenerator.kt. They are uninterpreted fields of `StmNames`. These cover the runtime class and method names, the STM field name, the sharable suffix, `isSTMFieldName`, `isSharable`, and the getter and setter names.
- The runtime lookups are a map from class names to member lists (`Runtime`). The descriptor's member functions (`members`) and the functions enclosing the class (`enclosing`) are parameters.
- What a transaction does at run time is not modelled. It is behaviour of the generated code, not of the compiler.
- StmSharedClass.PatchSharedClassClears: nothing requires `isSTMFieldName` of the STM field's name, which the source's constants ensure. With other names the model would treat the new STM field as a delegate candidate.
- `StmSharedClass.RewriteMembers` requires that a delegate field's name is itself sharable. Only then does the flat transform, which also visits the fields it appends, terminate. Otherwise the source would give every delegate a delegate of its own.
- StmSharedClass.WrapFunctionIntoTransaction: the body's deep copy into the lambda is the body itself, without fresh symbols. The `?: unitType` fallback for the return type is never reached, because a missing return type fails first.
- StmCalls.PatchFunctionShape: the function body is kept as is rather than deep-copied. Type parameters, `overriddenSymbols` and modality are not modelled.
- StmCalls.PatchPropertyAccessShape: the receivers and the new value are used as they are; `deepCopyWithVariables` is the identity here.
- StmCalls.PatchAtomicFunctionCallShape: the copies of receivers and arguments are the originals.
- StmCalls.CreateParameterDeclarations: Kotlin's `assert` on empty value parameters is always an error. The assert on empty type parameters is not modelled, since the IR model has no type parameters.
- StmSharedClass.PatchSharedClassPartial: the STM field's initializer call, `irCallOp`, is built with no argument slots.
- The checker keeps `Any`'s method names in a global cache; here the cache is a state passed in and returned. The resolution of `Any` is a parameter: the member list of `Any` as a regular class, or none. The reporter is the list of reported source elements.

=== FILE: any_method_checker.dfy ===
/** The front-end check that an interface does not implement a method of
    `Any` (`FirMethodOfAnyImplementedInInterfaceChecker`). The checker's
    global cache of `Any`'s method names is an explicit state passed in and
    returned. */
module AnyMethodChecker {
  import opened Wrappers
  import opened Ir

  /** A function member as the check sees it; `source` is its source
      element, if it has one. */
  datatype FirFunction = FirFunction(
    name: Name,
    isConstructor: bool,
    hasBody: bool,
    isOperator: bool,
    isOverride: bool,
    source: Option<nat>)

  datatype FirMember =
    | SimpleFunctionMember(fn: FirFunction)
    | OtherMember(name: Name, source: Option<nat>)

  datatype FirDeclaration =
    | ClassDeclaration(kind: ClassKind, declarations: seq<FirMember>)
    | OtherDeclaration

  /** The cache: unset until the first lookup. */
  type Cache = Option<set<Name>>

  /** The names of the simple, non-constructor functions among `ds`. */
  function MethodNames(ds: seq<FirMember>): (r: set<Name>)
    ensures forall n :: n in r <==>
      exists i :: 0 <= i < |ds| && ds[i].SimpleFunctionMember? && !ds[i].fn.isConstructor && ds[i].fn.name == n
  {
    set i | 0 <= i < |ds| && ds[i].SimpleFunctionMember? && !ds[i].fn.isConstructor :: ds[i].fn.name
  }

  /** The method names of `Any`: those of its class declarations when it
      resolves to a regular class (`anyClass`), none otherwise. */
  function ResolveAnyMethods(anyClass: Option<seq<FirMember>>): (r: set<Name>)
    ensures anyClass.None? ==> r == {}
    ensures anyClass.Some? ==> r == MethodNames(anyClass.value)
  {
    if anyClass.Some? then MethodNames(anyClass.value) else {}
  }

  /** `getAnyMethods`: the cached names when the cache is set; otherwise
      they are resolved and the cache is set to them. */
  function GetAnyMethods(cache: Cache, anyClass: Option<seq<FirMember>>): (r: (set<Name>, Cache))
    ensures r.1 == Some(r.0)
    ensures cache.Some? ==> r.0 == cache.value
    ensures cache.None? ==> r.0 == ResolveAnyMethods(anyClass)
  {
    if cache.Some? then (cache.value, cache)
    else
      var methods := ResolveAnyMethods(anyClass);
      (methods, Some(methods))
  }

  /** Once the cache is set, later calls return the same names without
      resolving `Any` again, whatever it would resolve to now. */
  lemma GetAnyMethodsCached(cache: Cache, anyClass: Option<seq<FirMember>>, later: Option<seq<FirMember>>)
    ensures var (first, cache') := GetAnyMethods(cache, anyClass);
      GetAnyMethods(cache', later) == (first, cache')
  {
  }

  /** The condition the check reports: a simple function named like a method
      of `Any`, with a body, not an operator, and an override. */
  predicate Offends(m: FirMember, methods: set<Name>) {
    && m.SimpleFunctionMember?
    && m.fn.name in methods
    && m.fn.hasBody
    && !m.fn.isOperator
    && m.fn.isOverride
  }

  function SourceOf(m: FirMember): Option<nat> {
    if m.SimpleFunctionMember? then m.fn.source else m.source
  }

  /** The reports the check should give: the source of every offending
      member that has one, in declaration order. */
  function Offending(ds: seq<FirMember>, methods: set<Name>): seq<nat> {
    if ds == [] then []
    else (if Offends(ds[0], methods) && SourceOf(ds[0]).Some? then [SourceOf(ds[0]).value] else [])
         + Offending(ds[1..], methods)
  }

  /** The report loop: `getAnyMethods` is asked once per member, and each
      offending member with a source element is reported. */
  function CheckMembers(ds: seq<FirMember>, cache: Cache, anyClass: Option<seq<FirMember>>): (r: (seq<nat>, Cache))
  {
    if ds == [] then ([], cache)
    else
      var (methods, cache') := GetAnyMethods(cache, anyClass);
      var report := if Offends(ds[0], methods) && SourceOf(ds[0]).Some? then [SourceOf(ds[0]).value] else [];
      var (rest, cache'') := CheckMembers(ds[1..], cache', anyClass);
      (report + rest, cache'')
  }

  /** `check`: nothing but interface classes is looked at. */
  function Check(d: FirDeclaration, cache: Cache, anyClass: Option<seq<FirMember>>): (r: (seq<nat>, Cache))
  {
    if !d.ClassDeclaration? || d.kind != InterfaceClass then ([], cache)
    else CheckMembers(d.declarations, cache, anyClass)
  }

  /** The names the check compares against: the cached ones, else those
      `Any` resolves to. */
  function AnyMethods(cache: Cache, anyClass: Option<seq<FirMember>>): set<Name> {
    if cache.Some? then cache.value else ResolveAnyMethods(anyClass)
  }

  /** The loop reports exactly the offending members with a source, in
      order, against one set of names; it sets the cache unless there was
      no member to look at. */
  lemma {:induction false} CheckMembersReports(ds: seq<FirMember>, cache: Cache, anyClass: Option<seq<FirMember>>)
    ensures CheckMembers(ds, cache, anyClass).0 == Offending(ds, AnyMethods(cache, anyClass))
    ensures ds == [] ==> CheckMembers(ds, cache, anyClass).1 == cache
    ensures ds != [] ==> CheckMembers(ds, cache, anyClass).1 == Some(AnyMethods(cache, anyClass))
    decreases |ds|
  {
    if ds != [] {
      var (methods, cache') := GetAnyMethods(cache, anyClass);
      CheckMembersReports(ds[1..], cache', anyClass);
      assert AnyMethods(cache', anyClass) == AnyMethods(cache, anyClass);
    }
  }

  /** A declaration that is not an interface gets no report and leaves the
      cache alone; an interface gets a report for exactly the offending
      members with a source element, in declaration order. */
  lemma CheckReports(d: FirDeclaration, cache: Cache, anyClass: Option<seq<FirMember>>)
    ensures !d.ClassDeclaration? || d.kind != InterfaceClass ==> Check(d, cache, anyClass) == ([], cache)
    ensures d.ClassDeclaration? && d.kind == InterfaceClass ==>
      Check(d, cache, anyClass).0 == Offending(d.declarations, AnyMethods(cache, anyClass))
  {
    if d.ClassDeclaration? && d.kind == InterfaceClass {
      CheckMembersReports(d.declarations, cache, anyClass);
    }
  }

  /** A source is reported if and only if some member with that source
      offends; members without a source are never reported. */
  lemma {:induction false} OffendingExactly(ds: seq<FirMember>, methods: set<Name>, x: nat)
    ensures x in Offending(ds, methods) <==>
      exists i :: 0 <= i < |ds| && Offends(ds[i], methods) && SourceOf(ds[i]) == Some(x)
    decreases |ds|
  {
    if ds != [] {
      OffendingExactly(ds[1..], methods, x);
      if x in Offending(ds[1..], methods) {
        var i :| 0 <= i < |ds[1..]| && Offends(ds[1..][i], methods) && SourceOf(ds[1..][i]) == Some(x);
        assert ds[i + 1] == ds[1..][i];
      }
      if exists i :: 0 <= i < |ds| && Offends(ds[i], methods) && SourceOf(ds[i]) == Some(x) {
        var i :| 0 <= i < |ds| && Offends(ds[i], methods) && SourceOf(ds[i]) == Some(x);
        if i > 0 {
          assert ds[1..][i - 1] == ds[i];
        }
      }
    }
  }

  /** The positions of the members that offend and have a source. */
  function OffendingIndices(ds: seq<FirMember>, methods: set<Name>): set<int> {
    set i | 0 <= i < |ds| && Offends(ds[i], methods) && SourceOf(ds[i]).Some?
  }

  /** The reports of two lists of members are the reports of each, in turn. */
  lemma {:induction false} OffendingAppend(a: seq<FirMember>, b: seq<FirMember>, methods: set<Name>)
    ensures Offending(a + b, methods) == Offending(a, methods) + Offending(b, methods)
    decreases |a|
  {
    if a == [] {
      assert a + b == b;
    } else {
      assert (a + b)[0] == a[0];
      assert (a + b)[1..] == a[1..] + b;
      OffendingAppend(a[1..], b, methods);
    }
  }

  /** One report per member that offends and has a source. */
  lemma {:induction false} OffendingCount(ds: seq<FirMember>, methods: set<Name>)
    ensures |Offending(ds, methods)| == |OffendingIndices(ds, methods)|
    decreases |ds|
  {
    if ds != [] {
      var n := |ds| - 1;
      var init := ds[..n];
      assert ds == init + [ds[n]];
      OffendingAppend(init, [ds[n]], methods);
      assert [ds[n]][1..] == [];
      OffendingCount(init, methods);
      var last := if Offends(ds[n], methods) && SourceOf(ds[n]).Some? then {n} else {};
      assert OffendingIndices(ds, methods) == OffendingIndices(init, methods) + last by {
        assert forall i :: 0 <= i < n ==> init[i] == ds[i];
      }
      assert n !in OffendingIndices(init, methods);
    }
  }
}

=== FILE: deep_copy.dfy ===
/** The deep-copy and re-parenting engine, modelled abstractly.

    Every handle a node mentions is a reference of some kind (`Ref`). A copy
    rebuilds the tree node by node, sends every reference through one
    function `m` (the symbol remapper) and sets the parent of every copied
    declaration to its new structural container, with the root's parent given
    by the caller. The lemmas below show that a copy is exactly an
    order-preserving map of the tree's references through `m`. */
module DeepCopy {
  import opened Wrappers
  import opened Ir

  /** What a handle occurrence means: a symbol the node declares, a script
      symbol it declares, a reference to a value or function, a reference to
      a classifier (class or script), or a parent back-link. */
  datatype RefKind = Declared | DeclaredScript | Referenced | ReferencedClassifier | ParentRef

  datatype Ref = Ref(kind: RefKind, h: Handle)

  /** How a traversal sets parents: `Structural` re-points every declaration
      to its new container (`patchDeclarationParents`); `ThroughRemapper`
      sends each existing parent link through the remapper. */
  datatype ParentMode = Structural | ThroughRemapper

  /** Every reference of `rs` sent through `m`, in order, kinds kept. */
  function MapRefs(m: Ref -> Handle, rs: seq<Ref>): (r: seq<Ref>)
    ensures |r| == |rs|
  {
    if rs == [] then [] else [Ref(rs[0].kind, m(rs[0]))] + MapRefs(m, rs[1..])
  }

  lemma {:induction false} MapRefsIndex(m: Ref -> Handle, rs: seq<Ref>, i: nat)
    requires i < |rs|
    ensures MapRefs(m, rs)[i] == Ref(rs[i].kind, m(rs[i]))
  {
    if i > 0 {
      MapRefsIndex(m, rs[1..], i - 1);
    }
  }

  lemma {:induction false} MapRefsAppend(m: Ref -> Handle, a: seq<Ref>, b: seq<Ref>)
    ensures MapRefs(m, a + b) == MapRefs(m, a) + MapRefs(m, b)
  {
    if a != [] {
      assert (a + b)[1..] == a[1..] + b;
      MapRefsAppend(m, a[1..], b);
    } else {
      assert a + b == b;
    }
  }

  // ---------------------------------------------------------------------
  // References of a tree, in traversal order. `wp` adds parent links.

  function OneRef(k: RefKind, h: Handle): seq<Ref> {
    [Ref(k, h)]
  }

  function OptRef(k: RefKind, h: Option<Handle>): seq<Ref> {
    if h.Some? then [Ref(k, h.value)] else []
  }

  function AllRefs(k: RefKind, hs: seq<Handle>): seq<Ref> {
    if hs == [] then [] else [Ref(k, hs[0])] + AllRefs(k, hs[1..])
  }

  function ParentRefs(p: Option<Handle>, wp: bool): seq<Ref> {
    if wp then OptRef(ParentRef, p) else []
  }

  function TypeRefs(t: IrType): seq<Ref> {
    match t
    case ClassType(c, args, _) => OneRef(ReferencedClassifier, c) + TypesRefs(args)
    case OtherType(_, _) => []
  }

  function TypesRefs(ts: seq<IrType>): seq<Ref> {
    if ts == [] then [] else TypeRefs(ts[0]) + TypesRefs(ts[1..])
  }

  function OptTypeRefs(t: Option<IrType>): seq<Ref> {
    if t.Some? then TypeRefs(t.value) else []
  }

  function OptTypesRefs(ts: seq<Option<IrType>>): seq<Ref> {
    if ts == [] then [] else OptTypeRefs(ts[0]) + OptTypesRefs(ts[1..])
  }

  function ParamRefs(p: Param, wp: bool): seq<Ref> {
    OneRef(Declared, p.sym) + ParentRefs(p.parent, wp) + TypeRefs(p.typ) + OptTypeRefs(p.varargElementType)
  }

  function OptParamRefs(p: Option<Param>, wp: bool): seq<Ref> {
    if p.Some? then ParamRefs(p.value, wp) else []
  }

  function ParamsRefs(ps: seq<Param>, wp: bool): seq<Ref> {
    if ps == [] then [] else ParamRefs(ps[0], wp) + ParamsRefs(ps[1..], wp)
  }

  function FunRefs(f: Fun, wp: bool): seq<Ref>
    decreases f, 1
  {
    OneRef(Declared, f.sym) + ParentRefs(f.parent, wp) + OptParamRefs(f.dispatchReceiver, wp) + OptParamRefs(f.extensionReceiver, wp) + ParamsRefs(f.valueParameters, wp) + OptTypeRefs(f.returnType) + BodyRefs(f.body, wp)
  }

  function BodyRefs(b: Body, wp: bool): seq<Ref>
    decreases b, 1
  {
    match b
    case NoBody => []
    case BlockBody(ss) => ExprsRefs(ss, wp)
  }

  function ExprRefs(e: Expr, wp: bool): seq<Ref>
    decreases e, 1
  {
    match e
    case GetValue(_, t, s, _) => TypeRefs(t) + OneRef(Referenced, s)
    case GetField(_, t, f, r) => TypeRefs(t) + OneRef(Referenced, f) + OptExprRefs(r, wp)
    case Call(_, t, c, _, sq, targs, d, x, args) =>
      TypeRefs(t) + OneRef(Referenced, c) + OptRef(ReferencedClassifier, sq) + OptTypesRefs(targs) + OptExprRefs(d, wp) + OptExprRefs(x, wp) + OptExprsRefs(args, wp)
    case Return(_, t, target, v) => TypeRefs(t) + OneRef(Referenced, target) + ExprRefs(v, wp)
    case DelegatingConstructorCall(_, t, c) => TypeRefs(t) + OneRef(Referenced, c)
    case InstanceInitializerCall(_, t, c) => TypeRefs(t) + OneRef(ReferencedClassifier, c)
    case NullConst(_, t) => TypeRefs(t)
    case GetObject(_, t, c) => TypeRefs(t) + OneRef(ReferencedClassifier, c)
    case FunctionExpression(_, t, fn, _) => TypeRefs(t) + FunRefs(fn, wp)
    case Variable(_, s, _, t, p, init) =>
      OneRef(Declared, s) + ParentRefs(p, wp) + TypeRefs(t) + OptExprRefs(init, wp)
    case OtherStatement(_, _, t, refs, ch) => TypeRefs(t) + AllRefs(Referenced, refs) + ExprsRefs(ch, wp)
  }

  function OptExprRefs(e: Option<Expr>, wp: bool): seq<Ref>
    decreases e, 1
  {
    if e.Some? then ExprRefs(e.value, wp) else []
  }

  function ExprsRefs(es: seq<Expr>, wp: bool): seq<Ref>
    decreases es, 1
  {
    if es == [] then [] else ExprRefs(es[0], wp) + ExprsRefs(es[1..], wp)
  }

  function OptExprsRefs(es: seq<Option<Expr>>, wp: bool): seq<Ref>
    decreases es, 1
  {
    if es == [] then [] else OptExprRefs(es[0], wp) + OptExprsRefs(es[1..], wp)
  }

  function FieldRefs(f: Field, wp: bool): seq<Ref> {
    OneRef(Declared, f.sym) + ParentRefs(f.parent, wp) + TypeRefs(f.typ) + OptExprRefs(f.initializer, wp)
  }

  function PropertyRefs(p: Property, wp: bool): seq<Ref> {
    OneRef(Declared, p.sym) + ParentRefs(p.parent, wp) + (if p.backingField.Some? then FieldRefs(p.backingField.value, wp) else []) + (if p.getter.Some? then FunRefs(p.getter.value, wp) else [])
  }

  function ClassRefs(c: Class, wp: bool): seq<Ref>
    decreases c, 1
  {
    OneRef(Declared, c.sym) + ParentRefs(c.parent, wp) + TypesRefs(c.superTypes) + OptParamRefs(c.thisReceiver, wp) + DeclsRefs(c.declarations, wp) + ExprsRefs(c.annotations, wp)
  }

  function ScriptRefs(s: Script, wp: bool): seq<Ref>
    decreases s, 1
  {
    OneRef(DeclaredScript, s.sym) + ParentRefs(s.parent, wp) + ParamRefs(s.thisReceiver, wp) + DeclsRefs(s.declarations, wp) + ExprsRefs(s.statements, wp) + TypeRefs(s.baseClass) + ParamsRefs(s.explicitCallParameters, wp) + ParamsRefs(s.implicitReceivers, wp) + AllRefs(Referenced, s.providedProperties) + OptRef(Referenced, s.resultProperty)
  }

  function DeclRefs(d: Decl, wp: bool): seq<Ref>
    decreases d, 1
  {
    match d
    case ClassDecl(c) => ClassRefs(c, wp)
    case FunctionDecl(f) => FunRefs(f, wp)
    case PropertyDecl(p) => PropertyRefs(p, wp)
    case FieldDecl(f) => FieldRefs(f, wp)
    case ScriptDecl(s) => ScriptRefs(s, wp)
  }

  function DeclsRefs(ds: seq<Decl>, wp: bool): seq<Ref>
    decreases ds, 1
  {
    if ds == [] then [] else DeclRefs(ds[0], wp) + DeclsRefs(ds[1..], wp)
  }

  // ---------------------------------------------------------------------
  // The copy. `top` is the parent given to the copied root (Structural mode).

  function NewParent(m: Ref -> Handle, pm: ParentMode, prev: Option<Handle>, top: Option<Handle>): Option<Handle> {
    match pm
    case Structural => top
    case ThroughRemapper => if prev.Some? then Some(m(Ref(ParentRef, prev.value))) else None
  }

  function CopyType(m: Ref -> Handle, t: IrType): IrType {
    match t
    case ClassType(c, args, n) => ClassType(m(Ref(ReferencedClassifier, c)), CopyTypes(m, args), n)
    case OtherType(_, _) => t
  }

  function CopyTypes(m: Ref -> Handle, ts: seq<IrType>): (r: seq<IrType>)
    ensures |r| == |ts|
  {
    if ts == [] then [] else [CopyType(m, ts[0])] + CopyTypes(m, ts[1..])
  }

  function CopyOptType(m: Ref -> Handle, t: Option<IrType>): Option<IrType> {
    if t.Some? then Some(CopyType(m, t.value)) else None
  }

  function CopyOptTypes(m: Ref -> Handle, ts: seq<Option<IrType>>): (r: seq<Option<IrType>>)
    ensures |r| == |ts|
  {
    if ts == [] then [] else [CopyOptType(m, ts[0])] + CopyOptTypes(m, ts[1..])
  }

  function CopyOptHandle(m: Ref -> Handle, k: RefKind, h: Option<Handle>): Option<Handle> {
    if h.Some? then Some(m(Ref(k, h.value))) else None
  }

  function CopyHandles(m: Ref -> Handle, k: RefKind, hs: seq<Handle>): (r: seq<Handle>)
    ensures |r| == |hs|
  {
    if hs == [] then [] else [m(Ref(k, hs[0]))] + CopyHandles(m, k, hs[1..])
  }

  function CopyParam(m: Ref -> Handle, pm: ParentMode, p: Param, top: Option<Handle>): Param {
    p.(sym := m(Ref(Declared, p.sym)),
       parent := NewParent(m, pm, p.parent, top),
       typ := CopyType(m, p.typ),
       varargElementType := CopyOptType(m, p.varargElementType))
  }

  function CopyOptParam(m: Ref -> Handle, pm: ParentMode, p: Option<Param>, top: Option<Handle>): Option<Param> {
    if p.Some? then Some(CopyParam(m, pm, p.value, top)) else None
  }

  function CopyParams(m: Ref -> Handle, pm: ParentMode, ps: seq<Param>, top: Option<Handle>): (r: seq<Param>)
    ensures |r| == |ps|
    ensures forall i :: 0 <= i < |ps| ==> r[i] == CopyParam(m, pm, ps[i], top)
  {
    if ps == [] then [] else [CopyParam(m, pm, ps[0], top)] + CopyParams(m, pm, ps[1..], top)
  }

  function CopyFun(m: Ref -> Handle, pm: ParentMode, f: Fun, top: Option<Handle>): Fun
    decreases f, 1
  {
    var s := m(Ref(Declared, f.sym));
    f.(sym := s,
       parent := NewParent(m, pm, f.parent, top),
       dispatchReceiver := CopyOptParam(m, pm, f.dispatchReceiver, Some(s)),
       extensionReceiver := CopyOptParam(m, pm, f.extensionReceiver, Some(s)),
       valueParameters := CopyParams(m, pm, f.valueParameters, Some(s)),
       returnType := CopyOptType(m, f.returnType),
       body := CopyBody(m, pm, f.body, Some(s)))
  }

  function CopyBody(m: Ref -> Handle, pm: ParentMode, b: Body, top: Option<Handle>): Body
    decreases b, 1
  {
    match b
    case NoBody => NoBody
    case BlockBody(ss) => BlockBody(CopyExprs(m, pm, ss, top))
  }

  function CopyExpr(m: Ref -> Handle, pm: ParentMode, e: Expr, top: Option<Handle>): Expr
    decreases e, 1
  {
    match e
    case GetValue(sp, t, s, o) => GetValue(sp, CopyType(m, t), m(Ref(Referenced, s)), o)
    case GetField(sp, t, f, r) => GetField(sp, CopyType(m, t), m(Ref(Referenced, f)), CopyOptExpr(m, pm, r, top))
    case Call(sp, t, c, o, sq, targs, d, x, args) =>
      Call(sp, CopyType(m, t), m(Ref(Referenced, c)), o, CopyOptHandle(m, ReferencedClassifier, sq),
           CopyOptTypes(m, targs), CopyOptExpr(m, pm, d, top), CopyOptExpr(m, pm, x, top),
           CopyOptExprs(m, pm, args, top))
    case Return(sp, t, target, v) => Return(sp, CopyType(m, t), m(Ref(Referenced, target)), CopyExpr(m, pm, v, top))
    case DelegatingConstructorCall(sp, t, c) => DelegatingConstructorCall(sp, CopyType(m, t), m(Ref(Referenced, c)))
    case InstanceInitializerCall(sp, t, c) => InstanceInitializerCall(sp, CopyType(m, t), m(Ref(ReferencedClassifier, c)))
    case NullConst(sp, t) => NullConst(sp, CopyType(m, t))
    case GetObject(sp, t, c) => GetObject(sp, CopyType(m, t), m(Ref(ReferencedClassifier, c)))
    case FunctionExpression(sp, t, fn, o) => FunctionExpression(sp, CopyType(m, t), CopyFun(m, pm, fn, top), o)
    case Variable(sp, s, n, t, p, init) =>
      Variable(sp, m(Ref(Declared, s)), n, CopyType(m, t), NewParent(m, pm, p, top), CopyOptExpr(m, pm, init, top))
    case OtherStatement(sp, tag, t, refs, ch) =>
      OtherStatement(sp, tag, CopyType(m, t), CopyHandles(m, Referenced, refs), CopyExprs(m, pm, ch, top))
  }

  function CopyOptExpr(m: Ref -> Handle, pm: ParentMode, e: Option<Expr>, top: Option<Handle>): Option<Expr>
    decreases e, 1
  {
    if e.Some? then Some(CopyExpr(m, pm, e.value, top)) else None
  }

  function CopyExprs(m: Ref -> Handle, pm: ParentMode, es: seq<Expr>, top: Option<Handle>): (r: seq<Expr>)
    ensures |r| == |es|
    ensures forall i :: 0 <= i < |es| ==> r[i] == CopyExpr(m, pm, es[i], top)
    decreases es, 1
  {
    if es == [] then [] else [CopyExpr(m, pm, es[0], top)] + CopyExprs(m, pm, es[1..], top)
  }

  function CopyOptExprs(m: Ref -> Handle, pm: ParentMode, es: seq<Option<Expr>>, top: Option<Handle>): (r: seq<Option<Expr>>)
    ensures |r| == |es|
    decreases es, 1
  {
    if es == [] then [] else [CopyOptExpr(m, pm, es[0], top)] + CopyOptExprs(m, pm, es[1..], top)
  }

  function CopyField(m: Ref -> Handle, pm: ParentMode, f: Field, top: Option<Handle>): Field {
    f.(sym := m(Ref(Declared, f.sym)),
       parent := NewParent(m, pm, f.parent, top),
       typ := CopyType(m, f.typ),
       initializer := CopyOptExpr(m, pm, f.initializer, top))
  }

  /** A property is not a declaration parent: its backing field and getter
      keep the property's own container as parent. */
  function CopyProperty(m: Ref -> Handle, pm: ParentMode, p: Property, top: Option<Handle>): Property {
    p.(sym := m(Ref(Declared, p.sym)),
       parent := NewParent(m, pm, p.parent, top),
       backingField := if p.backingField.Some? then Some(CopyField(m, pm, p.backingField.value, top)) else None,
       getter := if p.getter.Some? then Some(CopyFun(m, pm, p.getter.value, top)) else None)
  }

  function CopyClass(m: Ref -> Handle, pm: ParentMode, c: Class, top: Option<Handle>): Class
    decreases c, 1
  {
    var s := m(Ref(Declared, c.sym));
    c.(sym := s,
       parent := NewParent(m, pm, c.parent, top),
       superTypes := CopyTypes(m, c.superTypes),
       thisReceiver := CopyOptParam(m, pm, c.thisReceiver, Some(s)),
       declarations := CopyDecls(m, pm, c.declarations, Some(s)),
       annotations := CopyExprs(m, pm, c.annotations, Some(s)))
  }

  function CopyScript(m: Ref -> Handle, pm: ParentMode, sc: Script, top: Option<Handle>): Script
    decreases sc, 1
  {
    var s := m(Ref(DeclaredScript, sc.sym));
    sc.(sym := s,
        parent := NewParent(m, pm, sc.parent, top),
        thisReceiver := CopyParam(m, pm, sc.thisReceiver, Some(s)),
        declarations := CopyDecls(m, pm, sc.declarations, Some(s)),
        statements := CopyExprs(m, pm, sc.statements, Some(s)),
        baseClass := CopyType(m, sc.baseClass),
        explicitCallParameters := CopyParams(m, pm, sc.explicitCallParameters, Some(s)),
        implicitReceivers := CopyParams(m, pm, sc.implicitReceivers, Some(s)),
        providedProperties := CopyHandles(m, Referenced, sc.providedProperties),
        resultProperty := CopyOptHandle(m, Referenced, sc.resultProperty))
  }

  function CopyDecl(m: Ref -> Handle, pm: ParentMode, d: Decl, top: Option<Handle>): Decl
    decreases d, 1
  {
    match d
    case ClassDecl(c) => ClassDecl(CopyClass(m, pm, c, top))
    case FunctionDecl(f) => FunctionDecl(CopyFun(m, pm, f, top))
    case PropertyDecl(p) => PropertyDecl(CopyProperty(m, pm, p, top))
    case FieldDecl(f) => FieldDecl(CopyField(m, pm, f, top))
    case ScriptDecl(s) => ScriptDecl(CopyScript(m, pm, s, top))
  }

  function CopyDecls(m: Ref -> Handle, pm: ParentMode, ds: seq<Decl>, top: Option<Handle>): (r: seq<Decl>)
    ensures |r| == |ds|
    ensures forall i :: 0 <= i < |ds| ==> r[i] == CopyDecl(m, pm, ds[i], top)
    decreases ds, 1
  {
    if ds == [] then [] else [CopyDecl(m, pm, ds[0], top)] + CopyDecls(m, pm, ds[1..], top)
  }
}

=== FILE: deep_copy_lemmas.dfy ===
/** A deep copy is an order-preserving map of the tree's references through
    the symbol remapper: nothing is dropped, added or reordered, and every
    handle of the copy is the remapper's image of the handle in the same
    position of the original. */
module DeepCopyLemmas {
  import opened Wrappers
  import opened Ir
  import opened DeepCopy

  /** Parent links are mapped through the remapper only in `ThroughRemapper` mode. */
  predicate Compatible(pm: ParentMode, wp: bool) {
    wp ==> pm.ThroughRemapper?
  }

  lemma ParentCopyRefs(m: Ref -> Handle, pm: ParentMode, p: Option<Handle>, top: Option<Handle>, wp: bool)
    requires Compatible(pm, wp)
    ensures ParentRefs(NewParent(m, pm, p, top), wp) == MapRefs(m, ParentRefs(p, wp))
  {
  }

  lemma {:induction false} TypeCopyRefs(m: Ref -> Handle, t: IrType)
    ensures TypeRefs(CopyType(m, t)) == MapRefs(m, TypeRefs(t))
    decreases t, 0
  {
    match t
    case ClassType(c, args, n) =>
      TypesCopyRefs(m, args);
      OneRefCopyRefs(m, ReferencedClassifier, c);
      MapRefsAppend(m, OneRef(ReferencedClassifier, c), TypesRefs(args));
    case OtherType(_, _) =>
  }

  lemma {:induction false} TypesCopyRefs(m: Ref -> Handle, ts: seq<IrType>)
    ensures TypesRefs(CopyTypes(m, ts)) == MapRefs(m, TypesRefs(ts))
    decreases ts, 0
  {
    if ts != [] {
      TypeCopyRefs(m, ts[0]);
      TypesCopyRefs(m, ts[1..]);
      MapRefsAppend(m, TypeRefs(ts[0]), TypesRefs(ts[1..]));
    }
  }

  lemma OptTypeCopyRefs(m: Ref -> Handle, t: Option<IrType>)
    ensures OptTypeRefs(CopyOptType(m, t)) == MapRefs(m, OptTypeRefs(t))
  {
    if t.Some? {
      TypeCopyRefs(m, t.value);
    }
  }

  lemma {:induction false} OptTypesCopyRefs(m: Ref -> Handle, ts: seq<Option<IrType>>)
    ensures OptTypesRefs(CopyOptTypes(m, ts)) == MapRefs(m, OptTypesRefs(ts))
  {
    if ts != [] {
      OptTypeCopyRefs(m, ts[0]);
      OptTypesCopyRefs(m, ts[1..]);
      MapRefsAppend(m, OptTypeRefs(ts[0]), OptTypesRefs(ts[1..]));
    }
  }

  lemma {:induction false} HandlesCopyRefs(m: Ref -> Handle, k: RefKind, hs: seq<Handle>)
    ensures AllRefs(k, CopyHandles(m, k, hs)) == MapRefs(m, AllRefs(k, hs))
  {
    if hs != [] {
      HandlesCopyRefs(m, k, hs[1..]);
      MapRefsAppend(m, [Ref(k, hs[0])], AllRefs(k, hs[1..]));
    }
  }

  lemma ParamCopyRefs(m: Ref -> Handle, pm: ParentMode, p: Param, top: Option<Handle>, wp: bool)
    requires Compatible(pm, wp)
    ensures ParamRefs(CopyParam(m, pm, p, top), wp) == MapRefs(m, ParamRefs(p, wp))
  {
    ParentCopyRefs(m, pm, p.parent, top, wp);
    TypeCopyRefs(m, p.typ);
    OptTypeCopyRefs(m, p.varargElementType);
    MapRefsAppend(m, OneRef(Declared, p.sym) + ParentRefs(p.parent, wp) + TypeRefs(p.typ), OptTypeRefs(p.varargElementType));
    MapRefsAppend(m, OneRef(Declared, p.sym) + ParentRefs(p.parent, wp), TypeRefs(p.typ));
    MapRefsAppend(m, OneRef(Declared, p.sym), ParentRefs(p.parent, wp));
    OneRefCopyRefs(m, Declared, p.sym);
  }

  lemma OptParamCopyRefs(m: Ref -> Handle, pm: ParentMode, p: Option<Param>, top: Option<Handle>, wp: bool)
    requires Compatible(pm, wp)
    ensures OptParamRefs(CopyOptParam(m, pm, p, top), wp) == MapRefs(m, OptParamRefs(p, wp))
  {
    if p.Some? {
      ParamCopyRefs(m, pm, p.value, top, wp);
    }
  }

  lemma {:induction false} ParamsCopyRefs(m: Ref -> Handle, pm: ParentMode, ps: seq<Param>, top: Option<Handle>, wp: bool)
    requires Compatible(pm, wp)
    ensures ParamsRefs(CopyParams(m, pm, ps, top), wp) == MapRefs(m, ParamsRefs(ps, wp))
  {
    if ps != [] {
      ParamCopyRefs(m, pm, ps[0], top, wp);
      ParamsCopyRefs(m, pm, ps[1..], top, wp);
      MapRefsAppend(m, ParamRefs(ps[0], wp), ParamsRefs(ps[1..], wp));
    }
  }

  lemma {:induction false} FunCopyRefs(m: Ref -> Handle, pm: ParentMode, f: Fun, top: Option<Handle>, wp: bool)
    requires Compatible(pm, wp)
    ensures FunRefs(CopyFun(m, pm, f, top), wp) == MapRefs(m, FunRefs(f, wp))
    decreases f, 0
  {
    var s := m(Ref(Declared, f.sym));
    ParentCopyRefs(m, pm, f.parent, top, wp);
    OptParamCopyRefs(m, pm, f.dispatchReceiver, Some(s), wp);
    OptParamCopyRefs(m, pm, f.extensionReceiver, Some(s), wp);
    ParamsCopyRefs(m, pm, f.valueParameters, Some(s), wp);
    OptTypeCopyRefs(m, f.returnType);
    BodyCopyRefs(m, pm, f.body, Some(s), wp);
    MapRefsAppend(m, OneRef(Declared, f.sym) + ParentRefs(f.parent, wp) + OptParamRefs(f.dispatchReceiver, wp) + OptParamRefs(f.extensionReceiver, wp) + ParamsRefs(f.valueParameters, wp) + OptTypeRefs(f.returnType), BodyRefs(f.body, wp));
    MapRefsAppend(m, OneRef(Declared, f.sym) + ParentRefs(f.parent, wp) + OptParamRefs(f.dispatchReceiver, wp) + OptParamRefs(f.extensionReceiver, wp) + ParamsRefs(f.valueParameters, wp), OptTypeRefs(f.returnType));
    MapRefsAppend(m, OneRef(Declared, f.sym) + ParentRefs(f.parent, wp) + OptParamRefs(f.dispatchReceiver, wp) + OptParamRefs(f.extensionReceiver, wp), ParamsRefs(f.valueParameters, wp));
    MapRefsAppend(m, OneRef(Declared, f.sym) + ParentRefs(f.parent, wp) + OptParamRefs(f.dispatchReceiver, wp), OptParamRefs(f.extensionReceiver, wp));
    MapRefsAppend(m, OneRef(Declared, f.sym) + ParentRefs(f.parent, wp), OptParamRefs(f.dispatchReceiver, wp));
    MapRefsAppend(m, OneRef(Declared, f.sym), ParentRefs(f.parent, wp));
    OneRefCopyRefs(m, Declared, f.sym);
  }

  lemma {:induction false} BodyCopyRefs(m: Ref -> Handle, pm: ParentMode, b: Body, top: Option<Handle>, wp: bool)
    requires Compatible(pm, wp)
    ensures BodyRefs(CopyBody(m, pm, b, top), wp) == MapRefs(m, BodyRefs(b, wp))
    decreases b, 0
  {
    match b
    case NoBody =>
    case BlockBody(ss) => ExprsCopyRefs(m, pm, ss, top, wp);
  }

  lemma {:induction false} ExprCopyRefs(m: Ref -> Handle, pm: ParentMode, e: Expr, top: Option<Handle>, wp: bool)
    requires Compatible(pm, wp)
    ensures ExprRefs(CopyExpr(m, pm, e, top), wp) == MapRefs(m, ExprRefs(e, wp))
    decreases e, 1
  {
    match e
    case Call(_, _, _, _, _, _, _, _, _) => CallCopyRefs(m, pm, e, top, wp);
    case Variable(_, _, _, _, _, _) => VariableCopyRefs(m, pm, e, top, wp);
    case OtherStatement(_, _, _, _, _) => OtherStatementCopyRefs(m, pm, e, top, wp);
    case GetValue(_,_,_,_) => GetValueCopyRefs(m, pm, e, top, wp);
    case GetField(_,_,_,_) => GetFieldCopyRefs(m, pm, e, top, wp);
    case Return(_,_,_,_) => ReturnCopyRefs(m, pm, e, top, wp);
    case DelegatingConstructorCall(_,_,_) => DelegatingConstructorCallCopyRefs(m, pm, e, top, wp);
    case InstanceInitializerCall(_,_,_) => InstanceInitializerCallCopyRefs(m, pm, e, top, wp);
    case NullConst(_,_) => NullConstCopyRefs(m, pm, e, top, wp);
    case GetObject(_,_,_) => GetObjectCopyRefs(m, pm, e, top, wp);
    case FunctionExpression(_,_,_,_) => FunctionExpressionCopyRefs(m, pm, e, top, wp);
  }

  lemma OneRefCopyRefs(m: Ref -> Handle, k: RefKind, h: Handle)
    ensures OneRef(k, m(Ref(k, h))) == MapRefs(m, OneRef(k, h))
  {
    assert OneRef(k, h)[1..] == [];
  }

  lemma OptRefCopyRefs(m: Ref -> Handle, k: RefKind, h: Option<Handle>)
    ensures OptRef(k, CopyOptHandle(m, k, h)) == MapRefs(m, OptRef(k, h))
  {
    if h.Some? {
      OneRefCopyRefs(m, k, h.value);
    }
  }

  lemma {:induction false} MapRefsAppend7(m: Ref -> Handle, a: seq<Ref>, b: seq<Ref>, c: seq<Ref>, d: seq<Ref>, e: seq<Ref>, f: seq<Ref>, g: seq<Ref>)
    ensures MapRefs(m, a + b + c + d + e + f + g)
         == MapRefs(m, a) + MapRefs(m, b) + MapRefs(m, c) + MapRefs(m, d) + MapRefs(m, e) + MapRefs(m, f) + MapRefs(m, g)
  {
    MapRefsAppend(m, a + b + c + d + e + f, g);
    MapRefsAppend(m, a + b + c + d + e, f);
    MapRefsAppend(m, a + b + c + d, e);
    MapRefsAppend(m, a + b + c, d);
    MapRefsAppend(m, a + b, c);
    MapRefsAppend(m, a, b);
  }

  lemma {:induction false} CallCopyRefs(m: Ref -> Handle, pm: ParentMode, e: Expr, top: Option<Handle>, wp: bool)
    requires Compatible(pm, wp)
    requires e.Call?
    ensures ExprRefs(CopyExpr(m, pm, e, top), wp) == MapRefs(m, ExprRefs(e, wp))
    decreases e, 0
  {
    var Call(sp, t, c, o, sq, targs, d, x, args) := e;
    var e2 := CopyExpr(m, pm, e, top);
    assert e2 == Call(sp, CopyType(m, t), m(Ref(Referenced, c)), o, CopyOptHandle(m, ReferencedClassifier, sq),
                      CopyOptTypes(m, targs), CopyOptExpr(m, pm, d, top), CopyOptExpr(m, pm, x, top),
                      CopyOptExprs(m, pm, args, top));
    assert ExprRefs(e2, wp) == TypeRefs(CopyType(m, t)) + OneRef(Referenced, m(Ref(Referenced, c)))
            + OptRef(ReferencedClassifier, CopyOptHandle(m, ReferencedClassifier, sq)) + OptTypesRefs(CopyOptTypes(m, targs))
            + OptExprRefs(CopyOptExpr(m, pm, d, top), wp) + OptExprRefs(CopyOptExpr(m, pm, x, top), wp) + OptExprsRefs(CopyOptExprs(m, pm, args, top), wp);
    TypeCopyRefs(m, t);
    OneRefCopyRefs(m, Referenced, c);
    OptRefCopyRefs(m, ReferencedClassifier, sq);
    OptTypesCopyRefs(m, targs);
    OptExprCopyRefs(m, pm, d, top, wp);
    OptExprCopyRefs(m, pm, x, top, wp);
    OptExprsCopyRefs(m, pm, args, top, wp);
    MapRefsAppend7(m, TypeRefs(t), OneRef(Referenced, c), OptRef(ReferencedClassifier, sq), OptTypesRefs(targs), OptExprRefs(d, wp), OptExprRefs(x, wp), OptExprsRefs(args, wp));
  }

  lemma {:induction false} VariableCopyRefs(m: Ref -> Handle, pm: ParentMode, e: Expr, top: Option<Handle>, wp: bool)
    requires Compatible(pm, wp)
    requires e.Variable?
    ensures ExprRefs(CopyExpr(m, pm, e, top), wp) == MapRefs(m, ExprRefs(e, wp))
    decreases e, 0
  {
    var Variable(_, s, _, t, p, init) := e;
      ParentCopyRefs(m, pm, p, top, wp);
      TypeCopyRefs(m, t);
      OptExprCopyRefs(m, pm, init, top, wp);
      MapRefsAppend(m, OneRef(Declared, s) + ParentRefs(p, wp) + TypeRefs(t), OptExprRefs(init, wp));
      MapRefsAppend(m, OneRef(Declared, s) + ParentRefs(p, wp), TypeRefs(t));
      MapRefsAppend(m, OneRef(Declared, s), ParentRefs(p, wp));
    OneRefCopyRefs(m, Declared, s);
  }

  lemma {:induction false} OtherStatementCopyRefs(m: Ref -> Handle, pm: ParentMode, e: Expr, top: Option<Handle>, wp: bool)
    requires Compatible(pm, wp)
    requires e.OtherStatement?
    ensures ExprRefs(CopyExpr(m, pm, e, top), wp) == MapRefs(m, ExprRefs(e, wp))
    decreases e, 0
  {
    var OtherStatement(_, _, t, refs, ch) := e;
      TypeCopyRefs(m, t);
      HandlesCopyRefs(m, Referenced, refs);
      ExprsCopyRefs(m, pm, ch, top, wp);
      MapRefsAppend(m, TypeRefs(t) + AllRefs(Referenced, refs), ExprsRefs(ch, wp));
      MapRefsAppend(m, TypeRefs(t), AllRefs(Referenced, refs));
  }

  lemma {:induction false} GetValueCopyRefs(m: Ref -> Handle, pm: ParentMode, e: Expr, top: Option<Handle>, wp: bool)
    requires Compatible(pm, wp)
    requires e.GetValue?
    ensures ExprRefs(CopyExpr(m, pm, e, top), wp) == MapRefs(m, ExprRefs(e, wp))
    decreases e, 0
  {
    var GetValue(_, t, s, _) := e;
      TypeCopyRefs(m, t);
      MapRefsAppend(m, TypeRefs(t), OneRef(Referenced, s));
    OneRefCopyRefs(m, Referenced, s);
  }

  lemma {:induction false} GetFieldCopyRefs(m: Ref -> Handle, pm: ParentMode, e: Expr, top: Option<Handle>, wp: bool)
    requires Compatible(pm, wp)
    requires e.GetField?
    ensures ExprRefs(CopyExpr(m, pm, e, top), wp) == MapRefs(m, ExprRefs(e, wp))
    decreases e, 0
  {
    var GetField(_, t, f, r) := e;
      TypeCopyRefs(m, t);
      OptExprCopyRefs(m, pm, r, top, wp);
      MapRefsAppend(m, TypeRefs(t) + OneRef(Referenced, f), OptExprRefs(r, wp));
      MapRefsAppend(m, TypeRefs(t), OneRef(Referenced, f));
    OneRefCopyRefs(m, Referenced, f);
  }

  lemma {:induction false} ReturnCopyRefs(m: Ref -> Handle, pm: ParentMode, e: Expr, top: Option<Handle>, wp: bool)
    requires Compatible(pm, wp)
    requires e.Return?
    ensures ExprRefs(CopyExpr(m, pm, e, top), wp) == MapRefs(m, ExprRefs(e, wp))
    decreases e, 0
  {
    var Return(_, t, target, v) := e;
      TypeCopyRefs(m, t);
      ExprCopyRefs(m, pm, v, top, wp);
      MapRefsAppend(m, TypeRefs(t) + OneRef(Referenced, target), ExprRefs(v, wp));
      MapRefsAppend(m, TypeRefs(t), OneRef(Referenced, target));
    OneRefCopyRefs(m, Referenced, target);
  }

  lemma {:induction false} DelegatingConstructorCallCopyRefs(m: Ref -> Handle, pm: ParentMode, e: Expr, top: Option<Handle>, wp: bool)
    requires Compatible(pm, wp)
    requires e.DelegatingConstructorCall?
    ensures ExprRefs(CopyExpr(m, pm, e, top), wp) == MapRefs(m, ExprRefs(e, wp))
    decreases e, 0
  {
    var DelegatingConstructorCall(_, t, c) := e;
      TypeCopyRefs(m, t);
      MapRefsAppend(m, TypeRefs(t), OneRef(Referenced, c));
    OneRefCopyRefs(m, Referenced, c);
  }

  lemma {:induction false} InstanceInitializerCallCopyRefs(m: Ref -> Handle, pm: ParentMode, e: Expr, top: Option<Handle>, wp: bool)
    requires Compatible(pm, wp)
    requires e.InstanceInitializerCall?
    ensures ExprRefs(CopyExpr(m, pm, e, top), wp) == MapRefs(m, ExprRefs(e, wp))
    decreases e, 0
  {
    var InstanceInitializerCall(_, t, c) := e;
      TypeCopyRefs(m, t);
      MapRefsAppend(m, TypeRefs(t), OneRef(ReferencedClassifier, c));
    OneRefCopyRefs(m, ReferencedClassifier, c);
  }

  lemma {:induction false} NullConstCopyRefs(m: Ref -> Handle, pm: ParentMode, e: Expr, top: Option<Handle>, wp: bool)
    requires Compatible(pm, wp)
    requires e.NullConst?
    ensures ExprRefs(CopyExpr(m, pm, e, top), wp) == MapRefs(m, ExprRefs(e, wp))
    decreases e, 0
  {
    var NullConst(_, t) := e;
      TypeCopyRefs(m, t);
  }

  lemma {:induction false} GetObjectCopyRefs(m: Ref -> Handle, pm: ParentMode, e: Expr, top: Option<Handle>, wp: bool)
    requires Compatible(pm, wp)
    requires e.GetObject?
    ensures ExprRefs(CopyExpr(m, pm, e, top), wp) == MapRefs(m, ExprRefs(e, wp))
    decreases e, 0
  {
    var GetObject(_, t, c) := e;
      TypeCopyRefs(m, t);
      MapRefsAppend(m, TypeRefs(t), OneRef(ReferencedClassifier, c));
    OneRefCopyRefs(m, ReferencedClassifier, c);
  }

  lemma {:induction false} FunctionExpressionCopyRefs(m: Ref -> Handle, pm: ParentMode, e: Expr, top: Option<Handle>, wp: bool)
    requires Compatible(pm, wp)
    requires e.FunctionExpression?
    ensures ExprRefs(CopyExpr(m, pm, e, top), wp) == MapRefs(m, ExprRefs(e, wp))
    decreases e, 0
  {
    var FunctionExpression(_, t, fn, _) := e;
      TypeCopyRefs(m, t);
      FunCopyRefs(m, pm, fn, top, wp);
      MapRefsAppend(m, TypeRefs(t), FunRefs(fn, wp));
  }

  lemma {:induction false} OptExprCopyRefs(m: Ref -> Handle, pm: ParentMode, e: Option<Expr>, top: Option<Handle>, wp: bool)
    requires Compatible(pm, wp)
    ensures OptExprRefs(CopyOptExpr(m, pm, e, top), wp) == MapRefs(m, OptExprRefs(e, wp))
    decreases e, 0
  {
    if e.Some? {
      ExprCopyRefs(m, pm, e.value, top, wp);
    }
  }

  lemma {:induction false} ExprsCopyRefs(m: Ref -> Handle, pm: ParentMode, es: seq<Expr>, top: Option<Handle>, wp: bool)
    requires Compatible(pm, wp)
    ensures ExprsRefs(CopyExprs(m, pm, es, top), wp) == MapRefs(m, ExprsRefs(es, wp))
    decreases es, 0
  {
    if es != [] {
      ExprCopyRefs(m, pm, es[0], top, wp);
      ExprsCopyRefs(m, pm, es[1..], top, wp);
      MapRefsAppend(m, ExprRefs(es[0], wp), ExprsRefs(es[1..], wp));
    }
  }

  lemma {:induction false} OptExprsCopyRefs(m: Ref -> Handle, pm: ParentMode, es: seq<Option<Expr>>, top: Option<Handle>, wp: bool)
    requires Compatible(pm, wp)
    ensures OptExprsRefs(CopyOptExprs(m, pm, es, top), wp) == MapRefs(m, OptExprsRefs(es, wp))
    decreases es, 0
  {
    if es != [] {
      OptExprCopyRefs(m, pm, es[0], top, wp);
      OptExprsCopyRefs(m, pm, es[1..], top, wp);
      MapRefsAppend(m, OptExprRefs(es[0], wp), OptExprsRefs(es[1..], wp));
    }
  }

  lemma FieldCopyRefs(m: Ref -> Handle, pm: ParentMode, f: Field, top: Option<Handle>, wp: bool)
    requires Compatible(pm, wp)
    ensures FieldRefs(CopyField(m, pm, f, top), wp) == MapRefs(m, FieldRefs(f, wp))
  {
    ParentCopyRefs(m, pm, f.parent, top, wp);
    TypeCopyRefs(m, f.typ);
    OptExprCopyRefs(m, pm, f.initializer, top, wp);
    MapRefsAppend(m, OneRef(Declared, f.sym) + ParentRefs(f.parent, wp) + TypeRefs(f.typ), OptExprRefs(f.initializer, wp));
    MapRefsAppend(m, OneRef(Declared, f.sym) + ParentRefs(f.parent, wp), TypeRefs(f.typ));
    MapRefsAppend(m, OneRef(Declared, f.sym), ParentRefs(f.parent, wp));
    OneRefCopyRefs(m, Declared, f.sym);
  }

  lemma PropertyCopyRefs(m: Ref -> Handle, pm: ParentMode, p: Property, top: Option<Handle>, wp: bool)
    requires Compatible(pm, wp)
    ensures PropertyRefs(CopyProperty(m, pm, p, top), wp) == MapRefs(m, PropertyRefs(p, wp))
  {
    ParentCopyRefs(m, pm, p.parent, top, wp);
    if p.backingField.Some? {
      FieldCopyRefs(m, pm, p.backingField.value, top, wp);
    }
    if p.getter.Some? {
      FunCopyRefs(m, pm, p.getter.value, top, wp);
    }
    MapRefsAppend(m, OneRef(Declared, p.sym) + ParentRefs(p.parent, wp) + (if p.backingField.Some? then FieldRefs(p.backingField.value, wp) else []), (if p.getter.Some? then FunRefs(p.getter.value, wp) else []));
    MapRefsAppend(m, OneRef(Declared, p.sym) + ParentRefs(p.parent, wp), (if p.backingField.Some? then FieldRefs(p.backingField.value, wp) else []));
    MapRefsAppend(m, OneRef(Declared, p.sym), ParentRefs(p.parent, wp));
    OneRefCopyRefs(m, Declared, p.sym);
  }

  lemma {:induction false} ClassCopyRefs(m: Ref -> Handle, pm: ParentMode, c: Class, top: Option<Handle>, wp: bool)
    requires Compatible(pm, wp)
    ensures ClassRefs(CopyClass(m, pm, c, top), wp) == MapRefs(m, ClassRefs(c, wp))
    decreases c, 0
  {
    var s := m(Ref(Declared, c.sym));
    ParentCopyRefs(m, pm, c.parent, top, wp);
    TypesCopyRefs(m, c.superTypes);
    OptParamCopyRefs(m, pm, c.thisReceiver, Some(s), wp);
    DeclsCopyRefs(m, pm, c.declarations, Some(s), wp);
    ExprsCopyRefs(m, pm, c.annotations, Some(s), wp);
    MapRefsAppend(m, OneRef(Declared, c.sym) + ParentRefs(c.parent, wp) + TypesRefs(c.superTypes) + OptParamRefs(c.thisReceiver, wp) + DeclsRefs(c.declarations, wp), ExprsRefs(c.annotations, wp));
    MapRefsAppend(m, OneRef(Declared, c.sym) + ParentRefs(c.parent, wp) + TypesRefs(c.superTypes) + OptParamRefs(c.thisReceiver, wp), DeclsRefs(c.declarations, wp));
    MapRefsAppend(m, OneRef(Declared, c.sym) + ParentRefs(c.parent, wp) + TypesRefs(c.superTypes), OptParamRefs(c.thisReceiver, wp));
    MapRefsAppend(m, OneRef(Declared, c.sym) + ParentRefs(c.parent, wp), TypesRefs(c.superTypes));
    MapRefsAppend(m, OneRef(Declared, c.sym), ParentRefs(c.parent, wp));
    OneRefCopyRefs(m, Declared, c.sym);
  }

  lemma {:induction false} ScriptCopyRefs(m: Ref -> Handle, pm: ParentMode, sc: Script, top: Option<Handle>, wp: bool)
    requires Compatible(pm, wp)
    ensures ScriptRefs(CopyScript(m, pm, sc, top), wp) == MapRefs(m, ScriptRefs(sc, wp))
    decreases sc, 0
  {
    var s := m(Ref(DeclaredScript, sc.sym));
    ParentCopyRefs(m, pm, sc.parent, top, wp);
    ParamCopyRefs(m, pm, sc.thisReceiver, Some(s), wp);
    DeclsCopyRefs(m, pm, sc.declarations, Some(s), wp);
    ExprsCopyRefs(m, pm, sc.statements, Some(s), wp);
    TypeCopyRefs(m, sc.baseClass);
    ParamsCopyRefs(m, pm, sc.explicitCallParameters, Some(s), wp);
    ParamsCopyRefs(m, pm, sc.implicitReceivers, Some(s), wp);
    HandlesCopyRefs(m, Referenced, sc.providedProperties);
    MapRefsAppend(m, OneRef(DeclaredScript, sc.sym) + ParentRefs(sc.parent, wp) + ParamRefs(sc.thisReceiver, wp) + DeclsRefs(sc.declarations, wp) + ExprsRefs(sc.statements, wp) + TypeRefs(sc.baseClass) + ParamsRefs(sc.explicitCallParameters, wp) + ParamsRefs(sc.implicitReceivers, wp) + AllRefs(Referenced, sc.providedProperties), OptRef(Referenced, sc.resultProperty));
    MapRefsAppend(m, OneRef(DeclaredScript, sc.sym) + ParentRefs(sc.parent, wp) + ParamRefs(sc.thisReceiver, wp) + DeclsRefs(sc.declarations, wp) + ExprsRefs(sc.statements, wp) + TypeRefs(sc.baseClass) + ParamsRefs(sc.explicitCallParameters, wp) + ParamsRefs(sc.implicitReceivers, wp), AllRefs(Referenced, sc.providedProperties));
    MapRefsAppend(m, OneRef(DeclaredScript, sc.sym) + ParentRefs(sc.parent, wp) + ParamRefs(sc.thisReceiver, wp) + DeclsRefs(sc.declarations, wp) + ExprsRefs(sc.statements, wp) + TypeRefs(sc.baseClass) + ParamsRefs(sc.explicitCallParameters, wp), ParamsRefs(sc.implicitReceivers, wp));
    MapRefsAppend(m, OneRef(DeclaredScript, sc.sym) + ParentRefs(sc.parent, wp) + ParamRefs(sc.thisReceiver, wp) + DeclsRefs(sc.declarations, wp) + ExprsRefs(sc.statements, wp) + TypeRefs(sc.baseClass), ParamsRefs(sc.explicitCallParameters, wp));
    MapRefsAppend(m, OneRef(DeclaredScript, sc.sym) + ParentRefs(sc.parent, wp) + ParamRefs(sc.thisReceiver, wp) + DeclsRefs(sc.declarations, wp) + ExprsRefs(sc.statements, wp), TypeRefs(sc.baseClass));
    MapRefsAppend(m, OneRef(DeclaredScript, sc.sym) + ParentRefs(sc.parent, wp) + ParamRefs(sc.thisReceiver, wp) + DeclsRefs(sc.declarations, wp), ExprsRefs(sc.statements, wp));
    MapRefsAppend(m, OneRef(DeclaredScript, sc.sym) + ParentRefs(sc.parent, wp) + ParamRefs(sc.thisReceiver, wp), DeclsRefs(sc.declarations, wp));
    MapRefsAppend(m, OneRef(DeclaredScript, sc.sym) + ParentRefs(sc.parent, wp), ParamRefs(sc.thisReceiver, wp));
    MapRefsAppend(m, OneRef(DeclaredScript, sc.sym), ParentRefs(sc.parent, wp));
    OneRefCopyRefs(m, DeclaredScript, sc.sym);
    OptRefCopyRefs(m, Referenced, sc.resultProperty);
  }

  lemma {:induction false} DeclCopyRefs(m: Ref -> Handle, pm: ParentMode, d: Decl, top: Option<Handle>, wp: bool)
    requires Compatible(pm, wp)
    ensures DeclRefs(CopyDecl(m, pm, d, top), wp) == MapRefs(m, DeclRefs(d, wp))
    decreases d, 0
  {
    match d
    case ClassDecl(c) => ClassCopyRefs(m, pm, c, top, wp);
    case FunctionDecl(f) => FunCopyRefs(m, pm, f, top, wp);
    case PropertyDecl(p) => PropertyCopyRefs(m, pm, p, top, wp);
    case FieldDecl(f) => FieldCopyRefs(m, pm, f, top, wp);
    case ScriptDecl(s) => ScriptCopyRefs(m, pm, s, top, wp);
  }

  lemma {:induction false} DeclsCopyRefs(m: Ref -> Handle, pm: ParentMode, ds: seq<Decl>, top: Option<Handle>, wp: bool)
    requires Compatible(pm, wp)
    ensures DeclsRefs(CopyDecls(m, pm, ds, top), wp) == MapRefs(m, DeclsRefs(ds, wp))
    decreases ds, 0
  {
    if ds != [] {
      DeclCopyRefs(m, pm, ds[0], top, wp);
      DeclsCopyRefs(m, pm, ds[1..], top, wp);
      MapRefsAppend(m, DeclRefs(ds[0], wp), DeclsRefs(ds[1..], wp));
    }
  }
}

=== FILE: ir.dfy ===
/** The intermediate representation shared by the script generator, the
    script lowering and the STM rewrite: declarations live in an arena and
    refer to each other through integer handles (symbols). */
module Ir {
  import opened Wrappers

  /** A symbol: the identity of a declaration, independent of where it sits. */
  type Handle = nat

  type Name = string

  /** Source offsets of a node; `UndefinedSpan` is the IR's UNDEFINED_OFFSET pair. */
  datatype Span = Span(start: int, end: int)

  const UndefinedSpan := Span(-1, -1)

  /** Why a declaration was synthesized. */
  datatype Origin =
    | Defined
    | InstanceReceiver
    | ScriptClass
    | ScriptCallParameter
    | ScriptImplicitReceiver
    | ScriptResultProperty
    | ScriptProvidedProperty
    | DelegatedMember
    | StmPlugin
    | OtherOrigin(tag: nat)

  /** Why an expression was synthesized. */
  datatype StatementOrigin =
    | NoStatementOrigin
    | InitializePropertyFromParameter
    | LambdaOrigin
    | OtherStatementOrigin(tag: nat)

  datatype Visibility = Public | Protected | Private | Internal | LocalVisibility

  datatype Modality = Final | Open | Abstract | Sealed

  datatype ClassKind = OrdinaryClass | InterfaceClass | EnumClass | ObjectClass | AnnotationClass

  /** A type: a class type (whose classifier is a symbol) or any other type
      (type parameters, dynamic types), for which `classOrNull` is null. */
  datatype IrType =
    | ClassType(classifier: Handle, arguments: seq<IrType>, nullable: bool)
    | OtherType(id: nat, nullable: bool)

  /** `classOrNull` of a type. */
  function ClassOf(t: IrType): Option<Handle> {
    if t.ClassType? then Some(t.classifier) else None
  }

  /** A value parameter (also used for dispatch, extension and this receivers). */
  datatype Param = Param(
    span: Span,
    sym: Handle,
    name: Name,
    typ: IrType,
    varargElementType: Option<IrType>,
    origin: Origin,
    parent: Option<Handle>)

  datatype FunKind = SimpleFunction | Constructor(isPrimary: bool)

  /** A function body: absent (`body == null`) or a block of statements. */
  datatype Body = NoBody | BlockBody(statements: seq<Expr>)

  /** A function, constructor, accessor or lambda. `returnType` is `None` when
      the return type was never initialised. */
  datatype Fun = Fun(
    sym: Handle,
    name: Name,
    kind: FunKind,
    origin: Origin,
    visibility: Visibility,
    parent: Option<Handle>,
    dispatchReceiver: Option<Param>,
    extensionReceiver: Option<Param>,
    valueParameters: seq<Param>,
    returnType: Option<IrType>,
    body: Body)

  /** Expressions and statements. Every handle a node mentions is a reference
      that a deep copy sends through the symbol remapper. */
  datatype Expr =
    | GetValue(span: Span, typ: IrType, sym: Handle, origin: StatementOrigin)
    | GetField(span: Span, typ: IrType, field: Handle, receiver: Option<Expr>)
    | Call(span: Span, typ: IrType, callee: Handle, origin: StatementOrigin,
           superQualifier: Option<Handle>, typeArguments: seq<Option<IrType>>,
           dispatchReceiver: Option<Expr>, extensionReceiver: Option<Expr>,
           arguments: seq<Option<Expr>>)
    | Return(span: Span, typ: IrType, target: Handle, value: Expr)
    | DelegatingConstructorCall(span: Span, typ: IrType, ctor: Handle)
    | InstanceInitializerCall(span: Span, typ: IrType, cls: Handle)
    | NullConst(span: Span, typ: IrType)
    | GetObject(span: Span, typ: IrType, cls: Handle)
    | FunctionExpression(span: Span, typ: IrType, fn: Fun, origin: StatementOrigin)
    | Variable(span: Span, sym: Handle, name: Name, typ: IrType, parent: Option<Handle>,
               initializer: Option<Expr>)
    | OtherStatement(span: Span, tag: nat, typ: IrType, references: seq<Handle>,
                     children: seq<Expr>)

  datatype Field = Field(
    sym: Handle,
    name: Name,
    typ: IrType,
    visibility: Visibility,
    origin: Origin,
    isFinal: bool,
    isStatic: bool,
    parent: Option<Handle>,
    initializer: Option<Expr>)

  datatype Property = Property(
    sym: Handle,
    name: Name,
    origin: Origin,
    parent: Option<Handle>,
    backingField: Option<Field>,
    getter: Option<Fun>)

  datatype Class = Class(
    span: Span,
    sym: Handle,
    name: Name,
    kind: ClassKind,
    visibility: Visibility,
    modality: Modality,
    origin: Origin,
    parent: Option<Handle>,
    superTypes: seq<IrType>,
    thisReceiver: Option<Param>,
    declarations: seq<Decl>,
    annotations: seq<Expr>,
    metadata: Option<nat>)

  /** A script: top-level statements and member declarations kept apart, as
      if they belonged to an implicit class. */
  datatype Script = Script(
    span: Span,
    sym: Handle,
    name: Name,
    parent: Option<Handle>,
    statements: seq<Expr>,
    declarations: seq<Decl>,
    thisReceiver: Param,
    baseClass: IrType,
    explicitCallParameters: seq<Param>,
    implicitReceivers: seq<Param>,
    providedProperties: seq<Handle>,
    resultProperty: Option<Handle>)

  datatype Decl =
    | ClassDecl(cls: Class)
    | FunctionDecl(fun: Fun)
    | PropertyDecl(prop: Property)
    | FieldDecl(field: Field)
    | ScriptDecl(script: Script)

  /** Where a file came from; only PSI file entries lead back to a parsed file. */
  datatype FileEntry =
    | PsiFileEntry(ktFile: Option<nat>, maxOffset: int)
    | OtherFileEntry(maxOffset: int)

  datatype File = File(
    sym: Handle,
    entry: FileEntry,
    declarations: seq<Decl>,
    annotations: seq<Expr>,
    metadata: Option<nat>)

  function DeclSym(d: Decl): Handle {
    match d
    case ClassDecl(c) => c.sym
    case FunctionDecl(f) => f.sym
    case PropertyDecl(p) => p.sym
    case FieldDecl(f) => f.sym
    case ScriptDecl(s) => s.sym
  }

  function DeclName(d: Decl): Name {
    match d
    case ClassDecl(c) => c.name
    case FunctionDecl(f) => f.name
    case PropertyDecl(p) => p.name
    case FieldDecl(f) => f.name
    case ScriptDecl(s) => s.name
  }

  /** The value a function's result type takes for a class symbol without type arguments. */
  function DefaultType(cls: Handle): IrType {
    ClassType(cls, [], false)
  }
}

=== FILE: script_generator.dfy ===
/** `ScriptGenerator.generateScriptDeclaration`: turns a resolved script
    into an IR script. Descriptors are given as plain records; the member
    and body generators the script delegates to are parameters, and they see
    the value parameters in scope when they run. Symbols this generator
    declares come from a counter `next`, in the order the generator declares
    them. */
module ScriptGenerator {
  import opened Wrappers
  import opened Ir

  /** A value parameter descriptor of the script's primary constructor. */
  datatype ParameterDescriptor = ParameterDescriptor(name: Name, typ: IrType, varargElementType: Option<IrType>)

  datatype PropertyDescriptor = PropertyDescriptor(name: Name)

  /** What the resolver knows about a script. `implicitReceivers` holds the
      types of the implicit receivers' `this` parameters. */
  datatype ScriptDescriptor = ScriptDescriptor(
    name: Name,
    thisType: IrType,
    supertypes: seq<IrType>,
    implicitReceivers: seq<IrType>,
    resultValue: Option<PropertyDescriptor>,
    constructorParameters: seq<ParameterDescriptor>,
    providedProperties: seq<PropertyDescriptor>)

  /** A declaration of the script's source: an initializer (whose body may
      be missing) or any other declaration, known by an identifier. */
  datatype KtDeclaration = Initializer(body: Option<nat>) | MemberSource(id: nat)

  /** The generators the script delegates to: a member declaration (absent
      when the declaration generator yields null) and an initializer body,
      each given the value parameters in scope. */
  datatype Generators = Generators(
    member: (seq<Param>, nat) -> Option<Decl>,
    body: (seq<Param>, Handle, nat) -> Expr)

  datatype GenerationError =
    | NoSupertype                  // `single()` on an empty list
    | SeveralSupertypes(count: nat) // `single()` on a longer list
    | MissingBody(index: nat)      // `d.body!!` on the declaration at `index`
    | MissingMember(index: nat)    // `generateMemberDeclaration(d)!!` at `index`

  datatype Generated = Generated(script: Script, next: Handle)

  const ThisName: Name := "<this>"

  // ---------------------------------------------------------------------
  // The declaration loop

  datatype ScriptBody = ScriptBody(statements: seq<Expr>, members: seq<Decl>)

  /** The declaration at index `i` cannot be generated. */
  predicate FailsAt(ds: seq<KtDeclaration>, i: nat, scope: seq<Param>, g: Generators)
    requires i < |ds|
  {
    match ds[i]
    case Initializer(body) => body.None?
    case MemberSource(id) => g.member(scope, id).None?
  }

  function ErrorAt(ds: seq<KtDeclaration>, i: nat): GenerationError
    requires i < |ds|
  {
    if ds[i].Initializer? then MissingBody(i) else MissingMember(i)
  }

  /** The loop over the source declarations from index `i` on: an initializer
      adds one statement, any other declaration one member. */
  function GenerateDeclarations(ds: seq<KtDeclaration>, i: nat, scope: seq<Param>, g: Generators, sym: Handle)
    : (r: Result<ScriptBody, GenerationError>)
    requires i <= |ds|
    decreases |ds| - i
  {
    if i == |ds| then Ok(ScriptBody([], []))
    else if FailsAt(ds, i, scope, g) then Err(ErrorAt(ds, i))
    else
      match GenerateDeclarations(ds, i + 1, scope, g, sym)
      case Err(e) => Err(e)
      case Ok(rest) =>
        match ds[i]
        case Initializer(body) =>
          Ok(rest.(statements := [g.body(scope, sym, body.value)] + rest.statements))
        case MemberSource(id) =>
          Ok(rest.(members := [g.member(scope, id).value] + rest.members))
  }

  /** The indices from `i` on holding initializers (`initializers`) or other
      declarations (`!initializers`), in increasing order. */
  function Positions(ds: seq<KtDeclaration>, i: nat, initializers: bool): (ps: seq<nat>)
    requires i <= |ds|
    ensures forall k :: 0 <= k < |ps| ==> i <= ps[k] < |ds| && ds[ps[k]].Initializer? == initializers
    decreases |ds| - i
  {
    if i == |ds| then []
    else if ds[i].Initializer? == initializers then [i] + Positions(ds, i + 1, initializers)
    else Positions(ds, i + 1, initializers)
  }

  predicate StrictlyIncreasing(ps: seq<nat>) {
    forall k, l :: 0 <= k < l < |ps| ==> ps[k] < ps[l]
  }

  lemma IncreasingCons(x: nat, ps: seq<nat>)
    requires StrictlyIncreasing(ps)
    requires forall k :: 0 <= k < |ps| ==> x < ps[k]
    ensures StrictlyIncreasing([x] + ps)
  {
    var xs := [x] + ps;
    forall k, l | 0 <= k < l < |xs| ensures xs[k] < xs[l] {
      assert xs[l] == ps[l - 1];
      if k > 0 {
        assert xs[k] == ps[k - 1];
      }
    }
  }

  /** The positions increase strictly. */
  lemma {:induction false} PositionsIncrease(ds: seq<KtDeclaration>, i: nat, initializers: bool)
    requires i <= |ds|
    ensures StrictlyIncreasing(Positions(ds, i, initializers))
    decreases |ds| - i
  {
    if i < |ds| {
      PositionsIncrease(ds, i + 1, initializers);
      var ps, later := Positions(ds, i, initializers), Positions(ds, i + 1, initializers);
      if ds[i].Initializer? == initializers {
        assert ps == [i] + later;
        IncreasingCons(i, later);
      } else {
        assert ps == later;
      }
    }
  }

  /** Every declaration of the kind asked for has its position listed. */
  lemma {:induction false} PositionsComplete(ds: seq<KtDeclaration>, i: nat, initializers: bool, j: nat)
    requires i <= j < |ds| && ds[j].Initializer? == initializers
    ensures j in Positions(ds, i, initializers)
    decreases |ds| - i
  {
    var ps := Positions(ds, i, initializers);
    if i < j {
      PositionsComplete(ds, i + 1, initializers, j);
      var later := Positions(ds, i + 1, initializers);
      if ds[i].Initializer? == initializers {
        assert ps == [i] + later;
      } else {
        assert ps == later;
      }
    } else {
      assert ps == [i] + Positions(ds, i + 1, initializers);
    }
  }

  /** The loop fails exactly when some declaration cannot be generated. */
  lemma {:induction false} GenerateDeclarationsFails(ds: seq<KtDeclaration>, i: nat, scope: seq<Param>, g: Generators, sym: Handle)
    requires i <= |ds|
    ensures GenerateDeclarations(ds, i, scope, g, sym).Err?
        <==> exists j :: i <= j < |ds| && FailsAt(ds, j, scope, g)
    decreases |ds| - i
  {
    if i < |ds| {
      if FailsAt(ds, i, scope, g) {
        assert GenerateDeclarations(ds, i, scope, g, sym).Err?;
      } else {
        GenerateDeclarationsFails(ds, i + 1, scope, g, sym);
        assert GenerateDeclarations(ds, i, scope, g, sym).Err? == GenerateDeclarations(ds, i + 1, scope, g, sym).Err?;
        if exists j :: i <= j < |ds| && FailsAt(ds, j, scope, g) {
          var j :| i <= j < |ds| && FailsAt(ds, j, scope, g);
          assert i + 1 <= j;
        }
      }
    }
  }

  /** A failing loop reports the first declaration that cannot be
      generated. */
  lemma {:induction false} GenerateDeclarationsFirstError(ds: seq<KtDeclaration>, i: nat, scope: seq<Param>, g: Generators, sym: Handle)
    requires i <= |ds|
    requires GenerateDeclarations(ds, i, scope, g, sym).Err?
    ensures exists j ::
      && i <= j < |ds| && FailsAt(ds, j, scope, g)
      && (forall k :: i <= k < j ==> !FailsAt(ds, k, scope, g))
      && GenerateDeclarations(ds, i, scope, g, sym).error == ErrorAt(ds, j)
    decreases |ds| - i
  {
    if FailsAt(ds, i, scope, g) {
      assert GenerateDeclarations(ds, i, scope, g, sym).error == ErrorAt(ds, i);
    } else {
      var rest := GenerateDeclarations(ds, i + 1, scope, g, sym);
      assert rest.Err? && GenerateDeclarations(ds, i, scope, g, sym).error == rest.error;
      GenerateDeclarationsFirstError(ds, i + 1, scope, g, sym);
      var j :| i + 1 <= j < |ds| && FailsAt(ds, j, scope, g)
        && (forall k :: i + 1 <= k < j ==> !FailsAt(ds, k, scope, g))
        && rest.error == ErrorAt(ds, j);
      assert forall k :: i <= k < j ==> !FailsAt(ds, k, scope, g);
    }
  }

  /** One step of the loop: a successful run from `i` is the run from
      `i + 1` with the declaration at `i` put in front. */
  lemma GenerateDeclarationsStep(ds: seq<KtDeclaration>, i: nat, scope: seq<Param>, g: Generators, sym: Handle)
    requires i < |ds|
    requires GenerateDeclarations(ds, i, scope, g, sym).Ok?
    ensures GenerateDeclarations(ds, i + 1, scope, g, sym).Ok? && !FailsAt(ds, i, scope, g)
    ensures var b, rest := GenerateDeclarations(ds, i, scope, g, sym).value, GenerateDeclarations(ds, i + 1, scope, g, sym).value;
      && (ds[i].Initializer? ==> ds[i].body.Some? && b.statements == [g.body(scope, sym, ds[i].body.value)] + rest.statements)
      && (ds[i].Initializer? ==> b.members == rest.members)
      && (ds[i].MemberSource? ==> g.member(scope, ds[i].id).Some? && b.members == [g.member(scope, ds[i].id).value] + rest.members)
      && (ds[i].MemberSource? ==> b.statements == rest.statements)
  {
  }

  /** Statements are the initializer bodies, one for one and in source
      order. */
  lemma {:induction false} GenerateStatementsOrder(ds: seq<KtDeclaration>, i: nat, scope: seq<Param>, g: Generators, sym: Handle)
    requires i <= |ds|
    requires GenerateDeclarations(ds, i, scope, g, sym).Ok?
    ensures var b, inits := GenerateDeclarations(ds, i, scope, g, sym).value, Positions(ds, i, true);
      && |b.statements| == |inits|
      && (forall k :: 0 <= k < |inits| ==>
            ds[inits[k]].body.Some? && b.statements[k] == g.body(scope, sym, ds[inits[k]].body.value))
    decreases |ds| - i
  {
    if i < |ds| {
      GenerateDeclarationsStep(ds, i, scope, g, sym);
      GenerateStatementsOrder(ds, i + 1, scope, g, sym);
      var b, rest := GenerateDeclarations(ds, i, scope, g, sym).value, GenerateDeclarations(ds, i + 1, scope, g, sym).value;
      var inits, later := Positions(ds, i, true), Positions(ds, i + 1, true);
      if ds[i].Initializer? {
        assert inits == [i] + later;
        forall k | 0 <= k < |inits|
          ensures ds[inits[k]].body.Some? && b.statements[k] == g.body(scope, sym, ds[inits[k]].body.value)
        {
          if k > 0 {
            assert inits[k] == later[k - 1] && b.statements[k] == rest.statements[k - 1];
          }
        }
      } else {
        assert inits == later;
      }
    }
  }

  /** One member per declaration that is not an initializer. */
  lemma {:induction false} GenerateMembersCount(ds: seq<KtDeclaration>, i: nat, scope: seq<Param>, g: Generators, sym: Handle)
    requires i <= |ds|
    requires GenerateDeclarations(ds, i, scope, g, sym).Ok?
    ensures |GenerateDeclarations(ds, i, scope, g, sym).value.members| == |Positions(ds, i, false)|
    decreases |ds| - i
  {
    if i < |ds| {
      GenerateDeclarationsStep(ds, i, scope, g, sym);
      GenerateMembersCount(ds, i + 1, scope, g, sym);
    }
  }

  /** Members are the other declarations' members, one for one and in source
      order. */
  lemma {:induction false} GenerateMembersOrder(ds: seq<KtDeclaration>, i: nat, scope: seq<Param>, g: Generators, sym: Handle)
    requires i <= |ds|
    requires GenerateDeclarations(ds, i, scope, g, sym).Ok?
    ensures var b, others := GenerateDeclarations(ds, i, scope, g, sym).value, Positions(ds, i, false);
      && |b.members| == |others|
      && (forall k :: 0 <= k < |others| ==>
            g.member(scope, ds[others[k]].id).Some? && b.members[k] == g.member(scope, ds[others[k]].id).value)
    decreases |ds| - i
  {
    if i < |ds| {
      GenerateDeclarationsStep(ds, i, scope, g, sym);
      GenerateMembersOrder(ds, i + 1, scope, g, sym);
      var b, rest := GenerateDeclarations(ds, i, scope, g, sym).value, GenerateDeclarations(ds, i + 1, scope, g, sym).value;
      var others, later := Positions(ds, i, false), Positions(ds, i + 1, false);
      if ds[i].MemberSource? {
        assert others == [i] + later;
        forall k | 0 <= k < |others|
          ensures g.member(scope, ds[others[k]].id).Some? && b.members[k] == g.member(scope, ds[others[k]].id).value
        {
          if k > 0 {
            assert others[k] == later[k - 1] && b.members[k] == rest.members[k - 1];
          }
        }
      } else {
        assert others == later;
      }
    }
  }

  // ---------------------------------------------------------------------
  // The script

  /** `makeReceiver`: the `this` parameter of a class, declared as an
      instance receiver of the script. */
  function MakeReceiver(span: Span, script: Handle, typ: IrType, sym: Handle): Param {
    Param(span, sym, ThisName, typ, None, InstanceReceiver, Some(script))
  }

  /** The receivers of the implicit receiver classes as `makeReceiver`
      declares them; the script keeps them only until the final list below
      replaces them. */
  function FirstImplicitReceivers(span: Span, script: Handle, ts: seq<IrType>, next: Handle): seq<Param> {
    seq(|ts|, k requires 0 <= k < |ts| => MakeReceiver(span, script, ts[k], next + k))
  }

  function ImplicitReceivers(span: Span, ts: seq<IrType>, next: Handle): seq<Param> {
    seq(|ts|, k requires 0 <= k < |ts| => Param(span, next + k, ThisName, ts[k], None, ScriptImplicitReceiver, None))
  }

  function CallParameters(span: Span, ps: seq<ParameterDescriptor>, next: Handle): seq<Param> {
    seq(|ps|, k requires 0 <= k < |ps| =>
      Param(span, next + k, ps[k].name, ps[k].typ, ps[k].varargElementType, ScriptCallParameter, None))
  }

  function ScriptProperty(p: PropertyDescriptor, origin: Origin, sym: Handle): Decl {
    PropertyDecl(Property(sym, p.name, origin, None, None, None))
  }

  function ProvidedProperties(ps: seq<PropertyDescriptor>, next: Handle): seq<Decl> {
    seq(|ps|, k requires 0 <= k < |ps| => ScriptProperty(ps[k], ScriptProvidedProperty, next + k))
  }

  /** The receivers of the scripts declared before this one, brought into
      scope before anything of this script is generated. */
  function ExistingReceivers(existing: seq<Script>): seq<Param> {
    seq(|existing|, k requires 0 <= k < |existing| => existing[k].thisReceiver)
  }

  /** The value parameters in scope while the declarations are generated. */
  function Scope(existing: seq<Script>, d: ScriptDescriptor, span: Span, sym: Handle, next: Handle): seq<Param> {
    ExistingReceivers(existing) + [MakeReceiver(span, sym, d.thisType, next)]
      + FirstImplicitReceivers(span, sym, d.implicitReceivers, next + 1)
  }

  /** `generateScriptDeclaration` for the script declared as `sym`, spanning
      `span`, after the scripts `existing`. */
  function GenerateScript(d: ScriptDescriptor, ds: seq<KtDeclaration>, existing: seq<Script>, g: Generators,
                          sym: Handle, span: Span, next: Handle): (r: Result<Generated, GenerationError>)
    ensures r.Ok? ==> next < r.value.next && r.value.script.sym == sym && r.value.script.name == d.name
  {
    if |d.supertypes| == 0 then Err(NoSupertype)
    else if |d.supertypes| > 1 then Err(SeveralSupertypes(|d.supertypes|))
    else
      var scope := Scope(existing, d, span, sym, next);
      match GenerateDeclarations(ds, 0, scope, g, sym)
      case Err(e) => Err(e)
      case Ok(body) =>
        Ok(Assemble(d, body, sym, span, next))
  }

  /** The script once its statements and members exist. After the script's
      receiver (`next`) and the first implicit receivers come, in this order,
      the result property, the call parameters, the final implicit receivers
      and the provided properties. */
  function Assemble(d: ScriptDescriptor, body: ScriptBody, sym: Handle, span: Span, next: Handle): Generated
    requires |d.supertypes| == 1
  {
    var n1 := next + 1 + |d.implicitReceivers|;
    var n2 := if d.resultValue.Some? then n1 + 1 else n1;
    var results := if d.resultValue.Some? then [ScriptProperty(d.resultValue.value, ScriptResultProperty, n1)] else [];
    var n3 := n2 + |d.constructorParameters|;
    var n4 := n3 + |d.implicitReceivers|;
    var provided := ProvidedProperties(d.providedProperties, n4);
    Generated(
      Script(span, sym, d.name, None, body.statements, body.members + results + provided,
             MakeReceiver(span, sym, d.thisType, next), d.supertypes[0],
             CallParameters(span, d.constructorParameters, n2),
             ImplicitReceivers(span, d.implicitReceivers, n3),
             seq(|provided|, k requires 0 <= k < |provided| => n4 + k),
             if d.resultValue.Some? then Some(n1) else None),
      n4 + |provided|)
  }

  /** Generation fails exactly when the descriptor has other than one
      supertype, or some declaration cannot be generated; the supertype
      check comes first, then the first failing declaration. */
  lemma GenerateScriptFails(d: ScriptDescriptor, ds: seq<KtDeclaration>, existing: seq<Script>, g: Generators,
                            sym: Handle, span: Span, next: Handle)
    ensures var r := GenerateScript(d, ds, existing, g, sym, span, next);
      var scope := Scope(existing, d, span, sym, next);
      && (r.Err? <==> |d.supertypes| != 1 || exists j :: 0 <= j < |ds| && FailsAt(ds, j, scope, g))
      && (|d.supertypes| == 0 ==> r == Err(NoSupertype))
      && (|d.supertypes| > 1 ==> r == Err(SeveralSupertypes(|d.supertypes|)))
      && (|d.supertypes| == 1 && r.Err? ==>
            exists j :: 0 <= j < |ds| && FailsAt(ds, j, scope, g)
              && (forall k :: 0 <= k < j ==> !FailsAt(ds, k, scope, g))
              && r.error == ErrorAt(ds, j))
  {
    var scope := Scope(existing, d, span, sym, next);
    GenerateDeclarationsFails(ds, 0, scope, g, sym);
    if |d.supertypes| == 1 && GenerateDeclarations(ds, 0, scope, g, sym).Err? {
      GenerateDeclarationsFirstError(ds, 0, scope, g, sym);
    }
  }

  /** The scope every member and statement of a generated script is
      generated in (see `GenerateScriptBody`): the receivers of the earlier
      scripts in order, then the script's own receiver as generated, then
      the first implicit receivers. */
  lemma ExistingReceiversInScope(d: ScriptDescriptor, ds: seq<KtDeclaration>, existing: seq<Script>, g: Generators,
                                 sym: Handle, span: Span, next: Handle)
    requires GenerateScript(d, ds, existing, g, sym, span, next).Ok?
    ensures var s := GenerateScript(d, ds, existing, g, sym, span, next).value.script;
      var scope := Scope(existing, d, span, sym, next);
      && |scope| == |existing| + 1 + |d.implicitReceivers|
      && (forall k :: 0 <= k < |existing| ==> scope[k] == existing[k].thisReceiver)
      && scope[|existing|] == s.thisReceiver
      && (forall k :: 0 <= k < |d.implicitReceivers| ==>
            var p := scope[|existing| + 1 + k];
            p.origin == InstanceReceiver && p.parent == Some(sym) && p.typ == d.implicitReceivers[k])
  {
  }

  /** The script's own receiver is an instance receiver of the descriptor's
      `this` type whose parent is the script; the base class is the single
      supertype. */
  lemma GenerateScriptReceiver(d: ScriptDescriptor, ds: seq<KtDeclaration>, existing: seq<Script>, g: Generators,
                               sym: Handle, span: Span, next: Handle)
    requires GenerateScript(d, ds, existing, g, sym, span, next).Ok?
    ensures var s := GenerateScript(d, ds, existing, g, sym, span, next).value.script;
      && s.thisReceiver.origin == InstanceReceiver
      && s.thisReceiver.parent == Some(sym)
      && s.thisReceiver.typ == d.thisType
      && s.thisReceiver.name == ThisName
      && d.supertypes == [s.baseClass]
  {
  }

  /** Statements and members come from the source declarations, one for
      one and in order, and the members open the script's declarations. */
  lemma GenerateScriptBody(d: ScriptDescriptor, ds: seq<KtDeclaration>, existing: seq<Script>, g: Generators,
                           sym: Handle, span: Span, next: Handle)
    requires GenerateScript(d, ds, existing, g, sym, span, next).Ok?
    ensures var s := GenerateScript(d, ds, existing, g, sym, span, next).value.script;
      var scope := Scope(existing, d, span, sym, next);
      var inits, others := Positions(ds, 0, true), Positions(ds, 0, false);
      && |s.statements| == |inits|
      && (forall k :: 0 <= k < |inits| ==>
            ds[inits[k]].body.Some? && s.statements[k] == g.body(scope, sym, ds[inits[k]].body.value))
      && |others| <= |s.declarations|
      && (forall k :: 0 <= k < |others| ==>
            g.member(scope, ds[others[k]].id).Some? && s.declarations[k] == g.member(scope, ds[others[k]].id).value)
  {
    var scope := Scope(existing, d, span, sym, next);
    var body := GenerateDeclarations(ds, 0, scope, g, sym).value;
    GenerateStatementsOrder(ds, 0, scope, g, sym);
    GenerateMembersOrder(ds, 0, scope, g, sym);
    AssembleKeepsBody(d, body, sym, span, next);
  }

  lemma AssembleKeepsBody(d: ScriptDescriptor, body: ScriptBody, sym: Handle, span: Span, next: Handle)
    requires |d.supertypes| == 1
    ensures var s := Assemble(d, body, sym, span, next).script;
      && s.statements == body.statements
      && |body.members| <= |s.declarations|
      && s.declarations[..|body.members|] == body.members
  {
    var s := Assemble(d, body, sym, span, next).script;
    assert s.declarations == body.members + s.declarations[|body.members|..];
  }

  /** After the first `m` declarations (the members), the declarations hold
      the result property if the script has a result value, then the
      provided properties in order; the script records their symbols. Call
      parameters are not among the declarations. */
  predicate PropertiesLaidOut(s: Script, d: ScriptDescriptor, m: nat) {
    var nr := if d.resultValue.Some? then 1 else 0;
    && |s.declarations| == m + nr + |d.providedProperties|
    && (d.resultValue.None? ==> s.resultProperty.None?)
    && (d.resultValue.Some? ==>
          && s.declarations[m].PropertyDecl?
          && s.declarations[m].prop.origin == ScriptResultProperty
          && s.declarations[m].prop.name == d.resultValue.value.name
          && s.resultProperty == Some(s.declarations[m].prop.sym))
    && |s.providedProperties| == |d.providedProperties|
    && (forall k :: 0 <= k < |d.providedProperties| ==>
          && s.declarations[m + nr + k].PropertyDecl?
          && s.declarations[m + nr + k].prop.origin == ScriptProvidedProperty
          && s.declarations[m + nr + k].prop.name == d.providedProperties[k].name
          && s.providedProperties[k] == s.declarations[m + nr + k].prop.sym)
  }

  /** The properties follow the members, one per declaration that is not an
      initializer. */
  lemma GenerateScriptProperties(d: ScriptDescriptor, ds: seq<KtDeclaration>, existing: seq<Script>, g: Generators,
                                 sym: Handle, span: Span, next: Handle)
    requires GenerateScript(d, ds, existing, g, sym, span, next).Ok?
    ensures PropertiesLaidOut(GenerateScript(d, ds, existing, g, sym, span, next).value.script, d, |Positions(ds, 0, false)|)
  {
    var scope := Scope(existing, d, span, sym, next);
    GenerateScriptAssembles(d, ds, existing, g, sym, span, next);
    var body := GenerateDeclarations(ds, 0, scope, g, sym).value;
    GenerateMembersCount(ds, 0, scope, g, sym);
    AssembleProperties(d, body, sym, span, next);
  }

  /** A generated script is the assembly of the loop's statements and
      members. */
  lemma GenerateScriptAssembles(d: ScriptDescriptor, ds: seq<KtDeclaration>, existing: seq<Script>, g: Generators,
                                sym: Handle, span: Span, next: Handle)
    requires GenerateScript(d, ds, existing, g, sym, span, next).Ok?
    ensures |d.supertypes| == 1
    ensures GenerateDeclarations(ds, 0, Scope(existing, d, span, sym, next), g, sym).Ok?
    ensures GenerateScript(d, ds, existing, g, sym, span, next).value
         == Assemble(d, GenerateDeclarations(ds, 0, Scope(existing, d, span, sym, next), g, sym).value, sym, span, next)
  {
  }

  lemma AssembleProperties(d: ScriptDescriptor, body: ScriptBody, sym: Handle, span: Span, next: Handle)
    requires |d.supertypes| == 1
    ensures PropertiesLaidOut(Assemble(d, body, sym, span, next).script, d, |body.members|)
  {
    var s := Assemble(d, body, sym, span, next).script;
    var m, nr := |body.members|, if d.resultValue.Some? then 1 else 0;
    var n1 := next + 1 + |d.implicitReceivers|;
    var n4 := (if d.resultValue.Some? then n1 + 1 else n1) + |d.constructorParameters| + |d.implicitReceivers|;
    var results := if d.resultValue.Some? then [ScriptProperty(d.resultValue.value, ScriptResultProperty, n1)] else [];
    var provided := ProvidedProperties(d.providedProperties, n4);
    assert s.declarations == body.members + results + provided;
    assert s.providedProperties == seq(|provided|, k requires 0 <= k < |provided| => n4 + k);
    forall k | 0 <= k < |d.providedProperties|
      ensures s.declarations[m + nr + k] == ScriptProperty(d.providedProperties[k], ScriptProvidedProperty, n4 + k)
    {
      assert s.declarations[m + nr + k] == provided[k];
    }
  }

  /** One call parameter per constructor parameter, in order, with its name
      and types; one implicit receiver per implicit receiver class, in order,
      as declared by the final assignment. */
  lemma GenerateScriptParameters(d: ScriptDescriptor, ds: seq<KtDeclaration>, existing: seq<Script>, g: Generators,
                                 sym: Handle, span: Span, next: Handle)
    requires GenerateScript(d, ds, existing, g, sym, span, next).Ok?
    ensures var s := GenerateScript(d, ds, existing, g, sym, span, next).value.script;
      && |s.explicitCallParameters| == |d.constructorParameters|
      && (forall k :: 0 <= k < |d.constructorParameters| ==>
            && s.explicitCallParameters[k].name == d.constructorParameters[k].name
            && s.explicitCallParameters[k].typ == d.constructorParameters[k].typ
            && s.explicitCallParameters[k].varargElementType == d.constructorParameters[k].varargElementType
            && s.explicitCallParameters[k].origin == ScriptCallParameter)
      && |s.implicitReceivers| == |d.implicitReceivers|
      && (forall k :: 0 <= k < |d.implicitReceivers| ==>
            && s.implicitReceivers[k].typ == d.implicitReceivers[k]
            && s.implicitReceivers[k].origin == ScriptImplicitReceiver)
  {
  }

  /** The symbols the generator declares for the script, in the order it
      declares them (the first implicit receivers, dropped from the script,
      are not among them). */
  function DeclaredSymbols(s: Script): seq<Handle> {
    [s.thisReceiver.sym]
      + (if s.resultProperty.Some? then [s.resultProperty.value] else [])
      + seq(|s.explicitCallParameters|, k requires 0 <= k < |s.explicitCallParameters| => s.explicitCallParameters[k].sym)
      + seq(|s.implicitReceivers|, k requires 0 <= k < |s.implicitReceivers| => s.implicitReceivers[k].sym)
      + s.providedProperties
  }

  /** Every symbol the generator declares is new: all lie between `next` and
      the first symbol left free, and no two coincide. */
  lemma GenerateScriptFresh(d: ScriptDescriptor, ds: seq<KtDeclaration>, existing: seq<Script>, g: Generators,
                            sym: Handle, span: Span, next: Handle)
    requires GenerateScript(d, ds, existing, g, sym, span, next).Ok?
    ensures var Generated(s, next') := GenerateScript(d, ds, existing, g, sym, span, next).value;
      var syms := DeclaredSymbols(s);
      && (forall k :: 0 <= k < |syms| ==> next <= syms[k] < next')
      && (forall k, l :: 0 <= k < l < |syms| ==> syms[k] < syms[l])
  {
    var body := GenerateDeclarations(ds, 0, Scope(existing, d, span, sym, next), g, sym).value;
    AssembleFresh(d, body, sym, span, next);
  }

  lemma AssembleFresh(d: ScriptDescriptor, body: ScriptBody, sym: Handle, span: Span, next: Handle)
    requires |d.supertypes| == 1
    ensures var Generated(s, next') := Assemble(d, body, sym, span, next);
      var syms := DeclaredSymbols(s);
      && (forall k :: 0 <= k < |syms| ==> next <= syms[k] < next')
      && (forall k, l :: 0 <= k < l < |syms| ==> syms[k] < syms[l])
  {
    var Generated(s, next') := Assemble(d, body, sym, span, next);
    var n1 := next + 1 + |d.implicitReceivers|;
    var n2 := if d.resultValue.Some? then n1 + 1 else n1;
    AssembleLayout(d, body, sym, span, next);
    DeclaredSymbolsIncrease(s, next, n2, next');
  }

  /** Where `Assemble` puts its symbols: the receiver at `next`, the result
      property just below `n2`, and from `n2` on the call parameters, the
      final implicit receivers and the provided properties, one after the
      other. */
  lemma AssembleLayout(d: ScriptDescriptor, body: ScriptBody, sym: Handle, span: Span, next: Handle)
    requires |d.supertypes| == 1
    ensures var Generated(s, next') := Assemble(d, body, sym, span, next);
      var n1 := next + 1 + |d.implicitReceivers|;
      var n2 := if d.resultValue.Some? then n1 + 1 else n1;
      var cps, irs := |s.explicitCallParameters|, |s.implicitReceivers|;
      && s.thisReceiver.sym == next
      && (s.resultProperty.Some? <==> n2 == n1 + 1)
      && (s.resultProperty.Some? ==> s.resultProperty.value == n1)
      && (forall k :: 0 <= k < cps ==> s.explicitCallParameters[k].sym == n2 + k)
      && (forall k :: 0 <= k < irs ==> s.implicitReceivers[k].sym == n2 + cps + k)
      && (forall k :: 0 <= k < |s.providedProperties| ==> s.providedProperties[k] == n2 + cps + irs + k)
      && next' == n2 + cps + irs + |s.providedProperties|
  {
  }

  /** The declared symbols of a script laid out as `Assemble` lays them out
      lie in `[next, next')` and increase strictly. */
  lemma DeclaredSymbolsIncrease(s: Script, next: Handle, n2: Handle, next': Handle)
    requires next < n2
    requires s.thisReceiver.sym == next
    requires s.resultProperty.Some? ==> next < s.resultProperty.value == n2 - 1
    requires forall k :: 0 <= k < |s.explicitCallParameters| ==> s.explicitCallParameters[k].sym == n2 + k
    requires forall k :: 0 <= k < |s.implicitReceivers| ==>
      s.implicitReceivers[k].sym == n2 + |s.explicitCallParameters| + k
    requires forall k :: 0 <= k < |s.providedProperties| ==>
      s.providedProperties[k] == n2 + |s.explicitCallParameters| + |s.implicitReceivers| + k
    requires next' == n2 + |s.explicitCallParameters| + |s.implicitReceivers| + |s.providedProperties|
    ensures var syms := DeclaredSymbols(s);
      && (forall k :: 0 <= k < |syms| ==> next <= syms[k] < next')
      && (forall k, l :: 0 <= k < l < |syms| ==> syms[k] < syms[l])
  {
    var head := [s.thisReceiver.sym] + (if s.resultProperty.Some? then [s.resultProperty.value] else []);
    var cps := seq(|s.explicitCallParameters|, k requires 0 <= k < |s.explicitCallParameters| => s.explicitCallParameters[k].sym);
    var irs := seq(|s.implicitReceivers|, k requires 0 <= k < |s.implicitReceivers| => s.implicitReceivers[k].sym);
    var syms := head + cps + irs + s.providedProperties;
    assert syms == DeclaredSymbols(s);
    ConsecutiveAppend(cps, irs, n2);
    ConsecutiveAppend(cps + irs, s.providedProperties, n2);
    var tail := cps + irs + s.providedProperties;
    assert syms == head + tail;
    assert forall k :: 0 <= k < |syms| ==> syms[k] == if k < |head| then head[k] else tail[k - |head|];
  }

  /** Two runs of consecutive symbols, the second starting where the first
      ends, make one. */
  lemma ConsecutiveAppend(a: seq<Handle>, b: seq<Handle>, start: int)
    requires forall k :: 0 <= k < |a| ==> a[k] == start + k
    requires forall k :: 0 <= k < |b| ==> b[k] == start + |a| + k
    ensures forall k :: 0 <= k < |a + b| ==> (a + b)[k] == start + k
  {
  }
}

=== FILE: script_lowering.dfy ===
/** The JVM back-end phase that turns every script of a file into a class.

    The class is final and public, named after the script, and extends
    `Any`. Its primary constructor takes one parameter per script call
    parameter, and each parameter is also stored in a property with a
    protected backing field and a getter. The constructor runs the `Any`
    constructor, then the instance initializer, then copies of the script's
    statements. The script's member declarations are copied into the class.
    Copies are made with a remapper that sends the script's own classifier
    to the new class. */
module ScriptLowering {
  import opened Wrappers
  import opened Ir
  import opened DeepCopy
  import opened DeepCopyLemmas
  import opened SymbolRemapper

  /** The built-in types and the `Any` constructor the lowering refers to. */
  datatype Builtins = Builtins(anyType: IrType, unitType: IrType, nothingType: IrType, anyConstructor: Handle)

  datatype LoweringError =
    | FileEntryNotPsi(entry: FileEntry)      // the cast of the file entry fails
    | UnexpectedFileEntry(entry: FileEntry)  // no parsed file behind the entry

  /** A lowered script, and the first symbol left unused. */
  datatype Lowered = Lowered(cls: Class, next: Handle)

  const ConstructorName: Name := "<init>"

  function GetterName(n: Name): Name {
    "<get-" + n + ">"
  }

  /** The file entry leads back to a parsed Kotlin file. */
  predicate HasKtFile(e: FileEntry) {
    e.PsiFileEntry? && e.ktFile.Some?
  }

  /** The error raised for a file entry that does not lead to a parsed file. */
  function EntryError(e: FileEntry): (err: LoweringError)
    ensures err.entry == e
    ensures err.FileEntryNotPsi? <==> !e.PsiFileEntry?
  {
    if e.PsiFileEntry? then UnexpectedFileEntry(e) else FileEntryNotPsi(e)
  }

  // ---------------------------------------------------------------------
  // Symbols. The class takes `next`; the remapper's visit of the script's
  // receiver, declarations and statements hands out the following ones;
  // the constructor and the call-parameter members come after those.

  /** Three visits in a row with a new remapper whose first symbol is `next`. */
  function RegisterInOrder(next: Handle, a: seq<Ref>, b: seq<Ref>, c: seq<Ref>): (r: Remapper)
    ensures next <= r.next
    ensures forall h :: h in r.table ==> next <= r.table[h] < r.next
    ensures forall h :: h in r.scripts ==> next <= r.scripts[h] < r.next
    ensures forall h :: Ref(Declared, h) in a ==> h in r.table
    ensures forall h :: Ref(Declared, h) in b ==> h in r.table
    ensures forall h :: Ref(DeclaredScript, h) in b ==> h in r.scripts
    ensures forall h :: Ref(Declared, h) in c ==> h in r.table
    ensures forall h :: Ref(DeclaredScript, h) in c ==> h in r.scripts
    ensures forall h :: h in r.table ==> Ref(Declared, h) in a || Ref(Declared, h) in b || Ref(Declared, h) in c
  {
    var r1 := Register(Empty(next), a);
    var r2 := Register(r1, b);
    var r3 := Register(r2, c);
    r3
  }

  /** The remapper after visiting the script's receiver, declarations and
      statements, in that order. */
  function ScriptRemapper(script: Script, next: Handle): Remapper {
    RegisterInOrder(next, ParamRefs(script.thisReceiver, false), DeclsRefs(script.declarations, false),
                    ExprsRefs(script.statements, false))
  }

  lemma ScriptRemapperValid(script: Script, next: Handle)
    ensures Valid(ScriptRemapper(script, next))
  {
    var a, b, c := ParamRefs(script.thisReceiver, false), DeclsRefs(script.declarations, false), ExprsRefs(script.statements, false);
    RegisterValid(Empty(next), a);
    RegisterValid(Register(Empty(next), a), b);
    RegisterValid(Register(Register(Empty(next), a), b), c);
  }

  // ---------------------------------------------------------------------
  // Call parameters

  /** The constructor parameter made from a script call parameter. */
  function ConstructorParameter(cp: Param, ctor: Handle, sym: Handle): (p: Param)
    ensures p.name == cp.name && p.typ == cp.typ && p.varargElementType == cp.varargElementType
    ensures p.origin == cp.origin && p.span == cp.span
    ensures p.sym == sym && p.parent == Some(ctor)
  {
    cp.(sym := sym, parent := Some(ctor))
  }

  /** The property that stores constructor parameter `p` in class `cls`; the
      property, its field, its getter and the getter's receiver take the four
      symbols after `p.sym`. */
  function CallParameterProperty(p: Param, cls: Handle, thisReceiver: Param, b: Builtins): Property {
    var field := Field(p.sym + 2, p.name, p.typ, Protected, Defined, false, false, Some(cls),
                       Some(GetValue(p.span, p.typ, p.sym, InitializePropertyFromParameter)));
    var getterSym := p.sym + 3;
    var receiver := thisReceiver.(sym := p.sym + 4, parent := Some(getterSym));
    var getter := Fun(getterSym, GetterName(p.name), SimpleFunction, Defined, Public, Some(cls), Some(receiver), None, [],
                      Some(p.typ),
                      BlockBody([Return(p.span, b.nothingType, getterSym,
                                        GetField(p.span, p.typ, field.sym,
                                                 Some(GetValue(p.span, receiver.typ, receiver.sym, NoStatementOrigin))))]));
    Property(p.sym + 1, p.name, p.origin, Some(cls), Some(field), Some(getter))
  }

  /** What the property of a call parameter looks like: same name, stored in
      a protected field of the parameter's type that is initialised by
      reading the parameter, and read back by a getter through its own
      dispatch receiver, a copy of the class receiver. */
  ghost predicate StoresParameter(prop: Property, p: Param, cls: Handle, thisReceiver: Param) {
    && prop.name == p.name && prop.origin == p.origin && prop.parent == Some(cls)
    && prop.backingField.Some?
    && var f := prop.backingField.value;
       && f.name == p.name && f.typ == p.typ && f.visibility == Protected && f.parent == Some(cls)
       && !f.isStatic
       && f.initializer.Some? && f.initializer.value.GetValue?
       && f.initializer.value.sym == p.sym && f.initializer.value.typ == p.typ
       && f.initializer.value.origin == InitializePropertyFromParameter
       && prop.getter.Some?
       && var g := prop.getter.value;
          && g.returnType == Some(p.typ) && g.parent == Some(cls) && g.valueParameters == []
          && g.dispatchReceiver.Some?
          && var recv := g.dispatchReceiver.value;
             && recv.parent == Some(g.sym) && recv.typ == thisReceiver.typ && recv.name == thisReceiver.name
             && g.body.BlockBody? && |g.body.statements| == 1
             && var ret := g.body.statements[0];
                && ret.Return? && ret.target == g.sym
                && ret.value.GetField? && ret.value.field == f.sym && ret.value.typ == p.typ
                && ret.value.receiver.Some? && ret.value.receiver.value.GetValue?
                && ret.value.receiver.value.sym == recv.sym
  }

  /** The properties store the parameters, position by position. */
  ghost predicate StoresParameters(props: seq<Decl>, params: seq<Param>, cls: Handle, thisReceiver: Param) {
    && |props| == |params|
    && forall i :: 0 <= i < |props| ==>
         props[i].PropertyDecl? && StoresParameter(props[i].prop, params[i], cls, thisReceiver)
  }

  lemma CallParameterPropertyStores(p: Param, cls: Handle, thisReceiver: Param, b: Builtins)
    ensures StoresParameter(CallParameterProperty(p, cls, thisReceiver, b), p, cls, thisReceiver)
  {
  }

  datatype CallParameterMembers = CallParameterMembers(params: seq<Param>, properties: seq<Decl>, next: Handle)

  /** One constructor parameter and one property per call parameter, in order,
      five fresh symbols each. */
  function CallParameters(cps: seq<Param>, cls: Handle, thisReceiver: Param, ctor: Handle, b: Builtins, next: Handle)
    : (r: CallParameterMembers)
    ensures |r.params| == |cps| && |r.properties| == |cps|
    ensures r.next == next + 5 * |cps|
    decreases |cps|
  {
    if cps == [] then CallParameterMembers([], [], next)
    else
      var p := ConstructorParameter(cps[0], ctor, next);
      var prop := CallParameterProperty(p, cls, thisReceiver, b);
      var rest := CallParameters(cps[1..], cls, thisReceiver, ctor, b, next + 5);
      CallParameterMembers([p] + rest.params, [PropertyDecl(prop)] + rest.properties, rest.next)
  }

  /** Constructor parameter `q` stands for call parameter `cp`: same name,
      type, origin and vararg type, owned by the constructor. */
  predicate KeepsParameter(q: Param, cp: Param, ctor: Handle) {
    && q.name == cp.name && q.typ == cp.typ
    && q.origin == cp.origin && q.varargElementType == cp.varargElementType
    && q.parent == Some(ctor)
  }

  /** Each constructor parameter stands for the call parameter at its
      position. */
  lemma {:induction false} CallParametersKeep(cps: seq<Param>, cls: Handle, thisReceiver: Param, ctor: Handle, b: Builtins,
                                              next: Handle)
    ensures var r := CallParameters(cps, cls, thisReceiver, ctor, b, next);
      forall i :: 0 <= i < |cps| ==> KeepsParameter(r.params[i], cps[i], ctor)
    decreases |cps|
  {
    if cps != [] {
      var r := CallParameters(cps, cls, thisReceiver, ctor, b, next);
      var rest := CallParameters(cps[1..], cls, thisReceiver, ctor, b, next + 5);
      CallParametersKeep(cps[1..], cls, thisReceiver, ctor, b, next + 5);
      assert r.params == [ConstructorParameter(cps[0], ctor, next)] + rest.params;
      forall i | 1 <= i < |cps| ensures KeepsParameter(r.params[i], cps[i], ctor) {
        assert r.params[i] == rest.params[i - 1] && cps[i] == cps[1..][i - 1];
      }
    }
  }

  /** Every parameter's symbol lies in `[lo, hi)`. */
  predicate SymbolsWithin(ps: seq<Param>, lo: Handle, hi: Handle) {
    forall i :: 0 <= i < |ps| ==> lo <= ps[i].sym < hi
  }

  /** Each constructor parameter takes a symbol in `[next, r.next)`. */
  lemma {:induction false} CallParametersFresh(cps: seq<Param>, cls: Handle, thisReceiver: Param, ctor: Handle, b: Builtins,
                                               next: Handle)
    ensures var r := CallParameters(cps, cls, thisReceiver, ctor, b, next);
      SymbolsWithin(r.params, next, r.next)
    decreases |cps|
  {
    if cps != [] {
      var r := CallParameters(cps, cls, thisReceiver, ctor, b, next);
      var rest := CallParameters(cps[1..], cls, thisReceiver, ctor, b, next + 5);
      CallParametersFresh(cps[1..], cls, thisReceiver, ctor, b, next + 5);
      assert r.params == [ConstructorParameter(cps[0], ctor, next)] + rest.params;
      assert r.next == rest.next;
      forall i | 1 <= i < |r.params| ensures next <= r.params[i].sym < r.next {
        assert r.params[i] == rest.params[i - 1];
      }
    }
  }

  lemma StoresParametersCons(prop: Property, p: Param, props: seq<Decl>, params: seq<Param>, cls: Handle, thisReceiver: Param)
    requires StoresParameter(prop, p, cls, thisReceiver)
    requires StoresParameters(props, params, cls, thisReceiver)
    ensures StoresParameters([PropertyDecl(prop)] + props, [p] + params, cls, thisReceiver)
  {
    var ps, qs := [PropertyDecl(prop)] + props, [p] + params;
    forall i | 1 <= i < |ps| ensures ps[i] == props[i - 1] && qs[i] == params[i - 1] {
    }
  }

  /** The property at each position stores the constructor parameter at
      that position. */
  lemma {:induction false} CallParametersStore(cps: seq<Param>, cls: Handle, thisReceiver: Param, ctor: Handle, b: Builtins,
                                               next: Handle)
    ensures var r := CallParameters(cps, cls, thisReceiver, ctor, b, next);
      StoresParameters(r.properties, r.params, cls, thisReceiver)
    decreases |cps|
  {
    if cps != [] {
      var p := ConstructorParameter(cps[0], ctor, next);
      var rest := CallParameters(cps[1..], cls, thisReceiver, ctor, b, next + 5);
      CallParametersStore(cps[1..], cls, thisReceiver, ctor, b, next + 5);
      CallParameterPropertyStores(p, cls, thisReceiver, b);
      StoresParametersCons(CallParameterProperty(p, cls, thisReceiver, b), p, rest.properties, rest.params, cls, thisReceiver);
    }
  }

  // ---------------------------------------------------------------------
  // The class

  /** `makeScriptClass`: fails unless the file entry leads to a parsed file;
      the class takes symbol `next` and the remapper starts right after it. */
  function MakeScriptClass(file: File, script: Script, b: Builtins, next: Handle): (r: Result<Lowered, LoweringError>)
    ensures r.Ok? <==> HasKtFile(file.entry)
    ensures r.Err? ==> r.error == EntryError(file.entry)
    ensures r.Ok? ==> r.value == BuildScriptClass(file, script, b, next, ScriptRemapper(script, next + 1))
  {
    if !HasKtFile(file.entry) then Err(EntryError(file.entry))
    else Ok(BuildScriptClass(file, script, b, next, ScriptRemapper(script, next + 1)))
  }

  /** The body of the primary constructor of class `cls`, copying with `m`. */
  function ConstructorBody(script: Script, b: Builtins, cls: Handle, m: Ref -> Handle): seq<Expr> {
    [DelegatingConstructorCall(UndefinedSpan, b.unitType, b.anyConstructor),
     InstanceInitializerCall(script.span, b.unitType, cls)]
    + CopyExprs(m, Structural, script.statements, Some(cls))
  }

  /** The constructor first, then the properties, then the copied members. */
  function ClassDeclarations(ctor: Fun, props: seq<Decl>, copies: seq<Decl>): (ds: seq<Decl>)
    ensures |ds| == 1 + |props| + |copies|
    ensures ds[0] == FunctionDecl(ctor)
    ensures ds[1..1 + |props|] == props
    ensures ds[1 + |props|..] == copies
  {
    var ds := [FunctionDecl(ctor)] + props + copies;
    assert ds[1..1 + |props|] == props;
    assert ds[1 + |props|..] == copies;
    ds
  }

  /** The class built for `script` with class symbol `cls` once the remapper
      `rm` has visited the script; the constructor takes `rm.next`. */
  function BuildScriptClass(file: File, script: Script, b: Builtins, cls: Handle, rm: Remapper): Lowered {
    var m := ScriptClassRemap(rm, script.sym, cls);
    var thisReceiver := CopyParam(m, Structural, script.thisReceiver, Some(cls));
    var members := CallParameters(script.explicitCallParameters, cls, thisReceiver, rm.next, b, rm.next + 1);
    var ctor := Fun(rm.next, ConstructorName, Constructor(true), Defined, Public, Some(cls), None, None,
                    members.params, Some(DefaultType(cls)), BlockBody(ConstructorBody(script, b, cls, m)));
    var copies := CopyDecls(m, Structural, script.declarations, Some(cls));
    var c := Class(Span(0, file.entry.maxOffset), cls, script.name, OrdinaryClass, Public, Final, ScriptClass,
                   Some(file.sym), [b.anyType], Some(thisReceiver),
                   ClassDeclarations(ctor, members.properties, copies), file.annotations, file.metadata);
    Lowered(c, members.next)
  }

  /** The class's first declaration: the primary constructor. */
  function PrimaryConstructor(c: Class): Option<Fun> {
    if |c.declarations| > 0 && c.declarations[0].FunctionDecl? then Some(c.declarations[0].fun) else None
  }

  /** The class's header: the script's name, a final public class of origin
      SCRIPT_CLASS in the file, extending exactly `Any`, carrying the file's
      annotations and metadata; its receiver is a copy of the script's. */
  lemma ScriptClassHeader(file: File, script: Script, b: Builtins, cls: Handle, rm: Remapper)
    ensures var l := BuildScriptClass(file, script, b, cls, rm);
      && l.cls.sym == cls && rm.next < l.next
      && l.cls.name == script.name && l.cls.kind == OrdinaryClass && l.cls.visibility == Public
      && l.cls.modality == Final && l.cls.origin == ScriptClass && l.cls.parent == Some(file.sym)
      && l.cls.superTypes == [b.anyType]
      && l.cls.annotations == file.annotations && l.cls.metadata == file.metadata
      && l.cls.span == Span(0, file.entry.maxOffset)
      && l.cls.thisReceiver == Some(CopyParam(ScriptClassRemap(rm, script.sym, cls), Structural, script.thisReceiver, Some(cls)))
  {
  }

  /** The declarations are the primary constructor, one property per call
      parameter, then the script's members copied in their original order. */
  lemma ScriptClassLayout(file: File, script: Script, b: Builtins, cls: Handle, rm: Remapper)
    ensures var c := BuildScriptClass(file, script, b, cls, rm).cls;
      var k := |script.explicitCallParameters|;
      && |c.declarations| == 1 + k + |script.declarations|
      && PrimaryConstructor(c).Some?
      && (forall i :: 1 <= i <= k ==> c.declarations[i].PropertyDecl?)
      && c.declarations[1 + k..] == CopyDecls(ScriptClassRemap(rm, script.sym, cls), Structural, script.declarations, Some(cls))
  {
    var m := ScriptClassRemap(rm, script.sym, cls);
    var thisReceiver := CopyParam(m, Structural, script.thisReceiver, Some(cls));
    CallParametersStore(script.explicitCallParameters, cls, thisReceiver, rm.next, b, rm.next + 1);
  }

  /** The constructor body calls the `Any` constructor, then the instance
      initializer of the class, then runs copies of the script's statements
      in order; top-level variables now belong to the class. */
  lemma ConstructorBodyOrder(script: Script, b: Builtins, cls: Handle, m: Ref -> Handle)
    ensures var ss := ConstructorBody(script, b, cls, m);
      && |ss| == 2 + |script.statements|
      && ss[0].DelegatingConstructorCall? && ss[0].ctor == b.anyConstructor
      && ss[1].InstanceInitializerCall? && ss[1].cls == cls && ss[1].span == script.span
      && ss[2..] == CopyExprs(m, Structural, script.statements, Some(cls))
      && (forall i :: 2 <= i < |ss| && ss[i].Variable? ==> ss[i].parent == Some(cls))
  {
    var ss := ConstructorBody(script, b, cls, m);
    var copies := CopyExprs(m, Structural, script.statements, Some(cls));
    assert ss[2..] == copies;
    forall i | 2 <= i < |ss| && ss[i].Variable?
      ensures ss[i].parent == Some(cls)
    {
      assert ss[i] == CopyExpr(m, Structural, script.statements[i - 2], Some(cls));
    }
  }

  /** The primary constructor: one parameter per call parameter with the
      same name, type and origin, in order, and the body above. */
  lemma ScriptClassConstructor(file: File, script: Script, b: Builtins, cls: Handle, rm: Remapper)
    ensures var c := BuildScriptClass(file, script, b, cls, rm).cls;
      var cps := script.explicitCallParameters;
      && PrimaryConstructor(c).Some?
      && var ctor := PrimaryConstructor(c).value;
         && ctor.kind == Constructor(true) && ctor.parent == Some(cls) && ctor.visibility == Public
         && ctor.returnType == Some(DefaultType(cls))
         && |ctor.valueParameters| == |cps|
         && (forall i :: 0 <= i < |cps| ==>
               && ctor.valueParameters[i].name == cps[i].name && ctor.valueParameters[i].typ == cps[i].typ
               && ctor.valueParameters[i].origin == cps[i].origin
               && ctor.valueParameters[i].parent == Some(ctor.sym))
         && ctor.body == BlockBody(ConstructorBody(script, b, cls, ScriptClassRemap(rm, script.sym, cls)))
  {
    var m := ScriptClassRemap(rm, script.sym, cls);
    var thisReceiver := CopyParam(m, Structural, script.thisReceiver, Some(cls));
    CallParametersKeep(script.explicitCallParameters, cls, thisReceiver, rm.next, b, rm.next + 1);
  }

  /** Each call parameter is stored in the property that follows the
      constructor at the same position. */
  lemma ScriptClassProperties(file: File, script: Script, b: Builtins, cls: Handle, rm: Remapper)
    ensures var c := BuildScriptClass(file, script, b, cls, rm).cls;
      var k := |script.explicitCallParameters|;
      && PrimaryConstructor(c).Some? && c.thisReceiver.Some?
      && 1 + k <= |c.declarations|
      && StoresParameters(c.declarations[1..1 + k], PrimaryConstructor(c).value.valueParameters, cls, c.thisReceiver.value)
  {
    var m := ScriptClassRemap(rm, script.sym, cls);
    var thisReceiver := CopyParam(m, Structural, script.thisReceiver, Some(cls));
    CallParametersStore(script.explicitCallParameters, cls, thisReceiver, rm.next, b, rm.next + 1);
  }

  // ---------------------------------------------------------------------
  // Symbols of the copies

  /** Every symbol the copies in the class declare is fresh: above the class
      symbol, hence distinct from every symbol of the input when those are
      all below `next`. */
  lemma ScriptClassCopiesFresh(file: File, script: Script, b: Builtins, next: Handle)
    ensures var rm := ScriptRemapper(script, next + 1);
      var c := BuildScriptClass(file, script, b, next, rm).cls;
      var ss := ConstructorBody(script, b, next, ScriptClassRemap(rm, script.sym, next));
      && c.thisReceiver.Some?
      && (forall h :: Ref(Declared, h) in ParamRefs(c.thisReceiver.value, false) ==> next < h)
      && (forall h :: Ref(Declared, h) in DeclsRefs(c.declarations[1 + |script.explicitCallParameters|..], false) ==> next < h)
      && (forall h :: Ref(DeclaredScript, h) in DeclsRefs(c.declarations[1 + |script.explicitCallParameters|..], false) ==> next < h)
      && (forall h :: Ref(Declared, h) in ExprsRefs(ss[2..], false) ==> next < h)
  {
    var rm := ScriptRemapper(script, next + 1);
    var m := ScriptClassRemap(rm, script.sym, next);
    ParamCopyRefs(m, Structural, script.thisReceiver, Some(next), false);
    CopyDeclaresFresh(rm, script.sym, next, ParamRefs(script.thisReceiver, false), next + 1);
    DeclsCopyRefs(m, Structural, script.declarations, Some(next), false);
    CopyDeclaresFresh(rm, script.sym, next, DeclsRefs(script.declarations, false), next + 1);
    ExprsCopyRefs(m, Structural, script.statements, Some(next), false);
    CopyDeclaresFresh(rm, script.sym, next, ExprsRefs(script.statements, false), next + 1);
    ConstructorBodyOrder(script, b, next, m);
  }

  /** `h` is declared by the script's receiver, declarations or statements:
      exactly the symbols the remapper gives copies. */
  predicate DeclaredIn(script: Script, h: Handle) {
    || Ref(Declared, h) in ParamRefs(script.thisReceiver, false)
    || Ref(Declared, h) in DeclsRefs(script.declarations, false)
    || Ref(Declared, h) in ExprsRefs(script.statements, false)
  }

  /** How the references of `copy`, the copy of a tree whose references are
      `orig`, relate to them when the class is `cls`: nothing in the copy
      points at a symbol the script declares (a reference is a copy, above
      `cls`, or an original one from outside); every reference from outside
      stays as it is; the script as a classifier becomes the class. */
  ghost predicate RefsRemapped(copy: seq<Ref>, orig: seq<Ref>, script: Script, cls: Handle) {
    && (forall h :: Ref(Referenced, h) in copy ==>
          cls < h || (Ref(Referenced, h) in orig && !DeclaredIn(script, h)))
    && (forall h :: Ref(ReferencedClassifier, h) in copy ==>
          cls <= h || (Ref(ReferencedClassifier, h) in orig && h != script.sym && !DeclaredIn(script, h)))
    && (forall h :: Ref(Referenced, h) in orig && !DeclaredIn(script, h) ==> Ref(Referenced, h) in copy)
    && (forall h :: Ref(ReferencedClassifier, h) in orig && h != script.sym && !DeclaredIn(script, h) ==>
          Ref(ReferencedClassifier, h) in copy)
    && (Ref(ReferencedClassifier, script.sym) in orig && !DeclaredIn(script, cls) ==>
          Ref(ReferencedClassifier, cls) in copy)
  }

  /** Any tree copied through the script's remapper relates to its copy as
      `RefsRemapped` says. */
  lemma CopyRefsRemapped(script: Script, next: Handle, orig: seq<Ref>)
    ensures RefsRemapped(MapRefs(ScriptClassRemap(ScriptRemapper(script, next + 1), script.sym, next), orig), orig, script, next)
  {
    var rm := ScriptRemapper(script, next + 1);
    assert forall h :: h in rm.table <==> DeclaredIn(script, h);
    CopyReferencesStay(rm, script.sym, next, orig, next + 1);
    CopyReferencesFollow(rm, script.sym, next, orig);
  }

  /** The copies of the receiver, the members and the statements in the class
      keep no reference into the script and leave outside references alone;
      the script's classifier becomes the class. */
  lemma ScriptClassReferencesRemapped(file: File, script: Script, b: Builtins, next: Handle)
    ensures var rm := ScriptRemapper(script, next + 1);
      var c := BuildScriptClass(file, script, b, next, rm).cls;
      var ss := ConstructorBody(script, b, next, ScriptClassRemap(rm, script.sym, next));
      && c.thisReceiver.Some?
      && |ss| == 2 + |script.statements|
      && 1 + |script.explicitCallParameters| <= |c.declarations|
      && RefsRemapped(ParamRefs(c.thisReceiver.value, false), ParamRefs(script.thisReceiver, false), script, next)
      && RefsRemapped(DeclsRefs(c.declarations[1 + |script.explicitCallParameters|..], false),
                      DeclsRefs(script.declarations, false), script, next)
      && RefsRemapped(ExprsRefs(ss[2..], false), ExprsRefs(script.statements, false), script, next)
  {
    var rm := ScriptRemapper(script, next + 1);
    var m := ScriptClassRemap(rm, script.sym, next);
    ParamCopyRefs(m, Structural, script.thisReceiver, Some(next), false);
    CopyRefsRemapped(script, next, ParamRefs(script.thisReceiver, false));
    DeclsCopyRefs(m, Structural, script.declarations, Some(next), false);
    CopyRefsRemapped(script, next, DeclsRefs(script.declarations, false));
    ExprsCopyRefs(m, Structural, script.statements, Some(next), false);
    CopyRefsRemapped(script, next, ExprsRefs(script.statements, false));
    ConstructorBodyOrder(script, b, next, m);
  }

  // ---------------------------------------------------------------------
  // The pass

  datatype LoweredDecls = LoweredDecls(decls: seq<Decl>, next: Handle)

  /** Lowering one script, given the first symbol not yet handed out. The
      pass below is stated for any such step; `ScriptStep` is the one of
      `lower`. */
  type Step = (Script, Handle) -> Result<Lowered, LoweringError>

  function ScriptStep(file: File, b: Builtins): Step {
    (s: Script, n: Handle) => MakeScriptClass(file, s, b, n)
  }

  /** The step fails for every script with `err` when `fails`, and never
      otherwise. */
  ghost predicate FailsUniformly(step: Step, fails: bool, err: LoweringError) {
    forall s: Script, n: Handle :: (step(s, n).Err? <==> fails) && (step(s, n).Err? ==> step(s, n).error == err)
  }

  /** The class a step builds takes the symbol it is given and hands out
      symbols above it only. */
  ghost predicate Allocates(step: Step) {
    forall s: Script, n: Handle :: step(s, n).Ok? ==> step(s, n).value.cls.sym == n < step(s, n).value.next
  }

  /** One declaration of the file: a script becomes its class. */
  function LowerDecl(step: Step, d: Decl, next: Handle): Result<LoweredDecls, LoweringError> {
    if d.ScriptDecl? then
      match step(d.script, next)
      case Ok(l) => Ok(LoweredDecls([ClassDecl(l.cls)], l.next))
      case Err(e) => Err(e)
    else Ok(LoweredDecls([d], next))
  }

  /** The file's declarations lowered in order; the class symbols handed out
      start at `next`. The first failure aborts the pass. */
  function LowerDecls(step: Step, ds: seq<Decl>, next: Handle): (r: Result<LoweredDecls, LoweringError>)
    ensures r.Ok? ==> |r.value.decls| == |ds|
    decreases |ds|
  {
    if ds == [] then Ok(LoweredDecls([], next))
    else
      match LowerDecl(step, ds[0], next)
      case Err(e) => Err(e)
      case Ok(head) =>
        match LowerDecls(step, ds[1..], head.next)
        case Err(e) => Err(e)
        case Ok(rest) => Ok(LoweredDecls(head.decls + rest.decls, rest.next))
  }

  /** The pass fails exactly when some declaration is a script and the step
      fails, with the step's error. */
  lemma {:induction false} LowerDeclsFails(step: Step, ds: seq<Decl>, next: Handle, fails: bool, err: LoweringError)
    requires FailsUniformly(step, fails, err)
    ensures LowerDecls(step, ds, next).Err? <==> (exists i :: 0 <= i < |ds| && ds[i].ScriptDecl?) && fails
    ensures LowerDecls(step, ds, next).Err? ==> LowerDecls(step, ds, next).error == err
    decreases |ds|
  {
    if ds != [] {
      var h := LowerDecl(step, ds[0], next);
      if h.Ok? {
        LowerDeclsFails(step, ds[1..], h.value.next, fails, err);
        assert forall i :: 1 <= i < |ds| ==> ds[i] == ds[1..][i - 1];
        assert forall i :: 0 <= i < |ds[1..]| ==> ds[1..][i] == ds[i + 1];
      }
    }
  }

  /** Each script is replaced at its own index by the class the step built
      for it; every other declaration stays where it was, unchanged. The
      class symbols are handed out in increasing order from `next`, so no
      two classes share one. */
  lemma {:induction false} LowerDeclsInPlace(step: Step, ds: seq<Decl>, next: Handle)
    requires Allocates(step)
    requires LowerDecls(step, ds, next).Ok?
    ensures var r := LowerDecls(step, ds, next).value;
      && |r.decls| == |ds|
      && next <= r.next
      && (forall i :: 0 <= i < |ds| && !ds[i].ScriptDecl? ==> r.decls[i] == ds[i])
      && (forall i :: 0 <= i < |ds| && ds[i].ScriptDecl? ==>
            && r.decls[i].ClassDecl?
            && next <= r.decls[i].cls.sym < r.next
            && step(ds[i].script, r.decls[i].cls.sym).Ok?
            && r.decls[i].cls == step(ds[i].script, r.decls[i].cls.sym).value.cls)
    decreases |ds|
  {
    if ds != [] {
      var h := LowerDecl(step, ds[0], next).value;
      LowerDeclsInPlace(step, ds[1..], h.next);
      var r := LowerDecls(step, ds, next).value;
      var rest := LowerDecls(step, ds[1..], h.next).value;
      assert r.decls == h.decls + rest.decls;
      assert forall i :: 1 <= i < |ds| ==> r.decls[i] == rest.decls[i - 1] && ds[i] == ds[1..][i - 1];
    }
  }

  /** The class symbols grow with the index, so no two classes share one. */
  lemma {:induction false} LowerDeclsIncreasing(step: Step, ds: seq<Decl>, next: Handle)
    requires Allocates(step)
    requires LowerDecls(step, ds, next).Ok?
    ensures var r := LowerDecls(step, ds, next).value;
      forall i, j :: 0 <= i < j < |ds| && ds[i].ScriptDecl? && ds[j].ScriptDecl? ==>
        r.decls[i].ClassDecl? && r.decls[j].ClassDecl? && r.decls[i].cls.sym < r.decls[j].cls.sym
    decreases |ds|
  {
    if ds != [] {
      var h := LowerDecl(step, ds[0], next).value;
      LowerDeclsIncreasing(step, ds[1..], h.next);
      LowerDeclsInPlace(step, ds[1..], h.next);
      var r := LowerDecls(step, ds, next).value;
      var rest := LowerDecls(step, ds[1..], h.next).value;
      assert r.decls == h.decls + rest.decls;
      assert forall i :: 1 <= i < |ds| ==> r.decls[i] == rest.decls[i - 1] && ds[i] == ds[1..][i - 1];
      if ds[0].ScriptDecl? {
        assert r.decls[0].cls.sym == next < h.next;
      }
    }
  }

  /** `lower`: the file with its declarations lowered; nothing else in the
      file changes. */
  function Lower(file: File, b: Builtins, next: Handle): (r: Result<(File, Handle), LoweringError>)
    ensures r.Ok? ==>
      && r.value.0 == file.(declarations := r.value.0.declarations)
      && |r.value.0.declarations| == |file.declarations|
  {
    match LowerDecls(ScriptStep(file, b), file.declarations, next)
    case Err(e) => Err(e)
    case Ok(l) => Ok((file.(declarations := l.decls), l.next))
  }

  lemma ScriptStepFails(file: File, b: Builtins)
    ensures FailsUniformly(ScriptStep(file, b), !HasKtFile(file.entry), EntryError(file.entry))
  {
  }

  lemma ScriptStepAllocates(file: File, b: Builtins)
    ensures Allocates(ScriptStep(file, b))
  {
    forall s: Script, n: Handle | MakeScriptClass(file, s, b, n).Ok?
      ensures MakeScriptClass(file, s, b, n).value.cls.sym == n < MakeScriptClass(file, s, b, n).value.next
    {
      ScriptClassHeader(file, s, b, n, ScriptRemapper(s, n + 1));
    }
  }

  /** After the pass no script remains at file level, every script became a
      class named after it in the file, of origin SCRIPT_CLASS, and every
      other declaration is untouched. */
  lemma LowerReplacesScripts(file: File, b: Builtins, next: Handle)
    ensures Lower(file, b, next).Err?
        <==> (exists i :: 0 <= i < |file.declarations| && file.declarations[i].ScriptDecl?) && !HasKtFile(file.entry)
    ensures Lower(file, b, next).Err? ==> Lower(file, b, next).error == EntryError(file.entry)
    ensures Lower(file, b, next).Ok? ==>
      var f := Lower(file, b, next).value.0;
      && (forall i :: 0 <= i < |f.declarations| ==> !f.declarations[i].ScriptDecl?)
      && (forall i :: 0 <= i < |f.declarations| && !file.declarations[i].ScriptDecl? ==>
            f.declarations[i] == file.declarations[i])
      && (forall i :: 0 <= i < |f.declarations| && file.declarations[i].ScriptDecl? ==>
            && f.declarations[i].ClassDecl?
            && f.declarations[i].cls.name == file.declarations[i].script.name
            && f.declarations[i].cls.origin == ScriptClass
            && f.declarations[i].cls.parent == Some(file.sym))
  {
    var step := ScriptStep(file, b);
    ScriptStepFails(file, b);
    LowerDeclsFails(step, file.declarations, next, !HasKtFile(file.entry), EntryError(file.entry));
    if Lower(file, b, next).Ok? {
      ScriptStepAllocates(file, b);
      LowerDeclsInPlace(step, file.declarations, next);
      var r := LowerDecls(step, file.declarations, next).value;
      forall i | 0 <= i < |file.declarations| && file.declarations[i].ScriptDecl?
        ensures r.decls[i].cls.name == file.declarations[i].script.name
        ensures r.decls[i].cls.origin == ScriptClass
        ensures r.decls[i].cls.parent == Some(file.sym)
      {
        var s := file.declarations[i].script;
        var c := r.decls[i].cls.sym;
        ScriptClassHeader(file, s, b, c, ScriptRemapper(s, c + 1));
      }
    }
  }

  /** Every class of the lowered file is the class built for the script at
      its index with a symbol of its own: symbols grow with the index and lie
      between `next` and the first symbol left free. */
  lemma LowerBuildsClasses(file: File, b: Builtins, next: Handle)
    requires Lower(file, b, next).Ok?
    ensures var (f, next') := Lower(file, b, next).value;
      && (forall i :: 0 <= i < |f.declarations| && file.declarations[i].ScriptDecl? ==>
            && f.declarations[i].ClassDecl?
            && next <= f.declarations[i].cls.sym < next'
            && MakeScriptClass(file, file.declarations[i].script, b, f.declarations[i].cls.sym).Ok?
            && f.declarations[i].cls == MakeScriptClass(file, file.declarations[i].script, b, f.declarations[i].cls.sym).value.cls)
      && (forall i, j :: 0 <= i < j < |f.declarations| && file.declarations[i].ScriptDecl? && file.declarations[j].ScriptDecl? ==>
            f.declarations[i].cls.sym < f.declarations[j].cls.sym)
  {
    ScriptStepAllocates(file, b);
    LowerDeclsInPlace(ScriptStep(file, b), file.declarations, next);
    LowerDeclsIncreasing(ScriptStep(file, b), file.declarations, next);
  }

  // ---------------------------------------------------------------------
  // Re-pointing parents

  /** The symbol map of `patchDeclarationParentsToScriptClass`: a parent
      link to the script becomes a link to the class; nothing else changes. */
  function RePointMap(script: Handle, cls: Handle): Ref -> Handle {
    (x: Ref) => if x.kind == ParentRef && x.h == script then cls else x.h
  }

  /** Visits every declaration in `d` and moves it from the script to the class. */
  function RePointParents(d: Decl, script: Handle, cls: Handle): Decl {
    CopyDecl(RePointMap(script, cls), ThroughRemapper, d, None)
  }

  /** Only parent links equal to the script change, and they change to the
      class; every other handle, parent links included, stays in place. */
  lemma RePointOnlyScriptParents(d: Decl, script: Handle, cls: Handle)
    ensures |DeclRefs(RePointParents(d, script, cls), true)| == |DeclRefs(d, true)|
    ensures forall i :: 0 <= i < |DeclRefs(d, true)| ==>
      DeclRefs(RePointParents(d, script, cls), true)[i]
        == if DeclRefs(d, true)[i] == Ref(ParentRef, script) then Ref(ParentRef, cls) else DeclRefs(d, true)[i]
  {
    var m := RePointMap(script, cls);
    DeclCopyRefs(m, ThroughRemapper, d, None, true);
    forall i | 0 <= i < |DeclRefs(d, true)|
      ensures DeclRefs(RePointParents(d, script, cls), true)[i]
        == if DeclRefs(d, true)[i] == Ref(ParentRef, script) then Ref(ParentRef, cls) else DeclRefs(d, true)[i]
    {
      MapRefsIndex(m, DeclRefs(d, true), i);
    }
  }
}

=== FILE: stm_calls.dfy ===
/** The STM rewrite of functions and call sites: `createParameterDeclarations`,
    `callFunction`, `patchFunction`, `patchAtomicFunctionCall` and
    `patchPropertyAccess`. Deep copies of receivers, arguments and bodies
    are modelled as the identity. */
module StmCalls {
  import opened Wrappers
  import opened Ir
  import opened StmRuntime
  import opened StmContext

  function Nones(n: nat): (r: seq<Option<Expr>>)
    ensures |r| == n && forall i :: 0 <= i < n ==> r[i].None?
  {
    seq(n, i => None)
  }

  predicate StartsWith(s: Name, prefix: Name) {
    |prefix| <= |s| && s[..|prefix|] == prefix
  }

  // ---------------------------------------------------------------------
  // Parameters

  /** `irValueParameter`: the IR parameter of descriptor parameter `p`,
      owned by function `owner`, at the owner's offsets `span`. */
  function IrValueParameter(p: Param, owner: Handle, span: Span, sym: Handle): Param {
    Param(span, sym, p.name, p.typ, None, StmPlugin, Some(owner))
  }

  function IrValueParameters(ps: seq<Param>, owner: Handle, span: Span, next: Handle): seq<Param> {
    seq(|ps|, k requires 0 <= k < |ps| => IrValueParameter(ps[k], owner, span, next + k))
  }

  /** `createParameterDeclarations`: the receivers and value parameters of
      `f` declared from those of descriptor `d`, at `f`'s offsets `span`. Unless `overwrite` is set,
      `f` must not have value parameters yet. Symbols: the dispatch receiver
      takes `next`, the extension receiver `next + 1`, the value parameters
      those after. */
  function CreateParameterDeclarations(f: Fun, d: Fun, span: Span, overwrite: bool, next: Handle): (r: Result<(Fun, Handle), StmError>)
    ensures r.Ok? <==> overwrite || f.valueParameters == []
    ensures r.Err? ==> r.error == ParametersAlreadyDeclared(f.name)
    ensures r.Ok? ==>
      var (g, next') := r.value;
      && g == f.(dispatchReceiver := g.dispatchReceiver, extensionReceiver := g.extensionReceiver,
                 valueParameters := g.valueParameters)
      && (g.dispatchReceiver.Some? <==> d.dispatchReceiver.Some?)
      && (g.extensionReceiver.Some? <==> d.extensionReceiver.Some?)
      && (g.dispatchReceiver.Some? ==> g.dispatchReceiver.value.span == span)
      && (g.extensionReceiver.Some? ==> g.extensionReceiver.value.span == span)
      && |g.valueParameters| == |d.valueParameters|
      && (forall k :: 0 <= k < |d.valueParameters| ==>
            && g.valueParameters[k].name == d.valueParameters[k].name
            && g.valueParameters[k].span == span
            && g.valueParameters[k].typ == d.valueParameters[k].typ
            && g.valueParameters[k].origin == StmPlugin
            && g.valueParameters[k].parent == Some(f.sym)
            && next + 2 <= g.valueParameters[k].sym < next')
      && (forall k, l :: 0 <= k < l < |g.valueParameters| ==> g.valueParameters[k].sym < g.valueParameters[l].sym)
  {
    var dispatch := if d.dispatchReceiver.Some? then Some(IrValueParameter(d.dispatchReceiver.value, f.sym, span, next)) else None;
    var extension := if d.extensionReceiver.Some? then Some(IrValueParameter(d.extensionReceiver.value, f.sym, span, next + 1)) else None;
    if !overwrite && f.valueParameters != [] then Err(ParametersAlreadyDeclared(f.name))
    else
      Ok((f.(dispatchReceiver := dispatch, extensionReceiver := extension,
             valueParameters := IrValueParameters(d.valueParameters, f.sym, span, next + 2)),
          next + 2 + |d.valueParameters|))
  }

  /** `contributeFunction` with `declareNew`: a fresh function with symbol
      `next`, declared from descriptor `d` under `parent` at the parent's
      offsets `span`, with `d`'s name,
      visibility and return type and parameters declared from `d`. A
      descriptor without return type fails. The body is left to the caller. */
  function DeclareFunction(d: Fun, parent: Option<Handle>, span: Span, next: Handle): (r: Result<(Fun, Handle), StmError>)
    ensures r.Ok? <==> d.returnType.Some?
    ensures r.Err? ==> r.error == NullReturnType(d.name)
    ensures r.Ok? ==>
      var (f, next') := r.value;
      && f.sym == next && next < next'
      && f.name == d.name && f.kind == SimpleFunction && f.origin == StmPlugin
      && f.visibility == d.visibility && f.parent == parent
      && f.returnType == d.returnType && f.body == NoBody
      && (f.dispatchReceiver.Some? <==> d.dispatchReceiver.Some?)
      && (f.extensionReceiver.Some? <==> d.extensionReceiver.Some?)
      && |f.valueParameters| == |d.valueParameters|
      && (forall k :: 0 <= k < |d.valueParameters| ==>
            && f.valueParameters[k].name == d.valueParameters[k].name
            && f.valueParameters[k].typ == d.valueParameters[k].typ
            && f.valueParameters[k].span == span
            && f.valueParameters[k].parent == Some(next))
  {
    if d.returnType.None? then Err(NullReturnType(d.name))
    else
      var declared := Fun(next, d.name, SimpleFunction, StmPlugin, d.visibility, parent, None, None, [], d.returnType, NoBody);
      CreateParameterDeclarations(declared, d, span, false, next + 1)
  }

  // ---------------------------------------------------------------------
  // Calls

  /** A call of `callee` (`irCall` followed by `putValueArgument` for each
      given argument): one argument slot per parameter of the callee, the
      given arguments in the first slots; more arguments than slots fail. */
  function Invoke(callee: Fun, span: Span, typ: IrType, origin: StatementOrigin, superQualifier: Option<Handle>,
                  typeArguments: seq<Option<IrType>>, dispatch: Option<Expr>, extension: Option<Expr>,
                  args: seq<Option<Expr>>): (r: Result<Expr, StmError>)
    ensures r.Ok? <==> |args| <= |callee.valueParameters|
    ensures r.Err? ==> r.error == NoArgumentSlot(callee.name, |callee.valueParameters|)
    ensures r.Ok? ==>
      && r.value.Call?
      && r.value == Call(span, typ, callee.sym, origin, superQualifier, typeArguments, dispatch, extension, r.value.arguments)
      && |r.value.arguments| == |callee.valueParameters|
      && r.value.arguments[..|args|] == args
      && (forall i :: |args| <= i < |callee.valueParameters| ==> r.value.arguments[i].None?)
  {
    if |args| > |callee.valueParameters| then Err(NoArgumentSlot(callee.name, |callee.valueParameters|))
    else
      var arguments := args + Nones(|callee.valueParameters| - |args|);
      assert arguments[..|args|] == args;
      Ok(Call(span, typ, callee.sym, origin, superQualifier, typeArguments, dispatch, extension, arguments))
  }

  /** `callFunction`: a call of `f` at the place of `prev`, keeping its
      offsets, type, origin and super qualifier. The call has one argument
      slot per parameter of `f`; the given arguments fill the first slots
      and there must be no more of them than slots. */
  function CallFunction(f: Fun, prev: Expr, dispatch: Option<Expr>, extension: Option<Expr>, args: seq<Option<Expr>>)
    : (r: Result<Expr, StmError>)
    requires prev.Call?
    ensures r.Ok? <==> |args| <= |f.valueParameters|
    ensures r.Err? ==> r.error == NoArgumentSlot(f.name, |f.valueParameters|)
    ensures r.Ok? ==>
      && r.value.Call?
      && r.value.callee == f.sym
      && r.value.span == prev.span && r.value.typ == prev.typ
      && r.value.origin == prev.origin && r.value.superQualifier == prev.superQualifier
      && r.value.dispatchReceiver == dispatch && r.value.extensionReceiver == extension
      && |r.value.arguments| == |f.valueParameters|
      && r.value.arguments[..|args|] == args
      && (forall i :: |args| <= i < |f.valueParameters| ==> r.value.arguments[i].None?)
  {
    Invoke(f, prev.span, prev.typ, prev.origin, prev.superQualifier, [], dispatch, extension, args)
  }

  /** `patchAtomicFunctionCall`: the call of an atomic function becomes a
      call of its transformed version with the context appended. A missing
      context is reported first, then a callee without transformed version. */
  function PatchAtomicFunctionCall(names: StmNames, call: Expr, fn: Fun, stack: seq<Fun>, transformed: map<Handle, Fun>)
    : (r: Result<Expr, StmError>)
    requires call.Call?
  {
    var ctx :- FetchStmContext(names, stack, fn.name);
    var newFunction :- if fn.sym in transformed then Ok(transformed[fn.sym]) else Err(NotTransformed(fn.name));
    CallFunction(newFunction, call, call.dispatchReceiver, call.extensionReceiver, call.arguments + [Some(ctx)])
  }

  /** The rewritten call keeps the arguments in order, adds the context as
      the last one and keeps both receivers; it fails exactly when there is
      no context, or no transformed version, or no slot for the context. */
  lemma PatchAtomicFunctionCallShape(names: StmNames, call: Expr, fn: Fun, stack: seq<Fun>, transformed: map<Handle, Fun>)
    requires call.Call?
    ensures var r := PatchAtomicFunctionCall(names, call, fn, stack, transformed);
      var ctx := FetchStmContextOrNull(names, stack);
      && (ctx.None? ==> r == Err(MissingContext(fn.name)))
      && (ctx.Some? && fn.sym !in transformed ==> r == Err(NotTransformed(fn.name)))
      && (ctx.Some? && fn.sym in transformed ==>
            var g := transformed[fn.sym];
            && (r.Ok? <==> |call.arguments| < |g.valueParameters|)
            && (r.Ok? ==>
                  && r.value.callee == g.sym
                  && r.value.arguments[..|call.arguments|] == call.arguments
                  && r.value.arguments[|call.arguments|] == ctx
                  && r.value.dispatchReceiver == call.dispatchReceiver
                  && r.value.extensionReceiver == call.extensionReceiver
                  && r.value.span == call.span && r.value.typ == call.typ && r.value.origin == call.origin))
  {
    var ctx := FetchStmContextOrNull(names, stack);
    if ctx.Some? && fn.sym in transformed {
      var args := call.arguments + [ctx];
      assert args[..|call.arguments|] == call.arguments;
      assert args[|call.arguments|] == ctx;
      var r := PatchAtomicFunctionCall(names, call, fn, stack, transformed);
      if r.Ok? {
        assert r.value.arguments[..|args|] == args;
        assert r.value.arguments[..|call.arguments|] == args[..|call.arguments|];
      }
    }
  }

  /** An accessor call: the accessor's name and that of its property. */
  datatype Accessor = Accessor(name: Name, propertyName: Name)

  /** The class the accessor is looked up in: that of the dispatch receiver,
      else that of the extension receiver. */
  function ReceiverClass(call: Expr): Option<Handle>
    requires call.Call?
  {
    if call.dispatchReceiver.Some? && ClassOf(call.dispatchReceiver.value.typ).Some? then ClassOf(call.dispatchReceiver.value.typ)
    else if call.extensionReceiver.Some? && ClassOf(call.extensionReceiver.value.typ).Some? then ClassOf(call.extensionReceiver.value.typ)
    else None
  }

  /** The context argument of an accessor call: the context in scope, else a
      null of the type of the accessor's first parameter. */
  function ContextOrNull(ctx: Option<Expr>, span: Span, accessor: Fun): Result<Expr, StmError> {
    if ctx.Some? then Ok(ctx.value)
    else if accessor.valueParameters == [] then Err(MissingParameter(accessor.name, 0))
    else Ok(NullConst(span, accessor.valueParameters[0].typ))
  }

  /** `patchPropertyAccess`: a property accessor call on a shared class
      becomes a call of the class's synthetic getter or setter with the
      context first. Properties named after the STM field are left alone. */
  function PatchPropertyAccess(names: StmNames, call: Expr, accessor: Accessor, stack: seq<Fun>,
                               classOf: Handle -> ClassInfo): (r: Result<Expr, StmError>)
    requires call.Call?
  {
    if StartsWith(accessor.propertyName, names.stmFieldName) then Ok(call)
    else if ReceiverClass(call).None? then Err(UnknownReceiverClass)
    else
      var c := classOf(ReceiverClass(call).value);
      var ctx := FetchStmContextOrNull(names, stack);
      if StartsWith(accessor.name, names.getPrefix) then
        var getter :- FindMethodOrThrow(c, names.getterName(accessor.propertyName));
        var ctxArg :- ContextOrNull(ctx, call.span, getter);
        CallFunction(getter, call, call.dispatchReceiver, call.extensionReceiver, [Some(ctxArg)])
      else
        var setter :- FindMethodOrThrow(c, names.setterName(accessor.propertyName));
        var newValue :- if call.arguments == [] then Err(NoArgumentSlot(accessor.name, 0)) else Ok(call.arguments[0]);
        var ctxArg :- ContextOrNull(ctx, call.span, setter);
        CallFunction(setter, call, call.dispatchReceiver, call.extensionReceiver, [Some(ctxArg), newValue])
  }

  /** A getter call becomes `getter(ctx-or-null)`, a setter call
      `setter(ctx-or-null, value)`, on the same receivers; the STM field's
      own accessors are unchanged, and a receiver without class is an error. */
  lemma PatchPropertyAccessShape(names: StmNames, call: Expr, accessor: Accessor, stack: seq<Fun>, classOf: Handle -> ClassInfo)
    requires call.Call?
    ensures var r := PatchPropertyAccess(names, call, accessor, stack, classOf);
      var ctx := FetchStmContextOrNull(names, stack);
      && (StartsWith(accessor.propertyName, names.stmFieldName) ==> r == Ok(call))
      && (!StartsWith(accessor.propertyName, names.stmFieldName) && ReceiverClass(call).None? ==> r == Err(UnknownReceiverClass))
      && (!StartsWith(accessor.propertyName, names.stmFieldName) && r.Ok? ==>
            var c := classOf(ReceiverClass(call).value);
            var isGet := StartsWith(accessor.name, names.getPrefix);
            var target := FindMethod(c.methods, if isGet then names.getterName(accessor.propertyName)
                                                         else names.setterName(accessor.propertyName));
            && target.Some?
            && r.value.callee == target.value.sym
            && r.value.dispatchReceiver == call.dispatchReceiver
            && r.value.extensionReceiver == call.extensionReceiver
            && (ctx.Some? ==> r.value.arguments[0] == ctx)
            && (ctx.None? ==> r.value.arguments[0] == Some(NullConst(call.span, target.value.valueParameters[0].typ)))
            && (isGet ==> forall i :: 1 <= i < |r.value.arguments| ==> r.value.arguments[i].None?)
            && (!isGet ==> r.value.arguments[1] == call.arguments[0]))
  {
  }

  /** When the rewrite of an accessor call on a shared class succeeds: a
      missing synthetic getter or setter is an error naming the class and
      the accessor; a found one takes the call exactly when it has a slot
      for the context, and a setter also one for the value the call passes. */
  lemma PatchPropertyAccessOutcome(names: StmNames, call: Expr, accessor: Accessor, stack: seq<Fun>,
                                   classOf: Handle -> ClassInfo)
    requires call.Call?
    ensures var r := PatchPropertyAccess(names, call, accessor, stack, classOf);
      !StartsWith(accessor.propertyName, names.stmFieldName) && ReceiverClass(call).Some? ==>
        var c := classOf(ReceiverClass(call).value);
        var isGet := StartsWith(accessor.name, names.getPrefix);
        var name := if isGet then names.getterName(accessor.propertyName) else names.setterName(accessor.propertyName);
        var target := FindMethod(c.methods, name);
        && (target.None? ==> r == Err(MissingRuntimeMethod(c.name, name)))
        && (target.Some? && isGet ==> (r.Ok? <==> 1 <= |target.value.valueParameters|))
        && (target.Some? && !isGet ==> (r.Ok? <==> 2 <= |target.value.valueParameters| && call.arguments != []))
  {
  }

  // ---------------------------------------------------------------------
  // Functions

  /** `argumentMap[old[i].symbol] = new[i]` for every `i`, in order. */
  function MapParameters(m: map<Handle, Param>, olds: seq<Param>, news: seq<Param>): map<Handle, Param>
    requires |olds| <= |news|
    decreases |olds|
  {
    if olds == [] then m
    else MapParameters(m, olds[..|olds| - 1], news)[olds[|olds| - 1].sym := news[|olds| - 1]]
  }

  /** Entries for symbols that are not among the old parameters are kept. */
  lemma {:induction false} MapParametersKeeps(m: map<Handle, Param>, olds: seq<Param>, news: seq<Param>, h: Handle)
    requires |olds| <= |news|
    requires h in m && forall i :: 0 <= i < |olds| ==> olds[i].sym != h
    ensures h in MapParameters(m, olds, news) && MapParameters(m, olds, news)[h] == m[h]
    decreases |olds|
  {
    if olds != [] {
      var n := |olds| - 1;
      assert forall i :: 0 <= i < n ==> olds[..n][i] == olds[i];
      MapParametersKeeps(m, olds[..n], news, h);
    }
  }

  /** Each old parameter's symbol maps to the new parameter at its index;
      when symbols repeat, the last one wins. */
  lemma {:induction false} MapParametersAt(m: map<Handle, Param>, olds: seq<Param>, news: seq<Param>, i: nat)
    requires |olds| <= |news| && i < |olds|
    requires forall j :: i < j < |olds| ==> olds[j].sym != olds[i].sym
    ensures olds[i].sym in MapParameters(m, olds, news) && MapParameters(m, olds, news)[olds[i].sym] == news[i]
    decreases |olds|
  {
    var n := |olds| - 1;
    if i < n {
      assert forall j :: i < j < n ==> olds[..n][j] == olds[j];
      MapParametersAt(m, olds[..n], news, i);
    }
  }

  /** The patched function and the updated parameter map. */
  datatype Patched = Patched(fun: Fun, argumentMap: map<Handle, Param>, next: Handle)

  /** `patchFunction`: a new function with the old one's name, visibility,
      parent, receivers, return type and body, and the old value parameters
      followed by a context parameter. The new function takes symbol `next`
      and the offsets `parentSpan` of its parent. */
  function PatchFunction(names: StmNames, prev: Fun, parentSpan: Span, contextType: IrType, argumentMap: map<Handle, Param>, next: Handle)
    : (r: Result<Patched, StmError>)
  {
    if prev.returnType.None? then Err(UninitializedReturnType(prev.name))
    else
      var contextParam := Param(UndefinedSpan, prev.sym, names.contextParamName, contextType, None, Defined, None);
      var descriptor := prev.(valueParameters := prev.valueParameters + [contextParam]);
      match DeclareFunction(descriptor, prev.parent, parentSpan, next)
      case Err(e) => Err(e)
      case Ok((f, next')) =>
        var g := f.(body := prev.body);
        Ok(Patched(g, MapParameters(argumentMap, prev.valueParameters, g.valueParameters), next'))
  }

  /** The patched function keeps the old parameters in order and adds the
      context parameter at index = the old count; each old parameter's
      symbol maps to the new parameter at its index. A missing return type
      is the only failure. */
  lemma PatchFunctionShape(names: StmNames, prev: Fun, parentSpan: Span, contextType: IrType, argumentMap: map<Handle, Param>, next: Handle)
    ensures var r := PatchFunction(names, prev, parentSpan, contextType, argumentMap, next);
      && (r.Err? <==> prev.returnType.None?)
      && (r.Err? ==> r.error == UninitializedReturnType(prev.name))
      && (r.Ok? ==>
            var g, n := r.value.fun, |prev.valueParameters|;
            && g.sym == next && g.name == prev.name && g.visibility == prev.visibility
            && g.parent == prev.parent && g.returnType == prev.returnType && g.body == prev.body
            && g.origin == StmPlugin
            && |g.valueParameters| == n + 1
            && (forall i :: 0 <= i < n ==>
                  g.valueParameters[i].name == prev.valueParameters[i].name
                  && g.valueParameters[i].typ == prev.valueParameters[i].typ
                  && g.valueParameters[i].span == parentSpan)
            && g.valueParameters[n].name == names.contextParamName
            && g.valueParameters[n].typ == contextType
            && (forall i :: 0 <= i < n && (forall j :: i < j < n ==> prev.valueParameters[j].sym != prev.valueParameters[i].sym) ==>
                  prev.valueParameters[i].sym in r.value.argumentMap
                  && r.value.argumentMap[prev.valueParameters[i].sym] == g.valueParameters[i])
            && next < r.value.next)
  {
    if prev.returnType.Some? {
      var contextParam := Param(UndefinedSpan, prev.sym, names.contextParamName, contextType, None, Defined, None);
      var ps := prev.valueParameters + [contextParam];
      assert forall i :: 0 <= i < |prev.valueParameters| ==> ps[i] == prev.valueParameters[i];
      assert ps[|prev.valueParameters|] == contextParam;
      var r := PatchFunction(names, prev, parentSpan, contextType, argumentMap, next);
      var olds, news := prev.valueParameters, r.value.fun.valueParameters;
      forall i | 0 <= i < |olds| && (forall j :: i < j < |olds| ==> olds[j].sym != olds[i].sym)
        ensures olds[i].sym in MapParameters(argumentMap, olds, news) && MapParameters(argumentMap, olds, news)[olds[i].sym] == news[i]
      {
        MapParametersAt(argumentMap, olds, news, i);
      }
    }
  }

  /** A call of a function with as many arguments as it has parameters fits
      the patched version of that function: the rewrite succeeds whenever
      a context is in scope. */
  lemma PatchedCallFits(names: StmNames, call: Expr, fn: Fun, stack: seq<Fun>, transformed: map<Handle, Fun>,
                        parentSpan: Span, contextType: IrType, argumentMap: map<Handle, Param>, next: Handle)
    requires call.Call?
    requires PatchFunction(names, fn, parentSpan, contextType, argumentMap, next).Ok?
    requires fn.sym in transformed && transformed[fn.sym] == PatchFunction(names, fn, parentSpan, contextType, argumentMap, next).value.fun
    requires |call.arguments| == |fn.valueParameters|
    requires FetchStmContextOrNull(names, stack).Some?
    ensures PatchAtomicFunctionCall(names, call, fn, stack, transformed).Ok?
  {
    PatchFunctionShape(names, fn, parentSpan, contextType, argumentMap, next);
    PatchAtomicFunctionCallShape(names, call, fn, stack, transformed);
  }
}

=== FILE: stm_context.dfy ===
/** The search for the STM context in scope (`fetchStmContextOrNull`,
    `fetchStmContext`): the innermost function of the stack that offers a
    parameter of the context class supplies it. */
module StmContext {
  import opened Wrappers
  import opened Ir
  import opened StmRuntime

  /** `isStmContextType`: a type whose class is the context class; a missing
      type or a non-class type is not. */
  predicate IsContextType(names: StmNames, t: Option<IrType>) {
    t.Some? && ClassOf(t.value) == Some(names.contextClass)
  }

  function TypeOf(p: Option<Param>): Option<IrType> {
    if p.Some? then Some(p.value.typ) else None
  }

  function LastParameter(ps: seq<Param>): Option<Param> {
    if ps == [] then None else Some(ps[|ps| - 1])
  }

  /** The parameter through which `f` offers the context: its dispatch
      receiver, else its extension receiver, else its last value parameter,
      whichever comes first with the context type. */
  function ContextParameter(names: StmNames, f: Fun): (r: Option<Param>)
    ensures r.Some? ==> IsContextType(names, Some(r.value.typ))
    ensures r.None? <==>
      && !IsContextType(names, TypeOf(f.dispatchReceiver))
      && !IsContextType(names, TypeOf(f.extensionReceiver))
      && !IsContextType(names, TypeOf(LastParameter(f.valueParameters)))
    ensures IsContextType(names, TypeOf(f.dispatchReceiver)) ==> r == f.dispatchReceiver
    ensures IsContextType(names, TypeOf(f.extensionReceiver)) ==>
      r == f.extensionReceiver || IsContextType(names, TypeOf(f.dispatchReceiver))
    ensures !IsContextType(names, TypeOf(f.dispatchReceiver)) && !IsContextType(names, TypeOf(f.extensionReceiver))
      ==> r.None? || r == LastParameter(f.valueParameters)
  {
    if IsContextType(names, TypeOf(f.dispatchReceiver)) then f.dispatchReceiver
    else if IsContextType(names, TypeOf(f.extensionReceiver)) then f.extensionReceiver
    else if IsContextType(names, TypeOf(LastParameter(f.valueParameters))) then LastParameter(f.valueParameters)
    else None
  }

  /** A read of parameter `p`. */
  function GetParameter(p: Param): Expr {
    GetValue(p.span, p.typ, p.sym, NoStatementOrigin)
  }

  /** `fetchStmContextOrNull`: a read of the context parameter of the first
      function of the stack that offers one; none when no function does,
      the empty stack included. */
  function FetchStmContextOrNull(names: StmNames, stack: seq<Fun>): (r: Option<Expr>)
    ensures r.None? <==> forall i :: 0 <= i < |stack| ==> ContextParameter(names, stack[i]).None?
  {
    if stack == [] then None
    else if ContextParameter(names, stack[0]).Some? then Some(GetParameter(ContextParameter(names, stack[0]).value))
    else
      var r := FetchStmContextOrNull(names, stack[1..]);
      assert forall i :: 1 <= i < |stack| ==> stack[i] == stack[1..][i - 1];
      r
  }

  /** The answer reads the parameter of the innermost function that offers
      a context. */
  lemma {:induction false} FetchFindsInnermost(names: StmNames, stack: seq<Fun>, i: nat)
    requires i < |stack| && ContextParameter(names, stack[i]).Some?
    requires forall j :: 0 <= j < i ==> ContextParameter(names, stack[j]).None?
    ensures FetchStmContextOrNull(names, stack) == Some(GetParameter(ContextParameter(names, stack[i]).value))
    decreases i
  {
    if i > 0 {
      assert stack[1..][i - 1] == stack[i];
      assert forall j :: 0 <= j < i - 1 ==> stack[1..][j] == stack[j + 1];
      FetchFindsInnermost(names, stack[1..], i - 1);
    }
  }

  /** `fetchStmContext`: as above, but a missing context is an error naming
      the function whose call needs it. */
  function FetchStmContext(names: StmNames, stack: seq<Fun>, functionName: Name): (r: Result<Expr, StmError>)
    ensures r.Err? <==> FetchStmContextOrNull(names, stack).None?
    ensures r.Err? ==> r.error == MissingContext(functionName)
    ensures r.Ok? ==> Some(r.value) == FetchStmContextOrNull(names, stack)
  {
    match FetchStmContextOrNull(names, stack)
    case Some(e) => Ok(e)
    case None => Err(MissingContext(functionName))
  }

  /** Pushing a function that offers no context does not change the answer;
      pushing one that does makes its parameter the answer. */
  lemma {:induction false} FetchSkipsInnermost(names: StmNames, f: Fun, stack: seq<Fun>)
    ensures ContextParameter(names, f).None? ==>
      FetchStmContextOrNull(names, [f] + stack) == FetchStmContextOrNull(names, stack)
    ensures ContextParameter(names, f).Some? ==>
      FetchStmContextOrNull(names, [f] + stack) == Some(GetParameter(ContextParameter(names, f).value))
  {
    assert ([f] + stack)[0] == f;
    assert ([f] + stack)[1..] == stack;
  }
}

=== FILE: stm_runtime.dfy ===
/** The STM plugin's names, errors and runtime lookups
    (`StmIrGenerator` companion, `findSTMClassDescriptorOrThrow` and
    `findMethodDescriptorOrThrow`). The constants and name predicates the
    plugin declares elsewhere are not part of this model; they are fields of
    `StmNames`, left uninterpreted. */
module StmRuntime {
  import opened Wrappers
  import opened Ir

  /** The plugin's configuration: runtime class and method names, the name
      of the STM field and of the context parameter, the suffix of delegate
      fields, the default getter prefix, the class of the STM context, and
      the name predicates and accessor-name functions. */
  datatype StmNames = StmNames(
    stmInterface: Name,
    stmSearcher: Name,
    universalDelegate: Name,
    searchMethod: Name,
    wrapMethod: Name,
    getVarMethod: Name,
    setVarMethod: Name,
    runAtomicallyMethod: Name,
    getContextMethod: Name,
    contextClass: Handle,
    stmFieldName: Name,
    contextParamName: Name,
    sharableSuffix: Name,
    getPrefix: Name,
    isStmFieldName: Name -> bool,
    isSharable: Name -> bool,
    getterName: Name -> Name,
    setterName: Name -> Name)

  /** Why a rewrite stops. The first six are `StmLoweringException`s; the
      others are the null assertions and list indexing of the source. */
  datatype StmError =
    | MissingRuntimeClass(className: Name)
    | MissingRuntimeMethod(className: Name, methodName: Name)
    | MissingContext(functionName: Name)
    | UnknownReceiverClass
    | NotTransformed(functionName: Name)
    | UninitializedReturnType(functionName: Name)
    | NullReturnType(functionName: Name)
    | NullDispatchReceiver(functionName: Name)
    | NullThisReceiver(className: Name)
    | MissingParameter(functionName: Name, index: nat)
    | NoArgumentSlot(functionName: Name, index: nat)
    | ParametersAlreadyDeclared(functionName: Name)

  /** A class of the STM runtime (or any class descriptor whose member
      functions the rewrite looks up), with its member functions in
      member-scope order. */
  datatype ClassInfo = ClassInfo(sym: Handle, name: Name, methods: seq<Fun>)

  /** The runtime classes visible from the module, by simple name in the STM
      package. */
  type Runtime = map<Name, ClassInfo>

  /** `findMethods(name).firstOrNull()`: the first member function so named. */
  function FindMethod(methods: seq<Fun>, name: Name): (r: Option<Fun>)
    ensures r.None? <==> forall i :: 0 <= i < |methods| ==> methods[i].name != name
    ensures r.Some? ==> exists i :: 0 <= i < |methods| && methods[i] == r.value && r.value.name == name
                                   && forall j :: 0 <= j < i ==> methods[j].name != name
  {
    if methods == [] then None
    else if methods[0].name == name then Some(methods[0])
    else
      var r := FindMethod(methods[1..], name);
      assert forall i :: 1 <= i < |methods| ==> methods[i] == methods[1..][i - 1];
      r
  }

  /** `findSTMClassDescriptorOrThrow`. */
  function FindStmClass(rt: Runtime, className: Name): (r: Result<ClassInfo, StmError>)
    ensures r.Ok? <==> className in rt
    ensures r.Ok? ==> r.value == rt[className]
    ensures r.Err? ==> r.error == MissingRuntimeClass(className)
  {
    if className in rt then Ok(rt[className]) else Err(MissingRuntimeClass(className))
  }

  /** `findMethodDescriptorOrThrow`: the error names the class and the method. */
  function FindMethodOrThrow(c: ClassInfo, methodName: Name): (r: Result<Fun, StmError>)
    ensures r.Ok? <==> exists i :: 0 <= i < |c.methods| && c.methods[i].name == methodName
    ensures r.Ok? ==> r.value.name == methodName && r.value in c.methods
    ensures r.Err? ==> r.error == MissingRuntimeMethod(c.name, methodName)
  {
    match FindMethod(c.methods, methodName)
    case Some(f) => Ok(f)
    case None => Err(MissingRuntimeMethod(c.name, methodName))
  }

  /** `findSTMMethodDescriptorOrThrow`: the class lookup, then the method
      lookup; each failure names what is missing. */
  function FindStmMethod(rt: Runtime, className: Name, methodName: Name): (r: Result<Fun, StmError>)
  {
    var c :- FindStmClass(rt, className);
    FindMethodOrThrow(c, methodName)
  }

  /** A missing runtime class or method stops the rewrite with an error that
      names it; a present one is found by name. */
  lemma FindStmMethodNamesMissing(rt: Runtime, className: Name, methodName: Name)
    ensures var r := FindStmMethod(rt, className, methodName);
      && (className !in rt ==> r == Err(MissingRuntimeClass(className)))
      && (className in rt ==>
            && (r.Err? <==> forall i :: 0 <= i < |rt[className].methods| ==> rt[className].methods[i].name != methodName)
            && (r.Err? ==> r.error == MissingRuntimeMethod(rt[className].name, methodName))
            && (r.Ok? ==> r.value.name == methodName && r.value in rt[className].methods))
  {
  }
}

=== FILE: stm_shared_class.dfy ===
/** The STM rewrite of a shared class: `patchSharedClass` and the
    `STMGenerator` helpers it drives (`wrapFunctionIntoTransaction`,
    `addDelegateField`, `addGetFunction`, `addSetFunction`,
    `addDelegateAndAccessorFunctions`). A class is rewritten in place; when a
    step fails, the class is left as far as the rewrite got. */
module StmSharedClass {
  import opened Wrappers
  import opened Ir
  import opened StmRuntime
  import opened StmContext
  import opened StmCalls

  /** Compiler built-in types the generated code mentions. */
  datatype BuiltinTypes = BuiltinTypes(unitType: IrType, nothingType: IrType)

  /** What `patchSharedClass` has set up before it rewrites members: the STM
      field, the runtime's delegate class and methods, and the context type. */
  datatype StmEnv = StmEnv(
    stmField: Field,
    universalDelegate: Handle,
    wrap: Fun,
    getVar: Fun,
    setVar: Fun,
    contextType: IrType,
    runAtomically: Fun,
    types: BuiltinTypes)

  /** A class as far as the rewrite got, the symbol counter, and the error
      that stopped the rewrite, if any. */
  datatype Progress = Progress(cls: Class, next: Handle, error: Option<StmError>)

  /** `addField`: the field becomes the class's last declaration. */
  function AddField(c: Class, f: Field): Class {
    c.(declarations := c.declarations + [FieldDecl(f)])
  }

  /** `irGet(p)` in a builder placed at `span`. */
  function ReadParameter(span: Span, p: Param): Expr {
    GetValue(span, p.typ, p.sym, NoStatementOrigin)
  }

  /** `irGetField(irGet(self), f)`. */
  function ReadField(span: Span, f: Field, self: Param): Expr {
    GetField(span, f.typ, f.sym, Some(ReadParameter(span, self)))
  }

  // ---------------------------------------------------------------------
  // Transactions

  function Statements(b: Body): seq<Expr> {
    if b.BlockBody? then b.statements else []
  }

  /** A statement of the original body as placed in the transaction lambda:
      a return becomes a return of the same value from the lambda. */
  function LambdaStatement(s: Expr, lambda: Handle, types: BuiltinTypes, span: Span): Expr {
    if s.Return? then Return(span, types.nothingType, lambda, s.value) else s
  }

  function LambdaStatements(ss: seq<Expr>, lambda: Handle, types: BuiltinTypes, span: Span): (r: seq<Expr>)
    ensures |r| == |ss|
  {
    seq(|ss|, i requires 0 <= i < |ss| => LambdaStatement(ss[i], lambda, types, span))
  }

  /** The values the top-level returns of `ss` return, in order. */
  function ReturnValues(ss: seq<Expr>): seq<Expr> {
    if ss == [] then []
    else (if ss[0].Return? then [ss[0].value] else []) + ReturnValues(ss[1..])
  }

  /** The top-level statements of `ss` that are not returns, in order. */
  function OtherStatements(ss: seq<Expr>): seq<Expr> {
    if ss == [] then []
    else (if ss[0].Return? then [] else [ss[0]]) + OtherStatements(ss[1..])
  }

  /** The lambda keeps the original statements in order: the same values are
      returned in the same order, now from the lambda, and every other
      statement is kept as it was. */
  lemma {:induction false} LambdaStatementsKeepOrder(ss: seq<Expr>, lambda: Handle, types: BuiltinTypes, span: Span)
    ensures ReturnValues(LambdaStatements(ss, lambda, types, span)) == ReturnValues(ss)
    ensures OtherStatements(LambdaStatements(ss, lambda, types, span)) == OtherStatements(ss)
    ensures forall i :: 0 <= i < |ss| && LambdaStatements(ss, lambda, types, span)[i].Return? ==>
      LambdaStatements(ss, lambda, types, span)[i].target == lambda
    decreases |ss|
  {
    if ss != [] {
      var ls := LambdaStatements(ss, lambda, types, span);
      assert ls[1..] == LambdaStatements(ss[1..], lambda, types, span);
      LambdaStatementsKeepOrder(ss[1..], lambda, types, span);
    }
  }

  /** The anonymous function a transaction runs: an extension of the
      context type, local to `f`, whose body is `f`'s body with returns
      redirected to it. It takes symbol `next`, its receiver `next + 1`. */
  function TransactionLambda(env: StmEnv, f: Fun, ret: IrType, span: Span, next: Handle): Fun {
    var ctx := Param(UndefinedSpan, next + 1, "ctx", env.contextType, None, Defined, Some(next));
    Fun(next, "<anonymous>", SimpleFunction, StmPlugin, LocalVisibility, Some(f.sym), None, Some(ctx), [],
        Some(ret), BlockBody(LambdaStatements(Statements(f.body), next, env.types, span)))
  }

  function NotNull(t: IrType): IrType {
    t.(nullable := false)
  }

  /** `type.replace(arguments)`: a class type with new type arguments;
      other types are kept. */
  function WithArguments(t: IrType, args: seq<IrType>): IrType {
    if t.ClassType? then t.(arguments := args) else t
  }

  /** The first argument of a call that needs the context: the context in
      scope, else a null of the callee's first parameter type. */
  function ContextArgument(names: StmNames, enclosing: seq<Fun>, span: Span, callee: Fun): Expr
    requires callee.valueParameters != []
  {
    var ctx := FetchStmContextOrNull(names, enclosing);
    if ctx.Some? then ctx.value else NullConst(span, callee.valueParameters[0].typ)
  }

  /** What a method of class `owner` looks like once wrapped into a
      transaction: the same function, now `DEFINED` and owned by the class,
      whose body is one return of `runAtomically(ctx-or-null, lambda)`
      called on the STM field, where the lambda is local to the method and
      runs its original statements. */
  predicate IsTransaction(names: StmNames, env: StmEnv, owner: Handle, span: Span, enclosing: seq<Fun>, f: Fun, g: Fun) {
    && f.returnType.Some? && f.dispatchReceiver.Some? && |env.runAtomically.valueParameters| >= 2
    && g == f.(origin := Defined, parent := Some(owner), body := g.body)
    && g.body.BlockBody? && |g.body.statements| == 1
    && g.body.statements[0].Return? && g.body.statements[0].target == f.sym
    && var call := g.body.statements[0].value;
       && call.Call? && call.callee == env.runAtomically.sym
       && call.typ == f.returnType.value && call.typeArguments == [Some(f.returnType.value)]
       && call.dispatchReceiver == Some(ReadField(span, env.stmField, f.dispatchReceiver.value))
       && |call.arguments| == |env.runAtomically.valueParameters|
       && call.arguments[0] == Some(ContextArgument(names, enclosing, span, env.runAtomically))
       && call.arguments[1].Some? && call.arguments[1].value.FunctionExpression?
       && call.arguments[1].value.origin == LambdaOrigin
       && var lambda := call.arguments[1].value.fn;
          && lambda.parent == Some(f.sym) && lambda.visibility == LocalVisibility
          && lambda.returnType == f.returnType && lambda.valueParameters == []
          && lambda.extensionReceiver.Some? && lambda.extensionReceiver.value.typ == env.contextType
          && lambda.body == BlockBody(LambdaStatements(Statements(f.body), lambda.sym, env.types, span))
  }

  /** `wrapFunctionIntoTransaction`: a method without return type, a
      `runAtomically` with fewer than two parameters, and a method without
      dispatch receiver fail, in that order. */
  function WrapFunctionIntoTransaction(names: StmNames, env: StmEnv, owner: Handle, span: Span, f: Fun,
                                       enclosing: seq<Fun>, next: Handle): (r: Result<(Fun, Handle), StmError>)
    ensures f.returnType.None? ==> r == Err(NullReturnType(f.name))
    ensures f.returnType.Some? && |env.runAtomically.valueParameters| < 2 ==>
      r == Err(MissingParameter(env.runAtomically.name, 1))
    ensures f.returnType.Some? && |env.runAtomically.valueParameters| >= 2 && f.dispatchReceiver.None? ==>
      r == Err(NullDispatchReceiver(f.name))
    ensures r.Ok? <==> f.returnType.Some? && |env.runAtomically.valueParameters| >= 2 && f.dispatchReceiver.Some?
    ensures r.Ok? ==> IsTransaction(names, env, owner, span, enclosing, f, r.value.0) && next < r.value.1
  {
    if f.returnType.None? then Err(NullReturnType(f.name))
    else if |env.runAtomically.valueParameters| < 2 then Err(MissingParameter(env.runAtomically.name, 1))
    else if f.dispatchReceiver.None? then Err(NullDispatchReceiver(f.name))
    else
      var ret := f.returnType.value;
      var ra := env.runAtomically;
      var lambda := TransactionLambda(env, f, ret, span, next);
      var lambdaType := WithArguments(ra.valueParameters[1].typ, [NotNull(ra.valueParameters[0].typ), ret]);
      var call := Invoke(ra, span, ret, NoStatementOrigin, None, [Some(ret)],
                         Some(ReadField(span, env.stmField, f.dispatchReceiver.value)), None,
                         [Some(ContextArgument(names, enclosing, span, ra)),
                          Some(FunctionExpression(span, lambdaType, lambda, LambdaOrigin))]).value;
      Ok((f.(origin := Defined, parent := Some(owner),
             body := BlockBody([Return(span, env.types.nothingType, f.sym, call)])), next + 2))
  }

  predicate IsSimpleFunction(d: Decl) {
    d.FunctionDecl? && d.fun.kind.SimpleFunction?
  }

  /** `irClass.functions.forEach { wrapFunctionIntoTransaction(...) }`, from
      declaration `k` on: every simple function is wrapped in place. */
  function WrapFunctions(names: StmNames, env: StmEnv, c: Class, enclosing: seq<Fun>, k: nat, next: Handle): Progress
    requires k <= |c.declarations|
    decreases |c.declarations| - k
  {
    if k == |c.declarations| then Progress(c, next, None)
    else if !IsSimpleFunction(c.declarations[k]) then WrapFunctions(names, env, c, enclosing, k + 1, next)
    else match WrapFunctionIntoTransaction(names, env, c.sym, c.span, c.declarations[k].fun, enclosing, next)
      case Err(e) => Progress(c, next, Some(e))
      case Ok((g, next')) =>
        WrapFunctions(names, env, c.(declarations := c.declarations[k := FunctionDecl(g)]), enclosing, k + 1, next')
  }

  /** Wrapping changes nothing but simple functions and keeps every
      declaration at its index; each simple function from `k` on stays a
      function. */
  lemma {:induction false} WrapFunctionsShape(names: StmNames, env: StmEnv, c: Class, enclosing: seq<Fun>, k: nat, next: Handle)
    requires k <= |c.declarations|
    ensures var r := WrapFunctions(names, env, c, enclosing, k, next);
      && r.cls == c.(declarations := r.cls.declarations)
      && |r.cls.declarations| == |c.declarations|
      && r.cls.declarations[..k] == c.declarations[..k]
      && (forall j :: k <= j < |c.declarations| && !IsSimpleFunction(c.declarations[j]) ==>
            r.cls.declarations[j] == c.declarations[j])
      && (forall j :: k <= j < |c.declarations| && IsSimpleFunction(c.declarations[j]) ==>
            r.cls.declarations[j].FunctionDecl?)
    decreases |c.declarations| - k, 1
  {
    if k < |c.declarations| {
      if !IsSimpleFunction(c.declarations[k]) {
        WrapShapeSkipping(names, env, c, enclosing, k, next);
      } else {
        WrapShapeWrapping(names, env, c, enclosing, k, next);
      }
    }
  }

  lemma {:induction false} WrapShapeSkipping(names: StmNames, env: StmEnv, c: Class, enclosing: seq<Fun>, k: nat, next: Handle)
    requires k < |c.declarations| && !IsSimpleFunction(c.declarations[k])
    ensures var r := WrapFunctions(names, env, c, enclosing, k, next);
      && r.cls == c.(declarations := r.cls.declarations)
      && |r.cls.declarations| == |c.declarations|
      && r.cls.declarations[..k] == c.declarations[..k]
      && (forall j :: k <= j < |c.declarations| && !IsSimpleFunction(c.declarations[j]) ==>
            r.cls.declarations[j] == c.declarations[j])
      && (forall j :: k <= j < |c.declarations| && IsSimpleFunction(c.declarations[j]) ==>
            r.cls.declarations[j].FunctionDecl?)
    decreases |c.declarations| - k, 0
  {
    WrapFunctionsShape(names, env, c, enclosing, k + 1, next);
    var r := WrapFunctions(names, env, c, enclosing, k + 1, next);
    assert WrapFunctions(names, env, c, enclosing, k, next) == r;
    assert r.cls.declarations[k] == r.cls.declarations[..k + 1][k];
    assert r.cls.declarations[..k] == r.cls.declarations[..k + 1][..k];
  }

  lemma {:induction false} WrapShapeWrapping(names: StmNames, env: StmEnv, c: Class, enclosing: seq<Fun>, k: nat, next: Handle)
    requires k < |c.declarations| && IsSimpleFunction(c.declarations[k])
    ensures var r := WrapFunctions(names, env, c, enclosing, k, next);
      && r.cls == c.(declarations := r.cls.declarations)
      && |r.cls.declarations| == |c.declarations|
      && r.cls.declarations[..k] == c.declarations[..k]
      && (forall j :: k <= j < |c.declarations| && !IsSimpleFunction(c.declarations[j]) ==>
            r.cls.declarations[j] == c.declarations[j])
      && (forall j :: k <= j < |c.declarations| && IsSimpleFunction(c.declarations[j]) ==>
            r.cls.declarations[j].FunctionDecl?)
    decreases |c.declarations| - k, 0
  {
    var w := WrapFunctionIntoTransaction(names, env, c.sym, c.span, c.declarations[k].fun, enclosing, next);
    if w.Ok? {
      var c' := c.(declarations := c.declarations[k := FunctionDecl(w.value.0)]);
      WrapFunctionsShape(names, env, c', enclosing, k + 1, w.value.1);
      var r := WrapFunctions(names, env, c', enclosing, k + 1, w.value.1);
      assert WrapFunctions(names, env, c, enclosing, k, next) == r;
      assert r.cls.declarations[..k + 1][k] == c'.declarations[..k + 1][k];
      assert c.declarations[..k] == c'.declarations[..k];
      assert r.cls.declarations[..k] == r.cls.declarations[..k + 1][..k];
      assert forall j :: k < j < |c.declarations| ==> c'.declarations[j] == c.declarations[j];
    } else {
      assert WrapFunctions(names, env, c, enclosing, k, next) == Progress(c, next, Some(w.error));
    }
  }

  /** On success, wrapping turns each simple function from `k` on into its
      transaction. */
  lemma {:induction false} WrapFunctionsWraps(names: StmNames, env: StmEnv, c: Class, enclosing: seq<Fun>, k: nat, next: Handle)
    requires k <= |c.declarations|
    ensures var r := WrapFunctions(names, env, c, enclosing, k, next);
      && |r.cls.declarations| == |c.declarations|
      && (r.error.None? ==>
            forall j :: k <= j < |c.declarations| && IsSimpleFunction(c.declarations[j]) ==>
              r.cls.declarations[j].FunctionDecl?
              && IsTransaction(names, env, c.sym, c.span, enclosing, c.declarations[j].fun, r.cls.declarations[j].fun))
    decreases |c.declarations| - k
  {
    WrapFunctionsShape(names, env, c, enclosing, k, next);
    if k < |c.declarations| {
      if !IsSimpleFunction(c.declarations[k]) {
        WrapFunctionsWraps(names, env, c, enclosing, k + 1, next);
        assert WrapFunctions(names, env, c, enclosing, k, next) == WrapFunctions(names, env, c, enclosing, k + 1, next);
      } else {
        var w := WrapFunctionIntoTransaction(names, env, c.sym, c.span, c.declarations[k].fun, enclosing, next);
        if w.Ok? {
          var c' := c.(declarations := c.declarations[k := FunctionDecl(w.value.0)]);
          WrapFunctionsShape(names, env, c', enclosing, k + 1, w.value.1);
          WrapFunctionsWraps(names, env, c', enclosing, k + 1, w.value.1);
          var r := WrapFunctions(names, env, c', enclosing, k + 1, w.value.1);
          assert WrapFunctions(names, env, c, enclosing, k, next) == r;
          assert r.cls.declarations[k] == r.cls.declarations[..k + 1][k] == c'.declarations[..k + 1][k];
          assert c'.sym == c.sym && c'.span == c.span;
          assert forall j :: k < j < |c.declarations| ==> c'.declarations[j] == c.declarations[j];
        }
      }
    }
  }

  // ---------------------------------------------------------------------
  // Delegates and accessors

  /** `<property><SHARABLE_NAME_SUFFIX>`. */
  function DelegateName(names: StmNames, propertyName: Name): Name {
    propertyName + names.sharableSuffix
  }

  /** A delegate field and the class it was added to. */
  datatype Delegated = Delegated(cls: Class, delegate: Field, next: Handle, error: Option<StmError>)

  /** `addDelegateField`: a private, final, non-static field of the
      universal delegate type over the backing field's type, initialised by
      wrapping the backing field's initialiser (or a null) through the STM
      field. The field is added before its initialiser is built, so a class
      without `this` receiver keeps it without initialiser. */
  function AddDelegateField(names: StmNames, env: StmEnv, c: Class, propertyName: Name, backing: Field, next: Handle)
    : (r: Delegated)
    ensures r.cls == AddField(c, r.delegate) && r.next == next + 1
    ensures r.delegate == Field(next, DelegateName(names, propertyName),
                                ClassType(env.universalDelegate, [backing.typ], false),
                                Private, DelegatedMember, true, false, Some(c.sym), r.delegate.initializer)
    ensures r.error.None? <==> c.thisReceiver.Some? && env.wrap.valueParameters != []
    ensures c.thisReceiver.None? ==> r.error == Some(NullThisReceiver(c.name))
    ensures r.error.None? ==>
      var init := r.delegate.initializer;
      && init.Some? && init.value.Call?
      && init.value.callee == env.wrap.sym
      && |init.value.arguments| == |env.wrap.valueParameters| > 0
      && init.value.dispatchReceiver == Some(ReadField(c.span, env.stmField, c.thisReceiver.value))
      && init.value.arguments[0] == Some(if backing.initializer.Some? then backing.initializer.value
                                         else NullConst(c.span, backing.typ))
  {
    var delegate := Field(next, DelegateName(names, propertyName), ClassType(env.universalDelegate, [backing.typ], false),
                          Private, DelegatedMember, true, false, Some(c.sym), None);
    if c.thisReceiver.None? then Delegated(AddField(c, delegate), delegate, next + 1, Some(NullThisReceiver(c.name)))
    else
      var value := if backing.initializer.Some? then backing.initializer.value else NullConst(c.span, backing.typ);
      match Invoke(env.wrap, c.span, delegate.typ, NoStatementOrigin, None, [Some(backing.typ)],
                   Some(ReadField(c.span, env.stmField, c.thisReceiver.value)), None, [Some(value)])
      case Err(e) => Delegated(AddField(c, delegate), delegate, next + 1, Some(e))
      case Ok(init) =>
        var initialised := delegate.(initializer := Some(init));
        Delegated(AddField(c, initialised), initialised, next + 1, None)
  }

  /** `arguments.first().typeOrNull` of a type. */
  function FirstTypeArgument(t: IrType): Option<IrType> {
    if t.ClassType? && t.arguments != [] then Some(t.arguments[0]) else None
  }

  /** `addGetFunction`: when the class declares the synthetic getter of the
      property, a new function for it whose body returns `getVar(ctx,
      delegate)` called on the STM field; none when it does not. */
  function AddGetFunction(names: StmNames, env: StmEnv, c: Class, members: seq<Fun>, propertyName: Name,
                          delegate: Field, next: Handle): (r: Result<(Option<Fun>, Handle), StmError>)
    ensures FindMethod(members, names.getterName(propertyName)).None? ==> r == Ok((None, next))
    ensures r.Ok? ==> next <= r.value.1
    ensures r.Ok? ==> (r.value.0.Some? <==> FindMethod(members, names.getterName(propertyName)).Some?)
    ensures r.Ok? && r.value.0.Some? ==>
      r.value.0.value.sym == next < r.value.1 && r.value.0.value.name == names.getterName(propertyName)
  {
    match FindMethod(members, names.getterName(propertyName))
    case None => Ok((None, next))
    case Some(d) =>
      var declared :- DeclareFunction(d, Some(c.sym), c.span, next);
      var f := declared.0;
      if f.dispatchReceiver.None? then Err(NullDispatchReceiver(d.name))
      else if f.valueParameters == [] then Err(MissingParameter(d.name, 0))
      else
        var self := f.dispatchReceiver.value;
        var get :- Invoke(env.getVar, c.span, f.returnType.value, NoStatementOrigin, None, [FirstTypeArgument(delegate.typ)],
                          Some(ReadField(c.span, env.stmField, self)), None,
                          [Some(ReadParameter(c.span, f.valueParameters[0])), Some(ReadField(c.span, delegate, self))]);
        Ok((Some(f.(body := BlockBody([Return(c.span, env.types.nothingType, f.sym, get)]))), declared.1))
  }

  /** `addSetFunction`: when the class declares the synthetic setter of the
      property, a new function for it whose body calls `setVar(ctx,
      delegate, value)` on the STM field; none when it does not. */
  function AddSetFunction(names: StmNames, env: StmEnv, c: Class, members: seq<Fun>, propertyName: Name,
                          delegate: Field, next: Handle): (r: Result<(Option<Fun>, Handle), StmError>)
    ensures FindMethod(members, names.setterName(propertyName)).None? ==> r == Ok((None, next))
    ensures r.Ok? ==> next <= r.value.1
    ensures r.Ok? ==> (r.value.0.Some? <==> FindMethod(members, names.setterName(propertyName)).Some?)
    ensures r.Ok? && r.value.0.Some? ==>
      r.value.0.value.sym == next < r.value.1 && r.value.0.value.name == names.setterName(propertyName)
  {
    match FindMethod(members, names.setterName(propertyName))
    case None => Ok((None, next))
    case Some(d) =>
      var declared :- DeclareFunction(d, Some(c.sym), c.span, next);
      var f := declared.0;
      if f.dispatchReceiver.None? then Err(NullDispatchReceiver(d.name))
      else if |f.valueParameters| < 2 then Err(MissingParameter(d.name, |f.valueParameters|))
      else
        var self := f.dispatchReceiver.value;
        var newValue := f.valueParameters[1];
        var store :- Invoke(env.setVar, c.span, env.types.unitType, NoStatementOrigin, None, [Some(newValue.typ)],
                          Some(ReadField(c.span, env.stmField, self)), None,
                          [Some(ReadParameter(c.span, f.valueParameters[0])), Some(ReadField(c.span, delegate, self)),
                           Some(ReadParameter(c.span, newValue))]);
        Ok((Some(f.(body := BlockBody([store]))), declared.1))
  }

  /** A generated getter is a method of the class with a dispatch receiver
      and a context parameter first, whose body is a single return of
      `getVar(ctx, delegate)` called on the STM field. */
  lemma AddGetFunctionBody(names: StmNames, env: StmEnv, c: Class, members: seq<Fun>, propertyName: Name,
                           delegate: Field, next: Handle)
    ensures var r := AddGetFunction(names, env, c, members, propertyName, delegate, next);
      r.Ok? && r.value.0.Some? ==>
        var d, g := FindMethod(members, names.getterName(propertyName)).value, r.value.0.value;
        && g.parent == Some(c.sym) && g.origin == StmPlugin
        && |g.valueParameters| == |d.valueParameters| && g.valueParameters != []
        && g.dispatchReceiver.Some?
        && g.body.BlockBody? && |g.body.statements| == 1
        && g.body.statements[0].Return? && g.body.statements[0].target == g.sym
        && var call := g.body.statements[0].value;
           && call.Call? && call.callee == env.getVar.sym
           && call.dispatchReceiver == Some(ReadField(c.span, env.stmField, g.dispatchReceiver.value))
           && |call.arguments| == |env.getVar.valueParameters| >= 2
           && call.arguments[0] == Some(ReadParameter(c.span, g.valueParameters[0]))
           && call.arguments[1] == Some(ReadField(c.span, delegate, g.dispatchReceiver.value))
  {
  }

  /** A generated setter is a method of the class with a dispatch receiver,
      the context parameter first and the new value second, whose body is a
      single call of `setVar(ctx, delegate, value)` on the STM field. */
  lemma AddSetFunctionBody(names: StmNames, env: StmEnv, c: Class, members: seq<Fun>, propertyName: Name,
                           delegate: Field, next: Handle)
    ensures var r := AddSetFunction(names, env, c, members, propertyName, delegate, next);
      r.Ok? && r.value.0.Some? ==>
        var d, g := FindMethod(members, names.setterName(propertyName)).value, r.value.0.value;
        && g.parent == Some(c.sym) && g.origin == StmPlugin
        && |g.valueParameters| == |d.valueParameters| >= 2
        && g.dispatchReceiver.Some?
        && g.body.BlockBody? && |g.body.statements| == 1
        && var call := g.body.statements[0];
           && call.Call? && call.callee == env.setVar.sym && call.typ == env.types.unitType
           && call.dispatchReceiver == Some(ReadField(c.span, env.stmField, g.dispatchReceiver.value))
           && |call.arguments| == |env.setVar.valueParameters| >= 3
           && call.arguments[0] == Some(ReadParameter(c.span, g.valueParameters[0]))
           && call.arguments[1] == Some(ReadField(c.span, delegate, g.dispatchReceiver.value))
           && call.arguments[2] == Some(ReadParameter(c.span, g.valueParameters[1]))
  {
  }

  function OptionToSeq(o: Option<Fun>): seq<Fun> {
    if o.Some? then [o.value] else []
  }

  /** The class after a property's delegate was added, and the accessors
      that replace the property. */
  datatype Contributed = Contributed(cls: Class, next: Handle, result: Result<seq<Fun>, StmError>)

  /** `addDelegateAndAccessorFunctions`: the delegate field, then the getter
      and the setter, each only when the class declares it. */
  function AddDelegateAndAccessorFunctions(names: StmNames, env: StmEnv, c: Class, members: seq<Fun>,
                                           propertyName: Name, backing: Field, next: Handle): Contributed
  {
    var d := AddDelegateField(names, env, c, propertyName, backing, next);
    if d.error.Some? then Contributed(d.cls, d.next, Err(d.error.value))
    else match AddGetFunction(names, env, d.cls, members, propertyName, d.delegate, d.next)
      case Err(e) => Contributed(d.cls, d.next, Err(e))
      case Ok((getter, afterGetter)) =>
        match AddSetFunction(names, env, d.cls, members, propertyName, d.delegate, afterGetter)
        case Err(e) => Contributed(d.cls, afterGetter, Err(e))
        case Ok((setter, afterSetter)) => Contributed(d.cls, afterSetter, Ok(OptionToSeq(getter) + OptionToSeq(setter)))
  }

  /** Exactly one field is added, named after the property, and it takes
      the symbol `next`; the symbols handed out grow. */
  lemma AddDelegateAndAccessorFunctionsShape(names: StmNames, env: StmEnv, c: Class, members: seq<Fun>,
                                             propertyName: Name, backing: Field, next: Handle)
    ensures var r := AddDelegateAndAccessorFunctions(names, env, c, members, propertyName, backing, next);
      && |r.cls.declarations| == |c.declarations| + 1
      && r.cls.declarations[..|c.declarations|] == c.declarations
      && r.cls == c.(declarations := r.cls.declarations)
      && (var last := r.cls.declarations[|c.declarations|];
          && last.FieldDecl? && last.field.name == DelegateName(names, propertyName) && last.field.sym == next
          && last.field.visibility == Private && last.field.isFinal && !last.field.isStatic)
      && next < r.next
  {
    var d := AddDelegateField(names, env, c, propertyName, backing, next);
    assert AddField(c, d.delegate).declarations[..|c.declarations|] == c.declarations;
  }

  /** The accessors come back getter first, each exactly when the class
      declares it, with symbols after `next` and below the next free one. */
  lemma AddDelegateAndAccessorFunctionsAccessors(names: StmNames, env: StmEnv, c: Class, members: seq<Fun>,
                                                 propertyName: Name, backing: Field, next: Handle)
    ensures var r := AddDelegateAndAccessorFunctions(names, env, c, members, propertyName, backing, next);
      var getter, setter := FindMethod(members, names.getterName(propertyName)), FindMethod(members, names.setterName(propertyName));
      r.result.Ok? ==>
        && |r.result.value| == (if getter.Some? then 1 else 0) + (if setter.Some? then 1 else 0)
        && (getter.Some? ==> r.result.value[0].name == getter.value.name)
        && (setter.Some? ==> r.result.value[|r.result.value| - 1].name == setter.value.name)
        && (forall j :: 0 <= j < |r.result.value| ==> next < r.result.value[j].sym < r.next)
  {
    var d := AddDelegateField(names, env, c, propertyName, backing, next);
    if d.error.None? {
      var g := AddGetFunction(names, env, d.cls, members, propertyName, d.delegate, d.next);
      if g.Ok? {
        var st := AddSetFunction(names, env, d.cls, members, propertyName, d.delegate, g.value.1);
        if st.Ok? {
          var fs := OptionToSeq(g.value.0) + OptionToSeq(st.value.0);
          assert AddDelegateAndAccessorFunctions(names, env, c, members, propertyName, backing, next)
              == Contributed(d.cls, st.value.1, Ok(fs));
        }
      }
    }
  }

  // ---------------------------------------------------------------------
  // The declaration pass

  /** Delegate names are sharable names: the pass never gives a delegate
      field a delegate of its own. */
  ghost predicate SuffixIsSharable(names: StmNames) {
    forall n: Name :: names.isSharable(DelegateName(names, n))
  }

  /** The property name and backing field of a declaration that gets a
      delegate and accessors: a property with a backing field, or a field,
      whose name is neither an STM field name nor a sharable name. */
  function CandidateOf(names: StmNames, d: Decl): Option<(Name, Field)> {
    match d
    case PropertyDecl(p) =>
      if p.backingField.Some? && !names.isStmFieldName(p.name) && !names.isSharable(p.name)
      then Some((p.name, p.backingField.value)) else None
    case FieldDecl(f) =>
      if names.isStmFieldName(f.name) || names.isSharable(f.name) then None else Some((f.name, f))
    case _ => None
  }

  function CandidateCount(names: StmNames, ds: seq<Decl>): nat {
    if ds == [] then 0
    else (if CandidateOf(names, ds[0]).Some? then 1 else 0) + CandidateCount(names, ds[1..])
  }

  lemma {:induction false} CandidateCountAppend(names: StmNames, a: seq<Decl>, b: seq<Decl>)
    ensures CandidateCount(names, a + b) == CandidateCount(names, a) + CandidateCount(names, b)
    decreases |a|
  {
    if a != [] {
      assert (a + b)[0] == a[0] && (a + b)[1..] == a[1..] + b;
      CandidateCountAppend(names, a[1..], b);
    } else {
      assert a + b == b;
    }
  }

  /** One delegate-and-accessors step: the class with the delegate field
      appended, and the accessors. */
  type Contributor = (Class, Name, Field, Handle) -> Contributed

  /** A step appends exactly one declaration, which is not a candidate and
      takes a fresh symbol, changes nothing else, and returns fresh functions. */
  ghost predicate ContributesAt(names: StmNames, step: Contributor, c: Class, n: Name, f: Field, k: Handle) {
    var r := step(c, n, f, k);
    && |r.cls.declarations| == |c.declarations| + 1
    && r.cls == c.(declarations := r.cls.declarations)
    && r.cls.declarations[..|c.declarations|] == c.declarations
    && CandidateOf(names, r.cls.declarations[|c.declarations|]).None?
    && k <= DeclSym(r.cls.declarations[|c.declarations|])
    && k <= r.next
    && (r.result.Ok? ==> forall j :: 0 <= j < |r.result.value| ==> k <= r.result.value[j].sym)
  }

  ghost predicate Contributes(names: StmNames, step: Contributor) {
    forall c: Class, n: Name, f: Field, k: Handle :: ContributesAt(names, step, c, n, f, k)
  }

  function AccessorStep(names: StmNames, env: StmEnv, members: seq<Fun>): Contributor {
    (c: Class, n: Name, f: Field, k: Handle) => AddDelegateAndAccessorFunctions(names, env, c, members, n, f, k)
  }

  lemma AccessorStepContributes(names: StmNames, env: StmEnv, members: seq<Fun>)
    requires SuffixIsSharable(names)
    ensures Contributes(names, AccessorStep(names, env, members))
  {
    forall c: Class, n: Name, f: Field, k: Handle
      ensures ContributesAt(names, AccessorStep(names, env, members), c, n, f, k)
    {
      AddDelegateAndAccessorFunctionsShape(names, env, c, members, n, f, k);
      AddDelegateAndAccessorFunctionsAccessors(names, env, c, members, n, f, k);
      assert names.isSharable(DelegateName(names, n));
    }
  }

  function FunctionDecls(fs: seq<Fun>): (r: seq<Decl>)
    ensures |r| == |fs| && forall j :: 0 <= j < |fs| ==> r[j] == FunctionDecl(fs[j])
  {
    seq(|fs|, j requires 0 <= j < |fs| => FunctionDecl(fs[j]))
  }

  /** `transformFlat`'s update: the declaration at `i` replaced by `fs`. */
  function ReplaceAt(ds: seq<Decl>, i: nat, fs: seq<Fun>): (r: seq<Decl>)
    requires i < |ds|
    ensures |r| == |ds| - 1 + |fs|
    ensures r[..i] == ds[..i]
    ensures r[i..i + |fs|] == FunctionDecls(fs)
    ensures r[i + |fs|..] == ds[i + 1..]
  {
    var r := ds[..i] + FunctionDecls(fs) + ds[i + 1..];
    assert r[..i] == ds[..i];
    assert r[i..i + |fs|] == FunctionDecls(fs);
    assert r[i + |fs|..] == ds[i + 1..];
    r
  }

  /** `transformDeclarationsFlat` from declaration `i` on: each candidate is
      replaced by its accessors, in place, and the pass continues after them;
      the delegate fields the steps append are visited too. */
  function TransformFrom(names: StmNames, step: Contributor, c: Class, i: nat, next: Handle): Progress
    requires Contributes(names, step) && i <= |c.declarations|
    decreases CandidateCount(names, c.declarations[i..]), |c.declarations| - i
  {
    if i == |c.declarations| then Progress(c, next, None)
    else
      assert c.declarations[i..][0] == c.declarations[i] && c.declarations[i..][1..] == c.declarations[i + 1..];
      match CandidateOf(names, c.declarations[i])
      case None => TransformFrom(names, step, c, i + 1, next)
      case Some((n, f)) =>
        assert ContributesAt(names, step, c, n, f, next);
        var p := step(c, n, f, next);
        if p.result.Err? then Progress(p.cls, p.next, Some(p.result.error))
        else
          var fs := p.result.value;
          var ds := p.cls.declarations;
          var c' := p.cls.(declarations := ReplaceAt(ds, i, fs));
          assert ds[i + 1..] == c.declarations[i + 1..] + [ds[|c.declarations|]];
          CandidateCountAppend(names, c.declarations[i + 1..], [ds[|c.declarations|]]);
          TransformFrom(names, step, c', i + |fs|, p.next)
  }

  /** The pass at a candidate: the step's result `p`, and on success the
      class `c2` the pass continues on, after the accessors, with fewer
      candidates left to visit. */
  lemma ReplaceStep(names: StmNames, step: Contributor, c: Class, i: nat, next: Handle)
    returns (p: Contributed, c2: Class)
    requires Contributes(names, step) && i < |c.declarations|
    requires CandidateOf(names, c.declarations[i]).Some?
    ensures p == step(c, CandidateOf(names, c.declarations[i]).value.0, CandidateOf(names, c.declarations[i]).value.1, next)
    ensures next <= p.next && |c.declarations| < |p.cls.declarations|
    ensures p.result.Err? ==>
      && TransformFrom(names, step, c, i, next) == Progress(p.cls, p.next, Some(p.result.error))
      && p.cls == c.(declarations := p.cls.declarations)
      && p.cls.declarations[..|c.declarations|] == c.declarations
    ensures p.result.Ok? ==>
      var fs, j := p.result.value, i + |p.result.value|;
      var delegate := p.cls.declarations[|c.declarations|];
      && c2 == c.(declarations := c2.declarations)
      && j <= |c2.declarations|
      && c2.declarations[..i] == c.declarations[..i]
      && c2.declarations[i..j] == FunctionDecls(fs)
      && c2.declarations[j..] == c.declarations[i + 1..] + [delegate]
      && CandidateOf(names, delegate).None? && next <= DeclSym(delegate)
      && (forall k :: 0 <= k < |fs| ==> next <= fs[k].sym)
      && CandidateCount(names, c2.declarations[j..]) < CandidateCount(names, c.declarations[i..])
      && TransformFrom(names, step, c, i, next) == TransformFrom(names, step, c2, j, p.next)
  {
    var (n, f) := CandidateOf(names, c.declarations[i]).value;
    assert ContributesAt(names, step, c, n, f, next);
    p := step(c, n, f, next);
    if p.result.Ok? {
      c2 := Replaced(c, i, p);
      ReplaceStepShape(names, step, c, i, next);
      ReplaceStepContinues(names, step, c, i, next);
    } else {
      c2 := c;
      ReplaceStepErr(names, step, c, i, next);
    }
  }

  lemma ReplaceStepErr(names: StmNames, step: Contributor, c: Class, i: nat, next: Handle)
    requires Contributes(names, step) && i < |c.declarations|
    requires CandidateOf(names, c.declarations[i]).Some?
    requires step(c, CandidateOf(names, c.declarations[i]).value.0, CandidateOf(names, c.declarations[i]).value.1, next).result.Err?
    ensures var p := step(c, CandidateOf(names, c.declarations[i]).value.0, CandidateOf(names, c.declarations[i]).value.1, next);
      TransformFrom(names, step, c, i, next) == Progress(p.cls, p.next, Some(p.result.error))
  {
    assert c.declarations[i..][0] == c.declarations[i];
  }

  /** What the pass continues on after a successful step. */
  function Replaced(c: Class, i: nat, p: Contributed): Class
    requires p.result.Ok? && i < |p.cls.declarations|
  {
    p.cls.(declarations := ReplaceAt(p.cls.declarations, i, p.result.value))
  }

  lemma ReplaceStepShape(names: StmNames, step: Contributor, c: Class, i: nat, next: Handle)
    requires Contributes(names, step) && i < |c.declarations|
    requires CandidateOf(names, c.declarations[i]).Some?
    requires step(c, CandidateOf(names, c.declarations[i]).value.0, CandidateOf(names, c.declarations[i]).value.1, next).result.Ok?
    ensures var p := step(c, CandidateOf(names, c.declarations[i]).value.0, CandidateOf(names, c.declarations[i]).value.1, next);
      var fs, j := p.result.value, i + |p.result.value|;
      && next <= p.next
      && |c.declarations| < |p.cls.declarations|
      && var c2, delegate := Replaced(c, i, p), p.cls.declarations[|c.declarations|];
      && c2 == c.(declarations := c2.declarations)
      && j <= |c2.declarations|
      && c2.declarations[..i] == c.declarations[..i]
      && c2.declarations[i..j] == FunctionDecls(fs)
      && c2.declarations[j..] == c.declarations[i + 1..] + [delegate]
      && CandidateOf(names, delegate).None? && next <= DeclSym(delegate)
      && (forall k :: 0 <= k < |fs| ==> next <= fs[k].sym)
  {
    var (n, f) := CandidateOf(names, c.declarations[i]).value;
    assert ContributesAt(names, step, c, n, f, next);
    var p := step(c, n, f, next);
    var ds := p.cls.declarations;
    assert ds[i + 1..] == c.declarations[i + 1..] + [ds[|c.declarations|]];
    assert ds[..i] == c.declarations[..i];
  }

  lemma ReplaceStepContinues(names: StmNames, step: Contributor, c: Class, i: nat, next: Handle)
    requires Contributes(names, step) && i < |c.declarations|
    requires CandidateOf(names, c.declarations[i]).Some?
    requires step(c, CandidateOf(names, c.declarations[i]).value.0, CandidateOf(names, c.declarations[i]).value.1, next).result.Ok?
    ensures var p := step(c, CandidateOf(names, c.declarations[i]).value.0, CandidateOf(names, c.declarations[i]).value.1, next);
      var j := i + |p.result.value|;
      && |c.declarations| < |p.cls.declarations|
      && j <= |Replaced(c, i, p).declarations|
      && CandidateCount(names, Replaced(c, i, p).declarations[j..]) < CandidateCount(names, c.declarations[i..])
      && TransformFrom(names, step, c, i, next) == TransformFrom(names, step, Replaced(c, i, p), j, p.next)
  {
    assert c.declarations[i..][0] == c.declarations[i] && c.declarations[i..][1..] == c.declarations[i + 1..];
    var (n, f) := CandidateOf(names, c.declarations[i]).value;
    assert ContributesAt(names, step, c, n, f, next);
    var p := step(c, n, f, next);
    var ds := p.cls.declarations;
    assert ds[i + 1..] == c.declarations[i + 1..] + [ds[|c.declarations|]];
    CandidateCountAppend(names, c.declarations[i + 1..], [ds[|c.declarations|]]);
  }

  /** The pass changes nothing of the class but its declarations, and none
      before `i`. */
  lemma {:induction false} TransformFromFrame(names: StmNames, step: Contributor, c: Class, i: nat, next: Handle)
    requires Contributes(names, step) && i <= |c.declarations|
    ensures var r := TransformFrom(names, step, c, i, next);
      && r.cls == c.(declarations := r.cls.declarations)
      && i <= |r.cls.declarations| && r.cls.declarations[..i] == c.declarations[..i]
      && next <= r.next
    decreases CandidateCount(names, c.declarations[i..]), |c.declarations| - i, 1
  {
    if i < |c.declarations| {
      if CandidateOf(names, c.declarations[i]).None? {
        FrameSkipping(names, step, c, i, next);
      } else {
        FrameReplacing(names, step, c, i, next);
      }
    }
  }

  lemma {:induction false} FrameSkipping(names: StmNames, step: Contributor, c: Class, i: nat, next: Handle)
    requires Contributes(names, step) && i < |c.declarations|
    requires CandidateOf(names, c.declarations[i]).None?
    ensures var r := TransformFrom(names, step, c, i, next);
      && r.cls == c.(declarations := r.cls.declarations)
      && i <= |r.cls.declarations| && r.cls.declarations[..i] == c.declarations[..i]
      && next <= r.next
    decreases CandidateCount(names, c.declarations[i..]), |c.declarations| - i, 0
  {
    assert c.declarations[i..][0] == c.declarations[i] && c.declarations[i..][1..] == c.declarations[i + 1..];
    TransformFromFrame(names, step, c, i + 1, next);
    var r := TransformFrom(names, step, c, i + 1, next);
    assert TransformFrom(names, step, c, i, next) == r;
    assert r.cls.declarations[..i] == r.cls.declarations[..i + 1][..i];
  }

  lemma {:induction false} FrameReplacing(names: StmNames, step: Contributor, c: Class, i: nat, next: Handle)
    requires Contributes(names, step) && i < |c.declarations|
    requires CandidateOf(names, c.declarations[i]).Some?
    ensures var r := TransformFrom(names, step, c, i, next);
      && r.cls == c.(declarations := r.cls.declarations)
      && i <= |r.cls.declarations| && r.cls.declarations[..i] == c.declarations[..i]
      && next <= r.next
    decreases CandidateCount(names, c.declarations[i..]), |c.declarations| - i, 0
  {
    var p, c2 := ReplaceStep(names, step, c, i, next);
    if p.result.Ok? {
      var j := i + |p.result.value|;
      TransformFromFrame(names, step, c2, j, p.next);
      var r := TransformFrom(names, step, c2, j, p.next);
      assert r.cls.declarations[..i] == r.cls.declarations[..j][..i];
    } else {
      assert p.cls.declarations[..i] == p.cls.declarations[..|c.declarations|][..i];
    }
  }

  /** When the pass succeeds, no candidate is left from `i` on. */
  lemma {:induction false} TransformFromClears(names: StmNames, step: Contributor, c: Class, i: nat, next: Handle)
    requires Contributes(names, step) && i <= |c.declarations|
    ensures var r := TransformFrom(names, step, c, i, next);
      r.error.None? ==> forall k :: i <= k < |r.cls.declarations| ==> CandidateOf(names, r.cls.declarations[k]).None?
    decreases CandidateCount(names, c.declarations[i..]), |c.declarations| - i, 1
  {
    if i < |c.declarations| {
      if CandidateOf(names, c.declarations[i]).None? {
        ClearsSkipping(names, step, c, i, next);
      } else {
        ClearsReplacing(names, step, c, i, next);
      }
    }
  }

  lemma {:induction false} ClearsSkipping(names: StmNames, step: Contributor, c: Class, i: nat, next: Handle)
    requires Contributes(names, step) && i < |c.declarations|
    requires CandidateOf(names, c.declarations[i]).None?
    ensures var r := TransformFrom(names, step, c, i, next);
      r.error.None? ==> forall k :: i <= k < |r.cls.declarations| ==> CandidateOf(names, r.cls.declarations[k]).None?
    decreases CandidateCount(names, c.declarations[i..]), |c.declarations| - i, 0
  {
    assert c.declarations[i..][0] == c.declarations[i] && c.declarations[i..][1..] == c.declarations[i + 1..];
    TransformFromClears(names, step, c, i + 1, next);
    TransformFromFrame(names, step, c, i + 1, next);
    var r := TransformFrom(names, step, c, i + 1, next);
    assert TransformFrom(names, step, c, i, next) == r;
    assert r.cls.declarations[i] == r.cls.declarations[..i + 1][i];
  }

  lemma {:induction false} ClearsReplacing(names: StmNames, step: Contributor, c: Class, i: nat, next: Handle)
    requires Contributes(names, step) && i < |c.declarations|
    requires CandidateOf(names, c.declarations[i]).Some?
    ensures var r := TransformFrom(names, step, c, i, next);
      r.error.None? ==> forall k :: i <= k < |r.cls.declarations| ==> CandidateOf(names, r.cls.declarations[k]).None?
    decreases CandidateCount(names, c.declarations[i..]), |c.declarations| - i, 0
  {
    var p, c2 := ReplaceStep(names, step, c, i, next);
    if p.result.Ok? {
      var j := i + |p.result.value|;
      TransformFromClears(names, step, c2, j, p.next);
      TransformFromFrame(names, step, c2, j, p.next);
      var r := TransformFrom(names, step, c2, j, p.next);
      assert r.cls.declarations[i..j] == r.cls.declarations[..j][i..] == c2.declarations[..j][i..] == c2.declarations[i..j];
      FunctionsAreNotCandidates(names, r.cls.declarations, i, j, p.result.value);
    }
  }

  /** Functions are never candidates. */
  lemma FunctionsAreNotCandidates(names: StmNames, ds: seq<Decl>, i: nat, j: nat, fs: seq<Fun>)
    requires i <= j <= |ds| && ds[i..j] == FunctionDecls(fs)
    ensures forall k :: i <= k < j ==> CandidateOf(names, ds[k]).None?
  {
    forall k | i <= k < j ensures CandidateOf(names, ds[k]).None? {
      assert ds[k] == ds[i..j][k - i];
    }
  }

  /** The declarations of `ds` with symbols below `bound`, in order. */
  function OlderThan(bound: Handle, ds: seq<Decl>): seq<Decl> {
    if ds == [] then []
    else (if DeclSym(ds[0]) < bound then [ds[0]] else []) + OlderThan(bound, ds[1..])
  }

  /** The declarations of `ds` with symbols below `bound` that are not
      candidates, in order. */
  function Survivors(names: StmNames, bound: Handle, ds: seq<Decl>): seq<Decl> {
    if ds == [] then []
    else (if DeclSym(ds[0]) < bound && CandidateOf(names, ds[0]).None? then [ds[0]] else [])
         + Survivors(names, bound, ds[1..])
  }

  lemma {:induction false} OlderThanAppend(bound: Handle, a: seq<Decl>, b: seq<Decl>)
    ensures OlderThan(bound, a + b) == OlderThan(bound, a) + OlderThan(bound, b)
    decreases |a|
  {
    if a != [] {
      assert (a + b)[0] == a[0] && (a + b)[1..] == a[1..] + b;
      OlderThanAppend(bound, a[1..], b);
    } else {
      assert a + b == b;
    }
  }

  lemma {:induction false} SurvivorsAppend(names: StmNames, bound: Handle, a: seq<Decl>, b: seq<Decl>)
    ensures Survivors(names, bound, a + b) == Survivors(names, bound, a) + Survivors(names, bound, b)
    decreases |a|
  {
    if a != [] {
      assert (a + b)[0] == a[0] && (a + b)[1..] == a[1..] + b;
      SurvivorsAppend(names, bound, a[1..], b);
    } else {
      assert a + b == b;
    }
  }

  lemma {:induction false} OlderThanFresh(bound: Handle, fs: seq<Fun>)
    requires forall j :: 0 <= j < |fs| ==> bound <= fs[j].sym
    ensures OlderThan(bound, FunctionDecls(fs)) == []
    decreases |fs|
  {
    if fs != [] {
      assert FunctionDecls(fs)[1..] == FunctionDecls(fs[1..]);
      OlderThanFresh(bound, fs[1..]);
    }
  }

  /** When the pass succeeds, the declarations older than `bound` from `i`
      on are exactly the original non-candidates, in their original order:
      a candidate disappears, everything else stays where it was relative to
      the rest, and all that is added is new. */
  lemma {:induction false} TransformFromKeeps(names: StmNames, step: Contributor, c: Class, i: nat, next: Handle, bound: Handle)
    requires Contributes(names, step) && i <= |c.declarations| && bound <= next
    ensures var r := TransformFrom(names, step, c, i, next);
      r.error.None? ==>
        (i <= |r.cls.declarations| &&
         OlderThan(bound, r.cls.declarations[i..]) == Survivors(names, bound, c.declarations[i..]))
    decreases CandidateCount(names, c.declarations[i..]), |c.declarations| - i, 1
  {
    TransformFromFrame(names, step, c, i, next);
    if i < |c.declarations| {
      if CandidateOf(names, c.declarations[i]).None? {
        KeepsSkipping(names, step, c, i, next, bound);
      } else {
        KeepsReplacing(names, step, c, i, next, bound);
      }
    }
  }

  lemma {:induction false} KeepsSkipping(names: StmNames, step: Contributor, c: Class, i: nat, next: Handle, bound: Handle)
    requires Contributes(names, step) && i < |c.declarations| && bound <= next
    requires CandidateOf(names, c.declarations[i]).None?
    ensures var r := TransformFrom(names, step, c, i, next);
      r.error.None? ==>
        (i <= |r.cls.declarations| &&
         OlderThan(bound, r.cls.declarations[i..]) == Survivors(names, bound, c.declarations[i..]))
    decreases CandidateCount(names, c.declarations[i..]), |c.declarations| - i, 0
  {
    assert c.declarations[i..][0] == c.declarations[i] && c.declarations[i..][1..] == c.declarations[i + 1..];
    TransformFromKeeps(names, step, c, i + 1, next, bound);
    TransformFromFrame(names, step, c, i + 1, next);
    var r := TransformFrom(names, step, c, i + 1, next);
    if r.error.None? {
      assert r.cls.declarations[i] == r.cls.declarations[..i + 1][i];
      assert r.cls.declarations[i..] == [c.declarations[i]] + r.cls.declarations[i + 1..];
      OlderThanAppend(bound, [c.declarations[i]], r.cls.declarations[i + 1..]);
      assert [c.declarations[i]][1..] == [];
    }
  }

  lemma {:induction false} KeepsReplacing(names: StmNames, step: Contributor, c: Class, i: nat, next: Handle, bound: Handle)
    requires Contributes(names, step) && i < |c.declarations| && bound <= next
    requires CandidateOf(names, c.declarations[i]).Some?
    ensures var r := TransformFrom(names, step, c, i, next);
      r.error.None? ==>
        (i <= |r.cls.declarations| &&
         OlderThan(bound, r.cls.declarations[i..]) == Survivors(names, bound, c.declarations[i..]))
    decreases CandidateCount(names, c.declarations[i..]), |c.declarations| - i, 0
  {
    var p, c2 := ReplaceStep(names, step, c, i, next);
    if p.result.Ok? {
      var fs := p.result.value;
      var j := i + |fs|;
      var ds, delegate := c.declarations[i..], p.cls.declarations[|c.declarations|];
      assert ds[0] == c.declarations[i] && ds[1..] == c.declarations[i + 1..];
      assert c2.declarations[j..] == ds[1..] + [delegate];
      TransformFromKeeps(names, step, c2, j, p.next, bound);
      TransformFromFrame(names, step, c2, j, p.next);
      var r := TransformFrom(names, step, c2, j, p.next);
      if r.error.None? {
        var rest := r.cls.declarations[j..];
        assert OlderThan(bound, rest) == Survivors(names, bound, ds[1..] + [delegate]);
        assert r.cls.declarations[i..] == FunctionDecls(fs) + rest by {
          assert r.cls.declarations[i..j] == r.cls.declarations[..j][i..j] == c2.declarations[i..j];
        }
        KeepsAcrossReplacement(names, bound, ds, fs, delegate, rest);
      }
    }
  }

  /** One candidate step of the pass, as a fact about sequences: dropping a
      candidate, adding fresh accessors in its place and a fresh delegate at
      the end keeps the survivors. */
  lemma KeepsAcrossReplacement(names: StmNames, bound: Handle, ds: seq<Decl>, fs: seq<Fun>, delegate: Decl, rest: seq<Decl>)
    requires ds != [] && CandidateOf(names, ds[0]).Some?
    requires forall j :: 0 <= j < |fs| ==> bound <= fs[j].sym
    requires bound <= DeclSym(delegate)
    requires OlderThan(bound, rest) == Survivors(names, bound, ds[1..] + [delegate])
    ensures OlderThan(bound, FunctionDecls(fs) + rest) == Survivors(names, bound, ds)
  {
    OlderThanAppend(bound, FunctionDecls(fs), rest);
    OlderThanFresh(bound, fs);
    SurvivorsAppend(names, bound, ds[1..], [delegate]);
    assert [delegate][1..] == [];
  }

  // ---------------------------------------------------------------------
  // patchSharedClass

  /** `getSTMField`: the private, final STM field of the STM interface type. */
  function StmField(names: StmNames, c: Class, stmInterface: Handle, next: Handle): Field {
    Field(next, names.stmFieldName, ClassType(stmInterface, [], false), Private, DelegatedMember, true, false, Some(c.sym), None)
  }

  /** `generateSTMField`: the STM field is initialised by calling the search
      method on the searcher object. */
  function SearchInitializer(names: StmNames, rt: Runtime, span: Span, field: Field): Result<Expr, StmError> {
    var search :- FindStmMethod(rt, names.stmSearcher, names.searchMethod);
    var searcher :- FindStmClass(rt, names.stmSearcher);
    Ok(Call(span, field.typ, search.sym, NoStatementOrigin, None, [],
            Some(GetObject(span, DefaultType(searcher.sym), searcher.sym)), None, []))
  }

  /** The runtime lookups after the STM field is initialised, in source order;
      the context type is the return type of the context getter. */
  function LookupEnv(names: StmNames, rt: Runtime, types: BuiltinTypes, stmField: Field): Result<StmEnv, StmError> {
    var delegate :- FindStmClass(rt, names.universalDelegate);
    var wrap :- FindStmMethod(rt, names.stmInterface, names.wrapMethod);
    var getVar :- FindStmMethod(rt, names.stmInterface, names.getVarMethod);
    var setVar :- FindStmMethod(rt, names.stmInterface, names.setVarMethod);
    var getContext :- FindStmMethod(rt, names.stmInterface, names.getContextMethod);
    var contextType :- if getContext.returnType.Some? then Ok(getContext.returnType.value)
                       else Err(NullReturnType(getContext.name));
    var runAtomically :- FindStmMethod(rt, names.stmInterface, names.runAtomicallyMethod);
    Ok(StmEnv(stmField, delegate.sym, wrap, getVar, setVar, contextType, runAtomically, types))
  }

  /** The member rewrite once the runtime is found: every method is wrapped
      into a transaction, then every candidate field or property gets a
      delegate and accessors. */
  function RewriteMembers(names: StmNames, env: StmEnv, c: Class, members: seq<Fun>, enclosing: seq<Fun>, next: Handle)
    : Progress
    requires SuffixIsSharable(names)
  {
    var wrapped := WrapFunctions(names, env, c, enclosing, 0, next);
    if wrapped.error.Some? then wrapped
    else
      AccessorStepContributes(names, env, members);
      TransformFrom(names, AccessorStep(names, env, members), wrapped.cls, 0, wrapped.next)
  }

  /** The member rewrite changes nothing of the class but its declarations;
      when it succeeds, no candidate field or property is left. */
  lemma RewriteMembersClears(names: StmNames, env: StmEnv, c: Class, members: seq<Fun>, enclosing: seq<Fun>, next: Handle)
    requires SuffixIsSharable(names)
    ensures var r := RewriteMembers(names, env, c, members, enclosing, next);
      && r.cls == c.(declarations := r.cls.declarations)
      && (r.error.None? ==> forall k :: 0 <= k < |r.cls.declarations| ==> CandidateOf(names, r.cls.declarations[k]).None?)
  {
    WrapFunctionsShape(names, env, c, enclosing, 0, next);
    var wrapped := WrapFunctions(names, env, c, enclosing, 0, next);
    if wrapped.error.None? {
      AccessorStepContributes(names, env, members);
      TransformFromFrame(names, AccessorStep(names, env, members), wrapped.cls, 0, wrapped.next);
      TransformFromClears(names, AccessorStep(names, env, members), wrapped.cls, 0, wrapped.next);
    }
  }

  /** `patchSharedClass`: add the STM field, look up the runtime, then
      rewrite the members. `members` are the member functions of the class's
      descriptor, `enclosing` the functions around the class, innermost
      first. */
  function PatchSharedClass(names: StmNames, rt: Runtime, types: BuiltinTypes, c: Class, members: seq<Fun>,
                            enclosing: seq<Fun>, next: Handle): Progress
    requires SuffixIsSharable(names)
  {
    match FindStmClass(rt, names.stmInterface)
    case Err(e) => Progress(c, next, Some(e))
    case Ok(stm) =>
      var field := StmField(names, c, stm.sym, next);
      match SearchInitializer(names, rt, c.span, field)
      case Err(e) => Progress(AddField(c, field), next + 1, Some(e))
      case Ok(init) =>
        var initialised := field.(initializer := Some(init));
        match LookupEnv(names, rt, types, initialised)
        case Err(e) => Progress(AddField(c, initialised), next + 1, Some(e))
        case Ok(env) => RewriteMembers(names, env, AddField(c, initialised), members, enclosing, next + 1)
  }

  /** `patchSharedClass` is not all-or-nothing: a missing STM interface
      leaves the class untouched, but a runtime lookup that fails after it
      leaves the class with the STM field appended. */
  lemma PatchSharedClassPartial(names: StmNames, rt: Runtime, types: BuiltinTypes, c: Class, members: seq<Fun>,
                                enclosing: seq<Fun>, next: Handle)
    requires SuffixIsSharable(names)
    ensures var r := PatchSharedClass(names, rt, types, c, members, enclosing, next);
      && (names.stmInterface !in rt ==> r == Progress(c, next, Some(MissingRuntimeClass(names.stmInterface))))
      && (names.stmInterface in rt ==>
            var field := StmField(names, c, rt[names.stmInterface].sym, next);
            var init := SearchInitializer(names, rt, c.span, field);
            && (init.Err? ==> r == Progress(AddField(c, field), next + 1, Some(init.error)))
            && (init.Ok? && LookupEnv(names, rt, types, field.(initializer := Some(init.value))).Err? ==>
                  r.cls == AddField(c, field.(initializer := Some(init.value))) && r.error.Some?))
  {
  }

  /** A rewrite that succeeds leaves no candidate field or property behind. */
  lemma PatchSharedClassClears(names: StmNames, rt: Runtime, types: BuiltinTypes, c: Class, members: seq<Fun>,
                               enclosing: seq<Fun>, next: Handle)
    requires SuffixIsSharable(names)
    ensures var r := PatchSharedClass(names, rt, types, c, members, enclosing, next);
      r.error.None? ==> forall k :: 0 <= k < |r.cls.declarations| ==> CandidateOf(names, r.cls.declarations[k]).None?
  {
    var r := PatchSharedClass(names, rt, types, c, members, enclosing, next);
    if r.error.None? {
      var stm := FindStmClass(rt, names.stmInterface).value;
      var field := StmField(names, c, stm.sym, next);
      var initialised := field.(initializer := Some(SearchInitializer(names, rt, c.span, field).value));
      var env := LookupEnv(names, rt, types, initialised).value;
      assert r == RewriteMembers(names, env, AddField(c, initialised), members, enclosing, next + 1);
      RewriteMembersClears(names, env, AddField(c, initialised), members, enclosing, next + 1);
    }
  }

}

=== FILE: symbol_remapper.dfy ===
/** The symbol remapper a deep copy is driven by. A first pass visits the
    tree and records, for every symbol the tree declares, a fresh symbol
    for its copy; the copy pass then sends declared symbols to their fresh
    copies and every other reference through the table, falling back to the
    reference itself when it points outside the copied tree.

    `ScriptClassRemap` is the remapper of the script lowering: it also sends
    the script's classifier symbol to the new class symbol. */
module SymbolRemapper {
  import opened Wrappers
  import opened Ir
  import opened DeepCopy

  /** `table` holds the copies of ordinary declarations, `scripts` those of
      scripts; `next` is the first symbol not yet handed out. */
  datatype Remapper = Remapper(table: map<Handle, Handle>, scripts: map<Handle, Handle>, next: Handle)

  function Empty(next: Handle): (r: Remapper)
    ensures r.table == map[] && r.scripts == map[] && r.next == next
  {
    Remapper(map[], map[], next)
  }

  /** The referenced symbol after remapping: its copy if the copied tree
      declares it, otherwise the symbol itself. */
  function Lookup(t: map<Handle, Handle>, h: Handle): (r: Handle)
    ensures h in t ==> r == t[h]
    ensures h !in t ==> r == h
  {
    if h in t then t[h] else h
  }

  /** Every copy symbol handed out is below `next`, and no two recorded
      symbols share a copy. */
  ghost predicate Valid(r: Remapper) {
    && (forall h :: h in r.table ==> r.table[h] < r.next)
    && (forall h :: h in r.scripts ==> r.scripts[h] < r.next)
    && (forall a, b :: a in r.table && b in r.table && a != b ==> r.table[a] != r.table[b])
    && (forall a, b :: a in r.scripts && b in r.scripts && a != b ==> r.scripts[a] != r.scripts[b])
    && (forall a, b :: a in r.table && b in r.scripts ==> r.table[a] != r.scripts[b])
  }

  /** Visiting one reference: a declared symbol seen for the first time gets
      the next fresh symbol; a symbol seen before keeps its copy. */
  function RegisterRef(r: Remapper, x: Ref): (r': Remapper)
    ensures r.next <= r'.next
    ensures forall h :: h in r'.table <==> h in r.table || x == Ref(Declared, h)
    ensures forall h :: h in r'.scripts <==> h in r.scripts || x == Ref(DeclaredScript, h)
    ensures forall h :: h in r.table ==> r'.table[h] == r.table[h]
    ensures forall h :: h in r.scripts ==> r'.scripts[h] == r.scripts[h]
    ensures forall h :: h in r'.table && h !in r.table ==> r.next <= r'.table[h] < r'.next
    ensures forall h :: h in r'.scripts && h !in r.scripts ==> r.next <= r'.scripts[h] < r'.next
  {
    match x.kind
    case Declared =>
      if x.h in r.table then r else r.(table := r.table[x.h := r.next], next := r.next + 1)
    case DeclaredScript =>
      if x.h in r.scripts then r else r.(scripts := r.scripts[x.h := r.next], next := r.next + 1)
    case _ => r
  }

  /** The visiting pass over a tree whose references are `rs`, in order. */
  function Register(r: Remapper, rs: seq<Ref>): (r': Remapper)
    ensures r.next <= r'.next
    ensures forall h :: h in r'.table <==> h in r.table || Ref(Declared, h) in rs
    ensures forall h :: h in r'.scripts <==> h in r.scripts || Ref(DeclaredScript, h) in rs
    ensures forall h :: h in r.table ==> r'.table[h] == r.table[h]
    ensures forall h :: h in r.scripts ==> r'.scripts[h] == r.scripts[h]
    ensures forall h :: h in r'.table && h !in r.table ==> r.next <= r'.table[h] < r'.next
    ensures forall h :: h in r'.scripts && h !in r.scripts ==> r.next <= r'.scripts[h] < r'.next
    decreases |rs|
  {
    if rs == [] then r
    else
      var r1 := RegisterRef(r, rs[0]);
      var r' := Register(r1, rs[1..]);
      assert forall x :: x in rs <==> x == rs[0] || x in rs[1..];
      r'
  }

  lemma RegisterRefValid(r: Remapper, x: Ref)
    requires Valid(r)
    ensures Valid(RegisterRef(r, x))
  {
  }

  lemma {:induction false} RegisterValid(r: Remapper, rs: seq<Ref>)
    requires Valid(r)
    ensures Valid(Register(r, rs))
    decreases |rs|
  {
    if rs != [] {
      RegisterRefValid(r, rs[0]);
      RegisterValid(RegisterRef(r, rs[0]), rs[1..]);
    }
  }

  /** Memoisation: visiting a tree a second time hands out nothing new. */
  lemma {:induction false} RegisterIdempotent(r: Remapper, rs: seq<Ref>)
    ensures Register(Register(r, rs), rs) == Register(r, rs)
  {
    RegisterKnown(Register(r, rs), rs);
  }

  lemma {:induction false} RegisterKnown(r: Remapper, rs: seq<Ref>)
    requires forall h :: Ref(Declared, h) in rs ==> h in r.table
    requires forall h :: Ref(DeclaredScript, h) in rs ==> h in r.scripts
    ensures Register(r, rs) == r
    decreases |rs|
  {
    if rs != [] {
      assert rs[0] in rs;
      assert RegisterRef(r, rs[0]) == r;
      assert forall x :: x in rs[1..] ==> x in rs;
      RegisterKnown(r, rs[1..]);
    }
  }

  /** Visiting `a` then `b` is visiting `a + b`. */
  lemma {:induction false} RegisterAppend(r: Remapper, a: seq<Ref>, b: seq<Ref>)
    ensures Register(r, a + b) == Register(Register(r, a), b)
    decreases |a|
  {
    if a != [] {
      assert (a + b)[0] == a[0];
      assert (a + b)[1..] == a[1..] + b;
      RegisterAppend(RegisterRef(r, a[0]), a[1..], b);
    } else {
      assert a + b == b;
    }
  }

  /** The remapper of the script lowering. Declared symbols go to their
      copies, references through the table; a reference to a classifier is
      first redirected from the script to the class. Parent links are not
      remapped by this remapper (the copy re-parents structurally). */
  function ScriptClassRemap(r: Remapper, script: Handle, cls: Handle): Ref -> Handle {
    (x: Ref) =>
      match x.kind
      case Declared => Lookup(r.table, x.h)
      case DeclaredScript => Lookup(r.scripts, x.h)
      case Referenced => Lookup(r.table, x.h)
      case ReferencedClassifier => Lookup(r.table, if x.h == script then cls else x.h)
      case ParentRef => x.h
  }

  /** A copy keeps no reference into the copied tree: a referenced symbol in
      the copy is either a copy (at least `n`) or an original reference the
      tree does not declare; a classifier reference may also be the class. */
  lemma {:induction false} CopyReferencesStay(r: Remapper, script: Handle, cls: Handle, rs: seq<Ref>, n: Handle)
    requires forall h :: h in r.table ==> n <= r.table[h]
    ensures forall h :: Ref(Referenced, h) in MapRefs(ScriptClassRemap(r, script, cls), rs) ==>
      n <= h || (Ref(Referenced, h) in rs && h !in r.table)
    ensures forall h :: Ref(ReferencedClassifier, h) in MapRefs(ScriptClassRemap(r, script, cls), rs) ==>
      n <= h || h == cls || (Ref(ReferencedClassifier, h) in rs && h != script && h !in r.table)
    decreases |rs|
  {
    if rs != [] {
      var m := ScriptClassRemap(r, script, cls);
      var copy := MapRefs(m, rs);
      assert copy == [Ref(rs[0].kind, m(rs[0]))] + MapRefs(m, rs[1..]);
      assert forall x :: x in copy ==> x == copy[0] || x in MapRefs(m, rs[1..]);
      assert forall x :: x in rs[1..] ==> x in rs;
      assert rs[0] in rs;
      CopyReferencesStay(r, script, cls, rs[1..], n);
    }
  }

  /** Conversely, each reference of the tree reappears in the copy: a symbol
      the tree declares as its copy, any other unchanged; the script as a
      classifier becomes the class. */
  lemma {:induction false} CopyReferencesFollow(r: Remapper, script: Handle, cls: Handle, rs: seq<Ref>)
    ensures forall h :: Ref(Referenced, h) in rs ==>
      Ref(Referenced, Lookup(r.table, h)) in MapRefs(ScriptClassRemap(r, script, cls), rs)
    ensures forall h :: Ref(ReferencedClassifier, h) in rs && h != script ==>
      Ref(ReferencedClassifier, Lookup(r.table, h)) in MapRefs(ScriptClassRemap(r, script, cls), rs)
    ensures Ref(ReferencedClassifier, script) in rs && cls !in r.table ==>
      Ref(ReferencedClassifier, cls) in MapRefs(ScriptClassRemap(r, script, cls), rs)
    decreases |rs|
  {
    if rs != [] {
      var m := ScriptClassRemap(r, script, cls);
      var copy := MapRefs(m, rs);
      assert copy == [Ref(rs[0].kind, m(rs[0]))] + MapRefs(m, rs[1..]);
      assert copy[0] in copy;
      assert forall x :: x in MapRefs(m, rs[1..]) ==> x in copy;
      assert forall x :: x in rs ==> x == rs[0] || x in rs[1..];
      CopyReferencesFollow(r, script, cls, rs[1..]);
    }
  }

  /** A copy declares only fresh symbols: every symbol the copied tree
      declares was registered, and every registered copy is at least `n`. */
  lemma {:induction false} CopyDeclaresFresh(r: Remapper, script: Handle, cls: Handle, rs: seq<Ref>, n: Handle)
    requires forall h :: Ref(Declared, h) in rs ==> h in r.table
    requires forall h :: Ref(DeclaredScript, h) in rs ==> h in r.scripts
    requires forall h :: h in r.table ==> n <= r.table[h]
    requires forall h :: h in r.scripts ==> n <= r.scripts[h]
    ensures forall h :: Ref(Declared, h) in MapRefs(ScriptClassRemap(r, script, cls), rs) ==> n <= h
    ensures forall h :: Ref(DeclaredScript, h) in MapRefs(ScriptClassRemap(r, script, cls), rs) ==> n <= h
  {
    if rs != [] {
      assert forall x :: x in rs[1..] ==> x in rs;
      assert rs[0] in rs;
      CopyDeclaresFresh(r, script, cls, rs[1..], n);
    }
  }
}

=== FILE: wrappers.dfy ===
/** Failure-compatible wrappers used by every module of the model: `Option`
    for the source's nullable values and `Result` for operations that throw. */
module Wrappers {

  /** A nullable value. */
  datatype Option<+T> = None | Some(value: T)

  /** The outcome of an operation that either produces a value or throws. */
  datatype Result<+T, +E> = Ok(value: T) | Err(error: E) {

    predicate IsFailure() {
      Err?
    }

    function PropagateFailure<U>(): Result<U, E>
      requires Err?
    {
      Err(error)
    }

    function Extract(): T
      requires Ok?
    {
      value
    }
  }
}
